=== FILE: README.md ===
# cpu-entitlement-plugin, modelled in Dafny

The cpu-entitlement plugin for the Cloud Foundry CLI reports how much of its
CPU entitlement each instance of an application uses. It also reports which
applications of an organization have an instance over its entitlement.

The plugin works in five stages:

- **Fetchers** turn log-cache PromQL samples, range series and loggregator
  envelopes into per-instance data. They filter by instance index and by
  `process_instance_id`, and keep the first, last or latest record.
- **Reporters** merge the fetchers' results into per-instance reports, sorted
  by instance index. The over-entitlement reporters keep, space by space, the
  applications with an instance whose usage is strictly above 1.
- **Renderers** colour the rows, choose the tip and select the spike warnings.
- **Runners** route the outcomes of the collaborators to a `Result`: success,
  failure, or failure with the "feature not enabled" warning.
- **Endpoint rewriting and the token cache** support the above. The log-cache
  and log-stream URLs are derived from the API or doppler URL. An OAuth token
  is cached until its `exp` claim (RFC 7519 section 4.1.4) has passed. The
  claim is read from the unpadded base64url payload (RFC 4648 section 5).

Each core Go file has its own Dafny module, with three exceptions. The
log-cache and log-stream URL functions of plugins/app_plugin.go,
plugins/org/plugin.go and plugin/plugin.go share `Endpoints`, with their
regular expressions in `Regexps`. The row colouring, status, spike-warning
and header logic that output/app_renderer.go and output/renderer.go have in
common lives in `Display`. The standard-library functions the code calls
(`strconv`, `strings`, `encoding/base64`, `time`) have modules of their own.
The model takes the form of the code:

- Loops that fill maps and slices are methods with loop invariants, proved
  against specification functions.
- The token getters are classes whose methods update their two fields.
- The rest are functions with lemmas about them.
- Some loops decode each element and fold it into a map. Their specification
  folds (`Rows`, `LatestBy`, `AveragesBy`, `ScanFrom`) take the per-element
  decoding as a parameter. `Historical`, `LatestOf` and `Averages`, and the
  fetch methods, instantiate that parameter with the code's own decoding. The
  lemmas about a fold hold for every decoding, so they hold for the code's.

The model's boundaries are drawn as follows:

- **Collaborators are inputs.** The CLI, log-cache, the fetchers, the
  display and the clock appear either as inputs (the value the call returned)
  or as function parameters.
- **Call traces.** Where the code's promise is about which calls happen, the
  model returns the trace of display or collaborator calls.
- **Errors.** A Go `(value, error)` pair is an `ErrorOr`. A Go panic is the
  error `Panic`.
- **Times.** A Go time is an integer number of nanoseconds since the Unix
  epoch. The zero time is `time.Time{}`, 62135596800 seconds before the epoch.
- **Usage values** are reals.

The shown packages do not all compile together, and the model follows each
file's own text:

- **Report types.** plugins/app/runner.go uses the report type of a package
  that is not part of this model. Its reports are modelled with
  reporter/reporter.go's `InstanceReport`. output/renderer.go reads a
  `calculator.InstanceReport` that calculator/calculator.go does not declare.
  The model rebuilds it from the renderer's use as a record with the four
  fields read there. Its spike test mirrors reporter/reporter.go's
  `HasRecordedSpike` (line 39): the spike's end is not the zero time.
- **Decoders.** metrics/fetcher.go calls an `InstanceDataFromGauge` that is
  not shown. The model decodes with metrics/data.go's
  `InstanceDataFromEnvelope`, which reads the same gauge keys.
- **Two copies of the token code.** httpclient/token.go's
  `extractExpirationTimeFromToken` is identical to token/token.go's. Both
  getters use `Token.ExtractExpirationTime`.
- **Library stand-ins.** Modules `GoLib`, `Strconv`, `Strings`, `Base64`,
  `LogCache` and `Regexps` model the parts of Go's standard library and of
  log-cache that the core calls:
  - `strconv.Atoi` and `ParseFloat` (decimal subset);
  - `strings.Split`;
  - `base64.RawURLEncoding`;
  - the two fixed regular expressions, with leftmost-first, greedy matching.

## Model

| member | source | states |
|---|---|---|
| GoLib.Lookup | fetchers/current_usage.go:103-104 | a Go map lookup yields the stored value for a present key and the zero value for an absent one |
| GoLib.FloatDiv | usagemetric/usagemetric.go:39-41 | for a non-zero divisor the quotient times the divisor is the dividend, and for a positive divisor the quotient exceeds 1 iff the dividend exceeds the divisor |
| GoLib.Unix | token/token.go:71 | `time.Unix(sec, 0)` is `sec` seconds after the epoch, in nanoseconds |
| GoLib.UnixNano | metrics/data.go:44 | `time.Unix(0, nsec)` is `nsec` nanoseconds after the epoch |
| GoLib.UnixInjective | fetchers/last_spike.go:62-63 | two whole-second times are equal iff their seconds are, so "from equals to" is a comparison of the gauge values |
| GoLib.EpochIsNotZero | reporter/reporter.go:39-41 | the epoch is not Go's zero time, so a token or spike at second 0 still counts as set |
| Strconv.Atoi | fetchers/current_usage.go:97 | an accepted instance id is an optionally signed decimal within the 64-bit range |
| Strconv.AtoiItoa | metrics/usage.go:35 | every 64-bit integer printed in decimal parses back to itself |
| Strconv.Trunc | fetchers/historical_usage.go:83 | the conversion of a float to an integer truncates toward zero |
| Strconv.ParseFloat | fetchers/historical_usage.go:77 | a parsed number comes from a non-empty string that is more than a lone sign or point; a negative value needs a leading '-', and a leading '-' never gives a positive value |
| Strconv.ParseWholeSeconds | fetchers/historical_usage.go:77 | a timestamp written as whole decimal seconds parses to that number and truncates to it |
| Strings.Split | token/token.go:58 | splitting gives at least one part, and no part contains the separator |
| Strings.JoinSplit | token/token.go:58 | joining the parts with the separator gives back the original string |
| Strings.SplitHasSecond | token/token.go:58 | there is a second part iff the separator occurs in the string |
| Strings.SplitIndex | token/token.go:58 | succeeds iff the index is within the parts, and then yields exactly that part, which is free of the separator; any other index panics |
| Base64.SextetOfAlphabetChar | token/token.go:60 | every character of the URL-safe alphabet decodes to its own 6-bit value |
| Base64.StripNewlines | token/token.go:60 | the decoder ignores carriage returns and newlines |
| Base64.SextetsToBytes | token/token.go:60 | unpadded input whose length is 1 modulo 4 is rejected |
| Base64.SextetsToBytesLength | token/token.go:60 | every sextet count but 1 modulo 4 decodes, and n sextets give 3n/4 (rounded down) bytes |
| Base64.DecodeString | token/token.go:60 | line breaks are skipped; any other character outside the alphabet is an error; apart from line breaks, n alphabet characters decode iff n mod 4 is not 1, into 3n/4 (rounded down) bytes |
| Base64.SextetsRoundTrip | token/token.go:60 | regrouping the 6-bit values of any byte string decodes to those bytes |
| Base64.DecodeEncode | token/token.go:60 | unpadded base64url decoding inverts encoding for every byte string (RFC 4648 section 5) |
| Base64.PaddingRejected | token/token.go:60 | raw decoding rejects any input containing a padding character |
| LogCache.GaugeMetrics | metrics/data.go:21 | an envelope that is not a gauge has no metrics |
| LogCache.Label | fetchers/current_usage.go:103 | a missing label reads as the empty string |
| CfClient.SpaceApps | cf/client.go:59-62 | one application per listed app, in CLI order, with its name and guid, naming the space it belongs to |
| CfClient.GetSpaces | cf/client.go:45-67 | the listing error, or else the specification `SpacesOf`: the first `GetSpace` error, or one space per listed space |
| CfClient.SpacesFollowListing | cf/client.go:53-65 | when every `GetSpace` succeeds, the spaces are the listed ones in CLI order, and every application names its containing space |
| CfClient.FirstSpaceErrorWins | cf/client.go:54-57 | the first failing `GetSpace` decides the error of the whole listing |
| CfClient.GetApplication | cf/client.go:70-87 | the `GetApp` error comes first, then the `GetCurrentSpace` error; otherwise there is one instance per index with `InstanceID` equal to the index and `Since` copied |
| CfClient.GetCurrentOrg | cf/client.go:89-95 | the organization's name, or the CLI's error |
| CfClient.GetCurrentSpace | cf/client.go:97-103 | the space's name, or the CLI's error |
| CfClient.Username | cf/client.go:105-107 | the CLI's answer unchanged |
| AdminCfClient.AdminApps | vendor/code.cloudfoundry.org/cpu-entitlement-admin-plugin/cf/client.go:37-40 | applications copy name and guid, in CLI order |
| AdminCfClient.GetSpaces | vendor/code.cloudfoundry.org/cpu-entitlement-admin-plugin/cf/client.go:23-46 | the listing error, or else the first `GetSpace` error, or one space per listed space |
| AdminCfClient.AdminSpacesFollowListing | vendor/code.cloudfoundry.org/cpu-entitlement-admin-plugin/cf/client.go:31-43 | when every `GetSpace` succeeds, as many spaces as listed, in the same order, with their applications in CLI order |
| AdminCfClient.AdminFirstSpaceErrorWins | vendor/code.cloudfoundry.org/cpu-entitlement-admin-plugin/cf/client.go:32-35 | the first failing `GetSpace` decides the error |
| FetcherData.RegisteredProcessInstanceID | fetchers/cumulative_usage.go:45 | the registered process instance id of a known instance, and "" for an unknown one |
| FetcherData.SampleInstance | fetchers/cumulative_usage.go:39-47 | a sample counts iff its `instance_id` parses and its `process_instance_id` equals the registered one, which is "" for an unknown id |
| FetcherData.MatchedUsagesKeys | fetchers/cumulative_usage.go:38-53 | an instance is in the result iff some sample counts for it |
| FetcherData.MatchedUsagesLastWins | fetchers/cumulative_usage.go:38-53 | an instance's usage is that of the last sample that counts for it |
| CumulativeUsage.CumulativeEntries | fetchers/cumulative_usage.go:49-52 | each entry sits under its own instance id and carries the matched usage |
| CumulativeUsage.FetchInstanceData | fetchers/cumulative_usage.go:25-56 | a PromQL error is returned unchanged; otherwise one entry per matched instance, empty when nothing matches |
| CurrentUsage.CurrentEntries | fetchers/current_usage.go:108-112 | each entry sits under its own instance id and carries the matched usage |
| CurrentUsage.ParseCurrentUsage | fetchers/current_usage.go:94-116 | the entries are exactly the matched usages of the samples |
| CurrentUsage.Patched | fetchers/current_usage.go:68-89 | the patched map holds the current entries unchanged, plus a fallback entry for each registered instance the current data lacks, and nothing else |
| CurrentUsage.PatchFromFallback | fetchers/current_usage.go:68-91 | a fallback value of the wrong type gives the "unexpected struct" error; otherwise the result is the patched map |
| CurrentUsage.FetchInstanceData | fetchers/current_usage.go:43-92 | a PromQL error is returned without calling the fallback; a result that covers as many instances as are registered is returned without calling it; otherwise the fallback's error, or the current data patched from the fallback |
| CurrentUsage.EqualCountCoversRegistered | fetchers/current_usage.go:55-58 | when the current data's ids are all registered, an equal count means every registered instance is covered |
| CurrentUsage.CountWithoutCoverage | fetchers/current_usage.go:55-58 | a sample for an unknown id with an empty process instance id makes the count equal while a registered instance has no data, so the fallback is skipped |
| LastSpike.SpikeOf | fetchers/last_spike.go:61-63 | the spike carries its instance id, and `From` and `To` are the `spike_start` and `spike_end` gauges truncated to whole seconds; they are equal iff the truncated seconds are |
| LastSpike.SpikeStep | fetchers/last_spike.go:47-75 | one envelope panics iff its id parses to a free slot and it is a gauge lacking a spike bound, even when its process instance id is stale, because both bounds are read before that check; otherwise it never overwrites an existing slot and fills an empty one iff it qualifies |
| LastSpike.LastSpikes | fetchers/last_spike.go:43-79 | the only failure is a panic |
| LastSpike.PanicStops | fetchers/last_spike.go:61-63 | once a prefix panics, the later envelopes do not matter |
| LastSpike.ParseLastSpike | fetchers/last_spike.go:43-79 | the loop computes the specification `LastSpikes` |
| LastSpike.FetchInstanceData | fetchers/last_spike.go:30-41 | a read error is returned unchanged; otherwise the parsed spikes |
| LastSpike.LastSpikesKeys | fetchers/last_spike.go:47-71 | an instance has a slot iff some envelope qualifies for it |
| LastSpike.LastSpikesFirstWins | fetchers/last_spike.go:52-75 | the first qualifying envelope of an instance, in input order, gives its spike, with the bounds of that envelope truncated to whole seconds |
| LastSpike.LastSpikesPanicIff | fetchers/last_spike.go:46-76 | the loop panics iff some envelope reaches a free slot as a gauge lacking a bound, given the slots the envelopes before it claimed |
| LastSpike.NoPanicWithBounds | fetchers/last_spike.go:46-78 | when every gauge with a parseable id carries both bounds, `parseLastSpike` succeeds |
| HistoricalUsage.IsCurrentSeries | fetchers/historical_usage.go:95-107 | true iff the series has a point, its first time parses, and that time is at or after the instance's start |
| HistoricalUsage.RowOf | fetchers/historical_usage.go:76-87 | a row drops the points whose time does not parse, and each entry carries the row's instance id |
| HistoricalUsage.BuildRow | fetchers/historical_usage.go:75-87 | the inner loop over the points computes the specification `RowOf` |
| HistoricalUsage.SeriesInstance | fetchers/historical_usage.go:60-73 | a series counts for an instance iff its id parses, the instance is registered, and the series is current |
| HistoricalUsage.ParseResult | fetchers/historical_usage.go:58-93 | the nested loops compute the specification `Historical` |
| HistoricalUsage.RowsKeys | fetchers/historical_usage.go:58-93 | for any way of keying series and building rows, an instance gets a row iff some series is keyed to it |
| HistoricalUsage.RowsLastWins | fetchers/historical_usage.go:89 | for any keying and row builder, an instance's row is built from the last series keyed to it |
| HistoricalUsage.FetchInstanceData | fetchers/historical_usage.go:43-56 | a range-query error is returned unchanged; otherwise the parsed rows |
| HistoricalUsage.RowKeepsFirstPoint | fetchers/historical_usage.go:76-87 | an accepted series' first point is the first entry of its row |
| HistoricalUsage.RowFromParsedPoints | fetchers/historical_usage.go:76-87 | every entry of a row comes from a point whose time parses, truncated to whole seconds, with its value |
| HistoricalUsage.RowOfParsedPoints | fetchers/historical_usage.go:75-87 | a row is exactly the points whose time parses, in their order: as many entries as such points, the i-th from the i-th of them, with its truncated time and its value |
| HistoricalUsage.HistoricalRows | fetchers/historical_usage.go:58-93 | only registered instances get rows; an instance gets one iff some series counts for it; every row is non-empty and carries its instance's id |
| HistoricalUsage.HistoricalLastWins | fetchers/historical_usage.go:58-93 | an instance's row comes from the last series that counts for it |
| HistoricalUsage.HistoricalKeys | fetchers/historical_usage.go:60-73 | an instance gets a row iff some series counts for it: its id parses, it is registered and the series is current |
| AverageUsage.DataPoint | fetchers/average_usage.go:36-48 | a sample yields a data point iff its id and its time parse; the point carries that id, time and value |
| AverageUsage.ParseAverageUsage | fetchers/average_usage.go:33-56 | the loop computes the specification `Averages` |
| AverageUsage.FetchInstanceData | fetchers/average_usage.go:21-31 | a PromQL error is returned unchanged; otherwise the parsed averages |
| AverageUsage.AveragesValues | fetchers/average_usage.go:45-52 | every entry is a one-element list holding a valid data point of its own instance |
| AverageUsage.AveragesKeys | fetchers/average_usage.go:33-56 | an instance has an entry iff some sample is valid for it |
| AverageUsage.AveragesLastWins | fetchers/average_usage.go:45-52 | an instance's entry comes from the last sample valid for it |
| ProcessInstanceId.SeriesStart | fetchers/process_instance_id.go:39-50 | a series has a start iff its id parses, it has a point and the first time parses |
| ProcessInstanceId.Fetch | fetchers/process_instance_id.go:22-58 | a range-query error is returned unchanged; otherwise the loop updates the two maps together as the specification `LatestOf` does |
| ProcessInstanceId.LatestKeys | fetchers/process_instance_id.go:34-57 | both maps have the same keys: exactly the instances with a valid series |
| ProcessInstanceId.LatestIsMaximal | fetchers/process_instance_id.go:51-55 | the kept first-point time is at least that of every valid series of the instance |
| ProcessInstanceId.LatestKeepsOthers | fetchers/process_instance_id.go:51-55 | a series whose start is not strictly later leaves the maps unchanged, so ties keep the earliest-seen series |
| ProcessInstanceId.LatestReplaces | fetchers/process_instance_id.go:51-55 | a series that starts strictly later, or that starts a new instance, replaces both entries |
| ProcessInstanceId.LatestChosen | fetchers/process_instance_id.go:51-55 | the chosen process instance id is the label of a series whose start is the kept time |
| UsageMetric.FromGaugeMetric | usagemetric/usagemetric.go:14-37 | decoding succeeds iff the three usage keys are present; a failure yields the zero metric; on success the id string and the three values are copied unchanged |
| UsageMetric.FromGaugeOf | usagemetric/usagemetric.go:14-37 | the gauge of a metric decodes back to that metric |
| UsageMetric.ExtraKeysIgnored | usagemetric/usagemetric.go:19-21 | keys other than the three usage keys do not affect decoding |
| UsageMetric.CPUUsage | usagemetric/usagemetric.go:39-41 | usage over entitlement; with a positive entitlement it exceeds 1 iff the usage exceeds the entitlement |
| MetricsUsage.UsageFromGauge | metrics/usage.go:18-46 | decoding succeeds iff the three keys are present and the id parses; a failure yields the zero usage; on success the parsed id and the three values are copied |
| MetricsUsage.UsageFromGaugeOf | metrics/usage.go:18-46 | the gauge of a usage, with its id printed in decimal, decodes back to that usage |
| MetricsUsage.AgreesWithUsageMetric | metrics/usage.go:18-46 | for a parseable id, this decoder accepts exactly what usagemetric accepts, with the same values |
| MetricsUsage.EntitlementRatio | metrics/usage.go:48-50 | usage over entitlement; with a positive entitlement it exceeds 1 iff the usage exceeds the entitlement |
| MetricsData.InstanceDataFromEnvelope | metrics/data.go:20-50 | decoding succeeds iff the three gauges are present and the id parses; a failure yields the zero record; on success the time is the timestamp in nanoseconds and the values are copied |
| MetricsData.FromEnvelopeOf | metrics/data.go:20-50 | the envelope of a record decodes back to that record |
| MetricsData.NonGaugeRejected | metrics/data.go:21-28 | an envelope that is not a gauge is rejected with the zero record |
| MetricsFetcher.ParseEnvelopes | metrics/fetcher.go:52-62 | the loop computes the specification `Parsed` |
| MetricsFetcher.FetchAll | metrics/fetcher.go:38-50 | a read error is wrapped as "log-cache read failed: …"; no parsed data gives "No CPU metrics found for '…'"; otherwise the parsed data |
| MetricsFetcher.ParsedAppend | metrics/fetcher.go:52-62 | parsing distributes over concatenation, so input order is kept |
| MetricsFetcher.ParsedExactly | metrics/fetcher.go:54-59 | the result holds exactly the decodable records with an id below the instance count, without deduplication |
| MetricFetcher.Decoded | metricfetcher/metricfetcher.go:54 | an envelope decodes iff usagemetric accepts it and its instance id parses |
| MetricFetcher.Next | metricfetcher/metricfetcher.go:54-59 | an envelope is used iff it decodes with an id below the count; it fills a free slot and never overwrites a taken one |
| MetricFetcher.ScanLatest | metricfetcher/metricfetcher.go:51-65 | the loop with its early exit computes the specification `ScanFrom` |
| MetricFetcher.BuildMetricsSlice | metricfetcher/metricfetcher.go:70-80 | the counting loop computes the specification `MetricsSlice` |
| MetricFetcher.ExtractLatestMetrics | metricfetcher/metricfetcher.go:51-68 | the scanned map laid out by index |
| MetricFetcher.FetchLatest | metricfetcher/metricfetcher.go:37-49 | a read error is wrapped as "log-cache read failed: …"; an empty extraction gives "No CPU metrics found for '…'"; otherwise the extracted metrics |
| MetricFetcher.ScanKeeps | metricfetcher/metricfetcher.go:56-59 | scanning keeps every metric already found, and each metric stays under its own id |
| MetricFetcher.ScanFirstWins | metricfetcher/metricfetcher.go:56-59 | the first envelope of an instance that counts, in input order, gives its metric |
| MetricFetcher.StoppedScanIgnoresRest | metricfetcher/metricfetcher.go:61-63 | once the count is reached, later envelopes do not affect the result |
| MetricFetcher.MetricsSliceFromMap | metricfetcher/metricfetcher.go:72-77 | the output holds only metrics of the map with ids in [0, count) |
| MetricFetcher.MetricsSliceComplete | metricfetcher/metricfetcher.go:72-77 | every metric of the map with an id in [0, count) is in the output |
| MetricFetcher.MetricsSliceSorted | metricfetcher/metricfetcher.go:70-80 | the output is strictly ascending by instance id |
| MetricFetcher.NegativeIdHidesInstance | metricfetcher/metricfetcher.go:55-63 | a metric with id -1 passes the bound check, fills a slot and stops the scan, and is then dropped from the output; so instance 0's later metric is lost and the result is empty |
| Calculator.CalculateInstanceInfo | calculator/calculator.go:28-33 | the info keeps the usage's id, and its ratio times the entitlement is the usage |
| Calculator.HasRecordedSpike | output/renderer.go:56 | holds iff the spike's end is not the zero time (January 1 of year 1), so every spike ending after it is recorded |
| Calculator.CalculateInstanceInfos | calculator/calculator.go:18-26 | one info per usage, in the same order, each with its id and entitlement ratio |
| AppReporter.UnsupportedCFDeploymentError | reporter/app_reporter.go:21-23 | the error is of the unsupported-deployment kind, so the runner can tell it apart |
| AppReporter.GetOrCreateInstanceReport | reporter/app_reporter.go:188-194 | an existing report is returned and the map is unchanged; otherwise a zero report with the key as its id is inserted |
| AppReporter.MergeLoop | reporter/app_reporter.go:130-141 | one fetch result merged into the reports, as the specification `Merge` states |
| AppReporter.SwapAdjacent | reporter/app_reporter.go:202-204 | two neighbours are exchanged and nothing else changes: a permutation that keeps ids distinct |
| AppReporter.InsertDown | reporter/app_reporter.go:202-204 | one more element is inserted into the sorted prefix, by a permutation |
| AppReporter.SortByInstanceID | reporter/app_reporter.go:202-204 | sorted by instance id, a permutation of the input, and strictly ascending when the ids are distinct |
| AppReporter.AppendReports | reporter/app_reporter.go:197-201 | each value of the map appears exactly once |
| AppReporter.BuildReportsSlice | reporter/app_reporter.go:196-207 | a permutation of the map's values, sorted, and strictly ascending when every report sits under its own id |
| AppReporter.PresentsSorted | reporter/app_reporter.go:196-207 | a strictly ascending enumeration of a map keyed by id presents every report exactly once |
| AppReporter.BuildMergedReports | reporter/app_reporter.go:183 | the merged reports, each once, strictly ascending by id |
| AppReporter.FetchInstanceReports | reporter/app_reporter.go:117-185 | fetchers are asked in order and stop at the first error; an empty current usage is an unsupported deployment; otherwise the merged reports |
| AppReporter.FetchAfterCurrentUsage | reporter/app_reporter.go:143-185 | after the current usage, the last-spike fetch, then the cumulative fetch, each stopping at its error; otherwise the merged reports |
| AppReporter.CreateApplicationReport | reporter/app_reporter.go:83-186 | CLI errors in the order application, org, space, user, with no fetch; no instances gives an empty report with no fetch; otherwise each fetcher's own error unchanged, in the order current, last spike, cumulative, with the fetches made so far; an empty current usage is the unsupported-deployment error naming the app; on success the report carries org, user, space and name and the merged reports, each once, ascending by id |
| AppReporter.MergeKeyedById | reporter/app_reporter.go:188-194 | merging keeps every report under its own id |
| AppReporter.MergedKeyedById | reporter/app_reporter.go:130-182 | every merged report sits under its own id |
| AppReporter.MergedKeys | reporter/app_reporter.go:130-182 | the reported ids are the union of the ids some fetcher supplied with the expected type; entries of the wrong type create nothing |
| AppReporter.MergedFields | reporter/app_reporter.go:130-194 | each field comes from the fetcher that supplies it, and stays zero where none does |
| Reporter.HasRecordedSpike | reporter/reporter.go:39-41 | holds iff the spike's end is not the zero time (January 1 of year 1), so every spike ending after it is recorded |
| Reporter.DataOf | reporter/reporter.go:70 | an instance missing from a fetch result has an empty list |
| Reporter.ReportFor | reporter/reporter.go:73-90 | the report takes the first current and average values; it takes the spike bounds only when there is a spike and has zero bounds otherwise |
| Reporter.ByInstance | reporter/reporter.go:98-105 | as many reports as map entries; element i is the entry for key i, or the zero report |
| Reporter.SortByInstance | reporter/reporter.go:98-105 | the counting loop computes `ByInstance` |
| Reporter.CollectReports | reporter/reporter.go:69-93 | the loop returns Ok iff every instance has current and average data, and then holds one report per instance id; an error names an instance lacking data |
| Reporter.CollectedAll | reporter/reporter.go:69-93 | a map holding exactly the reports of the listed instances is `AllReports` |
| Reporter.CreateInstanceReports | reporter/reporter.go:51-96 | fetch errors in the order current, average, last spike; then Ok iff every instance is covered, with one report per instance by index; otherwise an error naming an instance that lacks data |
| Reporter.ByInstanceContiguous | reporter/reporter.go:98-105 | for indexes 0 … n-1, every report appears, strictly ascending by id |
| Reporter.ByInstanceWithGap | reporter/reporter.go:98-105 | for instances 0 and 2, the result is the report of 0 followed by the zero report, so instance 2 is lost |
| OeiReporter.IsOverEntitlement | reporter/oei_reporter.go:76-90 | the fetch error, or whether some usage is strictly above 1 |
| OeiReporter.FilterApps | reporter/oei_reporter.go:62-74 | the loop computes the specification `FilteredApps` |
| OeiReporter.OverEntitlementInstances | reporter/oei_reporter.go:38-60 | the `GetSpaces` error, or the specification `SpaceReports` |
| OeiReporter.AppNames | reporter/oei_reporter.go:70 | the names of the applications, in order |
| OeiReporter.FilteredAppsOk | reporter/oei_reporter.go:62-74 | filtering succeeds iff the usage fetch of every application succeeds |
| OeiReporter.FilteredAppsInOrder | reporter/oei_reporter.go:62-74 | the kept names are a subsequence of the application names, so input order is kept |
| OeiReporter.FilteredAppsMembers | reporter/oei_reporter.go:62-90 | an application is kept iff some of its usages is strictly above 1; a usage of exactly 1, or no usages at all, does not qualify |
| OeiReporter.FilteredAppsFirstError | reporter/oei_reporter.go:65-68 | the first failing fetch decides the error |
| OeiReporter.SpaceNames | reporter/oei_reporter.go:56 | the names of the spaces, in order |
| OeiReporter.ReportedSpaceNames | reporter/oei_reporter.go:56 | the names of the reported spaces, in order |
| OeiReporter.SpaceReportsNeedEveryFetch | reporter/oei_reporter.go:46-50 | a report exists only if the filter succeeded for every space |
| OeiReporter.SpaceReportsKeepOrder | reporter/oei_reporter.go:46-57 | the reported spaces are a subsequence of the input spaces |
| OeiReporter.SpaceReportsSound | reporter/oei_reporter.go:52-56 | every reported space has a non-empty app list, and it is an input space's name with the apps its filtering kept |
| OeiReporter.SpaceReportsComplete | reporter/oei_reporter.go:52-56 | every space with an over-entitlement app is reported |
| OeiReporter.SpaceReportsFirstError | reporter/oei_reporter.go:47-50 | the first space whose filter fails decides the error |
| AdminReporter.AsCfApps | vendor/code.cloudfoundry.org/cpu-entitlement-admin-plugin/reporter/reporter.go:70-72 | the vendored applications seen with the same names and guids |
| AdminReporter.AsCfSpaces | vendor/code.cloudfoundry.org/cpu-entitlement-admin-plugin/reporter/reporter.go:54-56 | the vendored spaces seen with the same names and applications |
| AdminReporter.IsOverEntitlement | vendor/code.cloudfoundry.org/cpu-entitlement-admin-plugin/reporter/reporter.go:84-98 | the fetch error, or whether some usage is strictly above 1 |
| AdminReporter.FilterApps | vendor/code.cloudfoundry.org/cpu-entitlement-admin-plugin/reporter/reporter.go:70-82 | the same result as the plugin's own filter, so its lemmas apply |
| AdminReporter.OverEntitlementInstances | vendor/code.cloudfoundry.org/cpu-entitlement-admin-plugin/reporter/reporter.go:46-68 | the `GetSpaces` error, or the same space reports as the plugin's own reporter |
| Display.LevelOf | output/app_renderer.go:41-49 | over iff above 1, near iff in (0.95, 1], within otherwise |
| Display.RowColor | output/app_renderer.go:38-49 | red iff above 1, yellow iff in (0.95, 1], no colour otherwise |
| Display.Paint | output/app_renderer.go:95-106 | painting keeps the row's length |
| Display.StatusMeaning | output/app_renderer.go:41-49 | the status is "over" iff some value is above 1; it is "near" iff none is above 1 and some is above 0.95; it is empty otherwise; so "over" is never downgraded |
| Display.FilterIndices | output/app_renderer.go:51-53 | the selected reports are exactly those meeting the test, in input order |
| Display.SpikeWarning | output/app_renderer.go:71-75 | the "at" form iff from equals to, and the "from … to" form otherwise, in yellow |
| AppRenderer.Header | output/app_renderer.go:86-93 | one message in the app-info format naming the application, org, space and user, in that order, each as an entity name |
| AppRenderer.Averages | output/app_renderer.go:41 | the averages, in report order |
| AppRenderer.Warnings | output/app_renderer.go:69-76 | one warning per report |
| AppRenderer.ColorizeRow | output/app_renderer.go:95-106 | no colour leaves the row unchanged; otherwise every cell is in that colour and the length is kept |
| AppRenderer.BuildRows | output/app_renderer.go:37-58 | one row per report, in order; the status of the averages; the reports that get a warning |
| AppRenderer.ShowWarnings | output/app_renderer.go:69-76 | the warnings of the selected reports, in order |
| AppRenderer.ShowInstanceReports | output/app_renderer.go:30-79 | the header first, then one table with a three-cell row per report; a table error is returned with nothing after it; otherwise the tip iff the status is set, then the warnings |
| AppRenderer.ShowAppMessage | output/app_renderer.go:81-84 | the header, then the message, and nothing else |
| AppRenderer.RowColoring | output/app_renderer.go:38-49 | a row is red iff its average is above 1, yellow iff in (0.95, 1], and unchanged otherwise |
| AppRenderer.TipMeaning | output/app_renderer.go:65-67 | the tip is shown iff some average is above 0.95, and says "over" iff some is above 1 |
| AppRenderer.WarningsInOrder | output/app_renderer.go:51-53 | one warning per report with a recorded spike and an average of at most 1, in input order, and no others |
| Renderer.Header | output/renderer.go:30-34 | one message in the app-info format naming the application, org, space and user, in that order, each as an entity name |
| Renderer.Usages | output/renderer.go:44 | the usages, in report order |
| Renderer.Warnings | output/renderer.go:72-78 | one warning per report |
| Renderer.BuildRows | output/renderer.go:41-61 | one two-cell row per report, in order, with both cells coloured by the usage; the status of the usages; the reports that get a warning |
| Renderer.ShowWarnings | output/renderer.go:72-78 | the warnings of the selected reports, in order |
| Renderer.ShowInstanceReports | output/renderer.go:29-81 | the header first, then one table; a table error is returned with nothing after it; otherwise the tip iff the status is set, then the warnings |
| Renderer.RowColoring | output/renderer.go:44-55 | both cells are red iff the usage is above 1, yellow iff in (0.95, 1], and plain otherwise |
| Renderer.TipMeaning | output/renderer.go:68-70 | the tip is shown iff some usage is above 0.95, and says "over" iff some is above 1 |
| Renderer.WarningsInOrder | output/renderer.go:56-58 | one warning per report with a recorded spike and a usage of at most 1, in input order, and no others |
| OeiRenderer.ReportHeader | output/oei_renderer.go:33-38 | one message in the report-header format naming the org and the user, in that order, each as an entity name |
| OeiRenderer.AppRows | output/oei_renderer.go:43-45 | one [space, app] row per app of a space report, in order |
| OeiRenderer.TableRowsAppend | output/oei_renderer.go:40-48 | the rows of concatenated reports are the concatenated rows |
| OeiRenderer.TableRowsCount | output/oei_renderer.go:40-48 | the number of rows is the total number of apps |
| OeiRenderer.TableRowsPosition | output/oei_renderer.go:42-46 | the j-th app of a space is on the row after all apps of earlier spaces, as [space, app] |
| OeiRenderer.BuildOEITableRows | output/oei_renderer.go:40-48 | the nested loops compute the specification `TableRows` |
| OeiRenderer.Render | output/oei_renderer.go:23-38 | an empty report gives only "No apps over entitlement" and no error; otherwise the header, then one table with headers space and app; the table's error is returned unchanged |
| Results.IsFailure | result/result.go:11-13 | the result's failure flag |
| Results.Failure | result/result.go:15-20 | a failure with that message and no warning |
| Results.FailureFromError | result/result.go:22-27 | a failure carrying the error's message and no warning |
| Results.Success | result/result.go:29-31 | not a failure, with empty message and warning |
| Results.WithWarning | result/result.go:33-39 | the failure flag and message are kept, and the warning is replaced |
| Results.WriteTo | result/result.go:41-49 | the error first, then the warning, each only when non-empty |
| Results.WriteToOrder | result/result.go:41-49 | success writes nothing; a failure from an error writes its message, followed by the warning when one is attached |
| InstanceRunner.Run | plugins/app/runner.go:46-72 | an app-info error fails with no call; no instances shows one message and succeeds without the reporter; a reporter error fails with the feature warning; no reports fails naming the app; a render error fails without warning; the reporter is called iff there are instances |
| InstanceRunner.RunSucceeds | plugins/app/runner.go:46-72 | the command succeeds iff there are no instances, or the reports are non-empty and the render succeeds |
| AppRunner.Run | plugins/app_runner.go:35-57 | an unsupported-deployment error fails without warning; other reporter errors fail with the feature warning; the renderer gets the reporter's report unchanged and is called iff the reporter succeeds; success iff both succeed |
| PluginRunner.Run | plugin/runner.go:52-71 | an app-info error fails with no fetch; a fetch error fails with the feature warning; the calculator gets the fetched metrics; a render error fails; success otherwise |
| PluginRunner.RunSucceeds | plugin/runner.go:52-71 | success iff the app info, the fetch and the render all succeed |
| Token.ExtractExpirationTime | token/token.go:53-72 | a token without '.' panics; a payload that is not base64url is "failed to decode token from base64: …"; claims that do not decode are "invalid token: …"; otherwise the `exp` seconds, or the epoch when absent. With a second segment, its base64url decoding decides: no decoding is the base64 error, a claims error is "invalid token: " followed by the decoder's own message, and decoded claims give their `exp` |
| Token.SplitAfterHead | token/token.go:58 | splitting a token at dots yields its first segment, then the pieces of the rest, so the second segment follows the first dot |
| Token.EncodedHasNoDot | token/token.go:58-60 | an encoded payload contains no dot |
| Token.ExpirationOfWellFormedToken | token/token.go:57-72 | header.payload.signature with a base64url payload expires at the payload's `exp` |
| Token.ClaimsErrorOfWellFormedToken | token/token.go:57-69 | header.payload.signature with a base64url payload whose claims do not decode gives "invalid token: " followed by the decoder's message |
| Token.PaddedPayloadRejected | token/token.go:60-63 | a padded payload is a base64 decoding error |
| Token.Getter.constructor | token/token.go:20-25 | a new getter holds no token and expires at its construction time |
| Token.Getter.TokenExpired | token/token.go:34-36 | holds iff the clock is strictly after the stored expiry; once it holds, it holds at every later clock reading |
| Token.Getter.RefreshToken | token/token.go:38-51 | a source error leaves the state unchanged; otherwise the token is cached and the expiry becomes its `exp`, or the zero time when unreadable |
| Token.Getter.Token | token/token.go:27-36 | the source is asked iff now is strictly after the expiry; otherwise the cached token is returned and nothing changes |
| HttpClientToken.TokenGetter.constructor | httpclient/token.go:21-26 | a new getter holds no token and expires at its construction time |
| HttpClientToken.TokenGetter.TokenExpired | httpclient/token.go:35-37 | holds iff the clock is strictly after the stored expiry; once it holds, it holds at every later clock reading |
| HttpClientToken.TokenGetter.RefreshToken | httpclient/token.go:39-52 | a source error leaves the state unchanged; otherwise the token is cached and the expiry becomes its `exp`, or the zero time when unreadable |
| HttpClientToken.TokenGetter.Token | httpclient/token.go:28-37 | the source is asked iff now is strictly after the expiry; otherwise the cached token is returned and nothing changes |
| Regexps.FirstFrom | plugins/app_plugin.go:146 | the first occurrence of a character from a position, or the end |
| Regexps.SpaceFrom | plugins/org/plugin.go:89 | the first whitespace from a position, or the end |
| Regexps.LastPort | plugins/org/plugin.go:89 | the last ":443" in a range, which greedy `\S+` backtracks to |
| Regexps.DopplerAt | plugins/org/plugin.go:89-94 | the greedy match of "doppler(\S+):443" at a position is the longest one |
| Regexps.DopplerBound | plugins/org/plugin.go:89 | a match at a position is exactly a ":443" that ends within the run of non-space characters after "doppler" and leaves at least one character for the group |
| Regexps.FindDoppler | plugins/org/plugin.go:94 | the leftmost position with a match, and its greedy end |
| Regexps.DopplerSuffix | plugins/org/plugin.go:94-98 | the captured group of some match; none iff no position matches |
| Regexps.DopplerSuffixOfHost | plugins/org/plugin.go:89-101 | for "doppler" + d + ":443" with d free of spaces, the group is d |
| Regexps.ApiAt | plugins/app_plugin.go:146-147 | the match of "(https?://)[^.]+(\..*)" at a position, with the second group running to the end of the line |
| Regexps.SchemesExclusive | plugins/app_plugin.go:146 | at one position, at most one of "https://" and "http://" can start a match of `[^.]+` |
| Regexps.FindApi | plugins/app_plugin.go:147 | the leftmost position with a match |
| Regexps.ApiOfUrl | plugins/app_plugin.go:146-152 | for scheme + label + rest, the match starts at 0, with the label as the host part and rest as the second group |
| Regexps.ApiNeedsDot | plugins/app_plugin.go:147-150 | a string without '.' never matches |
| Endpoints.AppLogCacheURL | plugins/app_plugin.go:132-153 | the `HasAPIEndpoint` error, the "No API endpoint set" error, the `ApiEndpoint` error, in that order; "Unable to parse CF_API …" iff nothing matches; otherwise the scheme, "log-cache" and the second group of the leftmost match, which runs from the first '.' after the host label to the end of the line |
| Endpoints.AppLogCacheOfApiURL | plugins/app_plugin.go:146-152 | an API URL scheme + host label + rest (rest starting with '.') becomes scheme + "log-cache" + rest: only the first host label is replaced |
| Endpoints.AppLogCacheNeedsDot | plugins/app_plugin.go:147-150 | an API URL without '.' gives the "Unable to parse CF_API …" error |
| Endpoints.RewriteDoppler | plugins/org/plugin.go:83-104 | the parse error unchanged; "Unable to parse log-stream endpoint" iff the host has no match; otherwise scheme http, rest kept, host the prefix plus the doppler group, so the port is dropped |
| Endpoints.BuildLogCacheURL | plugins/org/plugin.go:83-104 | the doppler URL rewritten with the "log-cache" prefix |
| Endpoints.OrgLogCacheURL | plugins/org/plugin.go:74-81 | the `DopplerEndpoint` error unchanged; otherwise the log-cache rewrite of the doppler URL |
| Endpoints.BuildLogStreamURL | plugin/plugin.go:75-92 | the doppler URL rewritten with the "log-stream" prefix |
| Endpoints.RewriteDopplerHost | plugins/org/plugin.go:89-101 | for host "doppler" + d + ":443", the new host is the prefix followed by d, with scheme http |

## Left out

- Logging (lager sessions, and `fmt.Printf` in fetchers/last_spike.go) has no effect on results and is not modelled.
- The CLI wiring, the plugins' `Run` and metadata functions, the HTTP clients and their authentication adapters, the log streamer and the spinner fixture are outside the core. They are terminal I/O, the network and concurrency.
- The display's calls are an abstract trace. Percentage and date formatting, and the terminal's colour escape codes, are opaque `Text` constructors. `ShowTable`'s error is an input.
- JSON decoding of the token claims is a parameter: a function from the payload's bytes to an optional `exp` or an error.
- `url.Parse` is a parameter: a function to a URL record with scheme, host and the rest. `URL.String()` is not modelled; the result is the record.
- The `regexp.Compile` error branches in plugins/org/plugin.go and plugin/plugin.go are not modelled. Their patterns are constants that always compile.
- fetchers/average_usage.go's `isValid` is not part of this model. It is a predicate parameter.
- metadata/appinfo.go's `GetCFAppInfo` is not modelled, because it only forwards four CLI answers. Its result type is used as an input.
- Go's map iteration order is not modelled as a particular order. Most loops over a map write under the key they read, so their result does not depend on the order. Two loops do depend on it:
  - `Reporter.CollectReports` (reporter/reporter.go:69-93) ranges over the instances map and returns at the first instance lacking data. Which instance the error names depends on the order. The model's error clause says only that it names some instance lacking data (`exists id`), not which one.
  - `AppReporter.AppendReports` (reporter/app_reporter.go:197-201) appends the map's values in iteration order. Its contract states only that each value appears exactly once. `AppReporter.BuildReportsSlice` then sorts by instance id, so its result does not depend on the order when every report sits under its own id.
- A nil map and an empty map are the same value here. No caller distinguishes them.
- `Token.ExtractExpirationTime`: the text of a base64 error stops at "illegal base64 data at input byte". It does not give the offset of the bad byte.
- `Strconv.ParseFloat`: only optionally signed decimal numbers with an optional fraction are modelled. Exponents, hexadecimal floats, infinities and NaN are rejected.
- `Strconv.Trunc`: a float beyond the 64-bit range does not saturate or wrap as Go's conversion does. Its integer part is kept.
- `GoLib.FloatDiv`: division by zero gives 0, not Go's infinity or NaN. The contracts that involve the ratio are stated only for a non-zero entitlement.
- `Results.WriteTo`: a coloured warning counts as non-empty. Only the plain empty text counts as no warning.
- `MetricFetcher.Decoded`: metricfetcher/metricfetcher.go compares the decoded string instance id with an integer. The model parses the id with `strconv.Atoi`, as metrics/usage.go does.
- `MetricsFetcher.ParseEnvelopes`: `InstanceDataFromGauge` is not part of this model. `MetricsData.InstanceDataFromEnvelope` stands in for it.
- `Time`: time zones and monotonic clock readings are not modelled. A time is its nanoseconds since the epoch.
- The clock is an input (`now`) to the token getters' `Token` methods.

=== FILE: admin_cf_client.dfy ===
/**
 * vendor/code.cloudfoundry.org/cpu-entitlement-admin-plugin/cf/client.go:
 * the admin plugin's space listing, building the vendored reporter's
 * spaces (applications with name and guid only).
 */
module AdminCfClient {
  import opened GoLib
  import CfClient
  import AdminReporter

  /** The applications of one space as the admin reporter sees them. */
  function AdminApps(apps: seq<CfClient.AppSummary>): (r: seq<AdminReporter.Application>)
    ensures |r| == |apps|
    ensures forall i :: 0 <= i < |apps| ==> r[i] == AdminReporter.Application(apps[i].name, apps[i].guid)
  {
    seq(|apps|, i requires 0 <= i < |apps| => AdminReporter.Application(apps[i].name, apps[i].guid))
  }

  /** The spaces `GetSpaces` builds, asking the CLI for each listed space in turn. */
  function AdminSpacesOf(listed: seq<CfClient.SpaceSummary>, getSpace: string -> ErrorOr<CfClient.SpaceDetails>)
    : ErrorOr<seq<AdminReporter.Space>>
  {
    if listed == [] then Ok([])
    else match getSpace(listed[0].name)
      case Err(e) => Err(e)
      case Ok(details) =>
        Prepend([AdminReporter.Space(listed[0].name, AdminApps(details.applications))],
                AdminSpacesOf(listed[1..], getSpace))
  }

  /** `Client.GetSpaces`: the listing error, the first `GetSpace` error, or the spaces. */
  method GetSpaces(listed: ErrorOr<seq<CfClient.SpaceSummary>>, getSpace: string -> ErrorOr<CfClient.SpaceDetails>)
    returns (r: ErrorOr<seq<AdminReporter.Space>>)
    ensures listed.Err? ==> r == Err(listed.error)
    ensures listed.Ok? ==> r == AdminSpacesOf(listed.value, getSpace)
  {
    if listed.Err? {
      return Err(listed.error);
    }
    var cfSpaces := listed.value;
    var spaces: seq<AdminReporter.Space> := [];
    var i := 0;
    assert cfSpaces[i..] == cfSpaces;
    PrependNothing(AdminSpacesOf(cfSpaces, getSpace));
    while i < |cfSpaces|
      invariant 0 <= i <= |cfSpaces|
      invariant AdminSpacesOf(cfSpaces, getSpace) == Prepend(spaces, AdminSpacesOf(cfSpaces[i..], getSpace))
    {
      var details := getSpace(cfSpaces[i].name);
      if details.Err? {
        return Err(details.error);
      }
      var applications: seq<AdminReporter.Application> := [];
      var apps := details.value.applications;
      for j := 0 to |apps|
        invariant applications == AdminApps(apps[..j])
      {
        applications := applications + [AdminReporter.Application(apps[j].name, apps[j].guid)];
      }
      assert apps[..|apps|] == apps;
      assert cfSpaces[i..][1..] == cfSpaces[i + 1..];
      PrependTwice(spaces, [AdminReporter.Space(cfSpaces[i].name, applications)], AdminSpacesOf(cfSpaces[i + 1..], getSpace));
      spaces := spaces + [AdminReporter.Space(cfSpaces[i].name, applications)];
      i := i + 1;
    }
    assert cfSpaces[i..] == [];
    assert spaces + [] == spaces;
    return Ok(spaces);
  }

  /**
   * When every `GetSpace` succeeds there is one space per listed space, in
   * CLI order, each with the name and guid of its applications in CLI order.
   */
  lemma {:induction false} AdminSpacesFollowListing(listed: seq<CfClient.SpaceSummary>, getSpace: string -> ErrorOr<CfClient.SpaceDetails>)
    requires forall i :: 0 <= i < |listed| ==> getSpace(listed[i].name).Ok?
    ensures AdminSpacesOf(listed, getSpace).Ok?
    ensures var spaces := AdminSpacesOf(listed, getSpace).value;
      && |spaces| == |listed|
      && forall i :: 0 <= i < |listed| ==>
           spaces[i] == AdminReporter.Space(listed[i].name, AdminApps(getSpace(listed[i].name).value.applications))
  {
    if listed != [] {
      AdminSpacesFollowListing(listed[1..], getSpace);
      assert getSpace(listed[0].name).Ok?;
      forall i | 1 <= i < |listed| ensures getSpace(listed[1..][i - 1].name) == getSpace(listed[i].name) {
      }
    }
  }

  /** Any failing `GetSpace` aborts the listing with the first failure's error. */
  lemma {:induction false} AdminFirstSpaceErrorWins(listed: seq<CfClient.SpaceSummary>, getSpace: string -> ErrorOr<CfClient.SpaceDetails>, k: nat)
    requires k < |listed| && getSpace(listed[k].name).Err?
    requires forall i :: 0 <= i < k ==> getSpace(listed[i].name).Ok?
    ensures AdminSpacesOf(listed, getSpace) == Err(getSpace(listed[k].name).error)
  {
    if k > 0 {
      AdminFirstSpaceErrorWins(listed[1..], getSpace, k - 1);
    }
  }
}

=== FILE: admin_reporter.dfy ===
/**
 * vendor/code.cloudfoundry.org/cpu-entitlement-admin-plugin/reporter/reporter.go:
 * the admin plugin's copy of the over-entitlement report. Its spaces and
 * applications are its own (name and guid only), and its report has no
 * organization or user; the filtering is the same, so its results are
 * stated through the definitions of `OeiReporter`, and the lemmas proved
 * there carry over.
 */
module AdminReporter {
  import opened GoLib
  import CfClient
  import OeiReporter

  datatype Application = Application(name: string, guid: string)
  datatype Space = Space(name: string, applications: seq<Application>)

  /** The vendored package declares the same two-field space report. */
  type SpaceReport = OeiReporter.SpaceReport

  datatype Report = Report(spaceReports: seq<SpaceReport>)

  /** The same application seen through the plugin's own client types. */
  function AsCfApps(apps: seq<Application>): (r: seq<CfClient.Application>)
    ensures |r| == |apps|
    ensures forall i :: 0 <= i < |apps| ==> r[i].name == apps[i].name && r[i].guid == apps[i].guid
  {
    seq(|apps|, i requires 0 <= i < |apps| => CfClient.Application(apps[i].name, apps[i].guid, "", "", "", map[]))
  }

  function AsCfSpaces(spaces: seq<Space>): (r: seq<CfClient.Space>)
    ensures |r| == |spaces|
    ensures forall i :: 0 <= i < |spaces| ==> r[i] == CfClient.Space(spaces[i].name, AsCfApps(spaces[i].applications))
  {
    seq(|spaces|, i requires 0 <= i < |spaces| => CfClient.Space(spaces[i].name, AsCfApps(spaces[i].applications)))
  }

  /** `isOverEntitlement`: the fetch error, or whether some usage exceeds 1. */
  method IsOverEntitlement(appGuid: string, fetch: OeiReporter.UsageFetcher) returns (r: ErrorOr<bool>)
    ensures fetch(appGuid).Err? ==> r == Err(fetch(appGuid).error)
    ensures fetch(appGuid).Ok? ==> r == Ok(OeiReporter.OverEntitlement(fetch(appGuid).value))
  {
    var usages := fetch(appGuid);
    if usages.Err? {
      return Err(usages.error);
    }
    var isOver := false;
    for i := 0 to |usages.value|
      invariant isOver <==> exists k :: 0 <= k < i && usages.value[k] > 1.0
    {
      if usages.value[i] > 1.0 {
        isOver := true;
      }
    }
    return Ok(isOver);
  }

  /** `filterApps`: the same names, in the same order, as the plugin's own filter. */
  method FilterApps(spaceApps: seq<Application>, fetch: OeiReporter.UsageFetcher) returns (r: ErrorOr<seq<string>>)
    ensures r == OeiReporter.FilteredApps(AsCfApps(spaceApps), fetch)
  {
    var all := AsCfApps(spaceApps);
    var apps: seq<string> := [];
    var i := 0;
    PrependNothing(OeiReporter.FilteredApps(all, fetch));
    while i < |spaceApps|
      invariant 0 <= i <= |spaceApps|
      invariant OeiReporter.FilteredApps(all, fetch) == Prepend(apps, OeiReporter.FilteredApps(all[i..], fetch))
    {
      var isOver := IsOverEntitlement(spaceApps[i].guid, fetch);
      if isOver.Err? {
        return Err(isOver.error);
      }
      assert all[i..][0] == all[i] && all[i..][1..] == all[i + 1..];
      var kept := if isOver.value then [spaceApps[i].name] else [];
      PrependTwice(apps, kept, OeiReporter.FilteredApps(all[i + 1..], fetch));
      apps := apps + kept;
      i := i + 1;
    }
    assert all[i..] == [];
    assert apps + [] == apps;
    return Ok(apps);
  }

  /**
   * `OverEntitlementInstances`: the `GetSpaces` error, the first fetch
   * error, or the spaces with an application over its entitlement.
   */
  method OverEntitlementInstances(spaces: ErrorOr<seq<Space>>, fetch: OeiReporter.UsageFetcher) returns (r: ErrorOr<Report>)
    ensures spaces.Err? ==> r == Err(spaces.error)
    ensures spaces.Ok? ==> match OeiReporter.SpaceReports(AsCfSpaces(spaces.value), fetch)
      case Ok(reports) => r == Ok(Report(reports))
      case Err(e) => r == Err(e)
  {
    if spaces.Err? {
      return Err(spaces.error);
    }
    var all := AsCfSpaces(spaces.value);
    var spaceReports: seq<SpaceReport> := [];
    var i := 0;
    PrependNothing(OeiReporter.SpaceReports(all, fetch));
    while i < |all|
      invariant 0 <= i <= |all|
      invariant OeiReporter.SpaceReports(all, fetch) == Prepend(spaceReports, OeiReporter.SpaceReports(all[i..], fetch))
    {
      var apps := FilterApps(spaces.value[i].applications, fetch);
      if apps.Err? {
        return Err(apps.error);
      }
      assert all[i..][0] == all[i] && all[i..][1..] == all[i + 1..];
      var kept := if apps.value == [] then [] else [OeiReporter.SpaceReport(spaces.value[i].name, apps.value)];
      PrependTwice(spaceReports, kept, OeiReporter.SpaceReports(all[i + 1..], fetch));
      spaceReports := spaceReports + kept;
      i := i + 1;
    }
    assert all[i..] == [];
    assert spaceReports + [] == spaceReports;
    return Ok(Report(spaceReports));
  }
}

=== FILE: app_renderer.dfy ===
/**
 * output/app_renderer.go: renders the per-instance reports of
 * reporter/reporter.go as a table, a tip and spike warnings. The display is
 * a collaborator: its calls are returned as a trace, and the one value it
 * answers (the error of `ShowTable`) is an input.
 */
module AppRenderer {
  import opened GoLib
  import opened Display
  import CfClient
  import Reporter

  type InstanceReport = Reporter.InstanceReport

  /** `showAppInfoHeader` */
  function Header(application: CfClient.Application): (c: Call)
    ensures c.ShowMessage? && c.message.Format? && c.message.format == AppInfoFormat
    ensures c.message.args == [EntityName(application.name), EntityName(application.org),
                               EntityName(application.space), EntityName(application.username)]
  {
    ShowMessage(AppInfoHeader(application.name, application.org, application.space, application.username))
  }

  const Headers: seq<Text> := [Str(""), Colorize(Str("avg usage"), Bold), Colorize(Str("curr usage"), Bold)]

  /** The three cells of a report before colouring: "#id", average and current usage. */
  function Cells(report: InstanceReport): seq<Text> {
    [Format("#%d", [Int(report.instanceID)]), Percent(report.historicalUsage.value), Percent(report.currentUsage.value)]
  }

  /** A report's row: its cells in the colour its average usage calls for. */
  function Row(report: InstanceReport): seq<Text> {
    Paint(Cells(report), RowColor(report.historicalUsage.value))
  }

  /** The average usages the status is computed from, in report order. */
  function Averages(reports: seq<InstanceReport>): (ratios: seq<real>)
    ensures |ratios| == |reports|
    ensures forall i :: 0 <= i < |reports| ==> ratios[i] == reports[i].historicalUsage.value
  {
    seq(|reports|, i requires 0 <= i < |reports| => reports[i].historicalUsage.value)
  }

  /** A report gets a spike warning: a recorded spike and an average of at most 1. */
  predicate ShowsSpike(report: InstanceReport) {
    Reporter.HasRecordedSpike(report) && report.historicalUsage.value <= 1.0
  }

  function Warnings(spikes: seq<InstanceReport>): (calls: seq<Call>)
    ensures |calls| == |spikes|
  {
    seq(|spikes|, k requires 0 <= k < |spikes| =>
      ShowMessage(SpikeWarning(spikes[k].instanceID, spikes[k].historicalUsage.lastSpikeFrom, spikes[k].historicalUsage.lastSpikeTo)))
  }

  /** The calls after a successful `ShowTable`: the tip when the status is set, then one warning per spike. */
  function Epilogue(reports: seq<InstanceReport>): seq<Call> {
    var status := StatusOf(Averages(reports));
    (if status != "" then [ShowMessage(Tip(status))] else []) + Warnings(Filter(reports, ShowsSpike))
  }

  /** `colorizeRow`: the row unchanged without a colour; otherwise as long, with every cell in that colour. */
  method ColorizeRow(row: seq<Text>, rowColor: Option<Color>) returns (r: seq<Text>)
    ensures rowColor.None? ==> r == row
    ensures rowColor.Some? ==> |r| == |row| && forall i :: 0 <= i < |row| ==> r[i] == Colorize(row[i], rowColor.value)
  {
    if rowColor.None? {
      return row;
    }
    r := [];
    for i := 0 to |row|
      invariant |r| == i
      invariant forall k :: 0 <= k < i ==> r[k] == Colorize(row[k], rowColor.value)
    {
      r := r + [Colorize(row[i], rowColor.value)];
    }
  }

  /** The loop over the reports: one row per report, the status, and the reports that get a spike warning. */
  method BuildRows(instanceReports: seq<InstanceReport>) returns (rows: seq<seq<Text>>, status: string, reportsWithSpikes: seq<InstanceReport>)
    ensures |rows| == |instanceReports|
    ensures forall i :: 0 <= i < |instanceReports| ==> rows[i] == Row(instanceReports[i])
    ensures status == StatusOf(Averages(instanceReports))
    ensures reportsWithSpikes == Filter(instanceReports, ShowsSpike)
  {
    rows := [];
    status := "";
    reportsWithSpikes := [];
    ghost var ratios := Averages(instanceReports);
    for i := 0 to |instanceReports|
      invariant |rows| == i
      invariant forall k :: 0 <= k < i ==> rows[k] == Row(instanceReports[k])
      invariant status == StatusOf(ratios[..i])
      invariant reportsWithSpikes == Filter(instanceReports[..i], ShowsSpike)
    {
      var report := instanceReports[i];
      StatusOfSnoc(ratios, i);
      FilterSnoc(instanceReports, i, ShowsSpike);
      ghost var before := status;
      var rowColor: Option<Color> := None;
      if report.historicalUsage.value > 1.0 {
        status := "over";
        rowColor := Some(Red);
      } else if report.historicalUsage.value > 0.95 {
        if status == "" {
          status := "near";
        }
        rowColor := Some(Yellow);
      }
      if Reporter.HasRecordedSpike(report) && report.historicalUsage.value <= 1.0 {
        reportsWithSpikes := reportsWithSpikes + [report];
      }
      var row := ColorizeRow(Cells(report), rowColor);
      assert row == Row(report);
      ghost var done := rows;
      rows := rows + [row];
      forall k | 0 <= k <= i ensures rows[k] == Row(instanceReports[k]) {
        if k < i {
          assert rows[k] == done[k];
        }
      }
      assert status == NextStatus(before, ratios[i]);
    }
    assert ratios[..|instanceReports|] == ratios;
    assert instanceReports[..|instanceReports|] == instanceReports;
  }

  /** The loop over the reports with spikes: one warning each, in order. */
  method ShowWarnings(reportsWithSpikes: seq<InstanceReport>) returns (calls: seq<Call>)
    ensures calls == Warnings(reportsWithSpikes)
  {
    calls := [];
    for j := 0 to |reportsWithSpikes|
      invariant calls == Warnings(reportsWithSpikes[..j])
    {
      var historicalUsage := reportsWithSpikes[j].historicalUsage;
      var warning: Text;
      if historicalUsage.lastSpikeFrom == historicalUsage.lastSpikeTo {
        warning := Colorize(Format(SpikeAtFormat,
          [Int(reportsWithSpikes[j].instanceID), Date(historicalUsage.lastSpikeFrom)]), Yellow);
      } else {
        warning := Colorize(Format(SpikeRangeFormat,
          [Int(reportsWithSpikes[j].instanceID), Date(historicalUsage.lastSpikeFrom), Date(historicalUsage.lastSpikeTo)]), Yellow);
      }
      assert Warnings(reportsWithSpikes[..j + 1]) == Warnings(reportsWithSpikes[..j]) + [ShowMessage(warning)];
      calls := calls + [ShowMessage(warning)];
    }
    assert reportsWithSpikes[..|reportsWithSpikes|] == reportsWithSpikes;
  }

  /**
   * `AppRenderer.ShowInstanceReports`: the header, then the table with one
   * row per report in input order; the display's table error is returned
   * before anything else is shown; otherwise the tip and the spike warnings follow.
   */
  method ShowInstanceReports(application: CfClient.Application, instanceReports: seq<InstanceReport>, tableErr: Option<Error>)
    returns (err: Option<Error>, calls: seq<Call>)
    ensures |calls| >= 2 && calls[0] == Header(application)
    ensures calls[1].ShowTable? && calls[1].headers == Headers
    ensures |calls[1].rows| == |instanceReports|
    ensures forall i :: 0 <= i < |instanceReports| ==> calls[1].rows[i] == Row(instanceReports[i])
    ensures err == tableErr
    ensures tableErr.Some? ==> |calls| == 2
    ensures tableErr.None? ==> calls[2..] == Epilogue(instanceReports)
  {
    var rows, status, reportsWithSpikes := BuildRows(instanceReports);
    calls := [Header(application), ShowTable(Headers, rows)];
    if tableErr.Some? {
      return tableErr, calls;
    }
    var tip: seq<Call> := [];
    if status != "" {
      tip := [ShowMessage(Tip(status))];
    }
    var warnings := ShowWarnings(reportsWithSpikes);
    var epilogue := tip + warnings;
    assert epilogue == Epilogue(instanceReports);
    var table := calls;
    calls := table + epilogue;
    assert |table| == 2 && calls[2..] == epilogue;
    return None, calls;
  }

  /** `AppRenderer.ShowMessage`: the header, then the caller's message, and nothing else. */
  function ShowAppMessage(application: CfClient.Application, message: string, values: seq<Text>): (calls: seq<Call>)
    ensures |calls| == 2 && calls[0] == Header(application)
    ensures calls[1] == ShowMessage(Format(message, values))
  {
    [Header(application), ShowMessage(Format(message, values))]
  }

  /** A row is red iff its average is above 1, yellow iff within (0.95, 1], and plain otherwise. */
  lemma RowColoring(report: InstanceReport)
    ensures |Row(report)| == 3
    ensures report.historicalUsage.value > 1.0 <==>
      forall i :: 0 <= i < 3 ==> Row(report)[i] == Colorize(Cells(report)[i], Red)
    ensures 0.95 < report.historicalUsage.value <= 1.0 <==>
      forall i :: 0 <= i < 3 ==> Row(report)[i] == Colorize(Cells(report)[i], Yellow)
    ensures report.historicalUsage.value <= 0.95 <==> Row(report) == Cells(report)
  {
    var v := report.historicalUsage.value;
    if v <= 0.95 {
      assert Row(report)[0] == Cells(report)[0];
    } else {
      assert Row(report)[0] != Cells(report)[0];
    }
  }

  /**
   * The tip follows the table iff some average is above 0.95, and it says
   * "over" iff some average is above 1 and "near" otherwise.
   */
  lemma TipMeaning(reports: seq<InstanceReport>)
    ensures StatusOf(Averages(reports)) != "" <==> exists i :: 0 <= i < |reports| && reports[i].historicalUsage.value > 0.95
    ensures StatusOf(Averages(reports)) == "over" <==> exists i :: 0 <= i < |reports| && reports[i].historicalUsage.value > 1.0
    ensures StatusOf(Averages(reports)) in {"", "over", "near"}
  {
    var ratios := Averages(reports);
    StatusMeaning(ratios);
    if StatusOf(ratios) != "" && StatusOf(ratios) != "over" {
      assert exists i :: 0 <= i < |ratios| && ratios[i] > 0.95;
    }
  }

  /**
   * The warnings are one per report with a recorded spike and an average of
   * at most 1, in input order, and no others.
   */
  lemma WarningsInOrder(reports: seq<InstanceReport>) returns (idx: seq<nat>)
    ensures |Warnings(Filter(reports, ShowsSpike))| == |idx|
    ensures forall k :: 0 <= k < |idx| ==>
      && idx[k] < |reports| && ShowsSpike(reports[idx[k]])
      && Warnings(Filter(reports, ShowsSpike))[k] == ShowMessage(SpikeWarning(reports[idx[k]].instanceID,
           reports[idx[k]].historicalUsage.lastSpikeFrom, reports[idx[k]].historicalUsage.lastSpikeTo))
    ensures forall k, l :: 0 <= k < l < |idx| ==> idx[k] < idx[l]
    ensures forall i :: 0 <= i < |reports| ==> (ShowsSpike(reports[i]) <==> i in idx)
  {
    idx := FilterIndices(reports, ShowsSpike);
  }
}

=== FILE: app_reporter.dfy ===
/**
 * reporter/app_reporter.go: the report on one application. The CLI's
 * answers and the answers of the current-usage, last-spike and
 * cumulative-usage fetchers are inputs; which fetchers are asked, in which
 * order, is part of the result.
 */
module AppReporter {
  import opened GoLib
  import CfClient
  import FetcherData

  type Dynamic = FetcherData.Dynamic

  datatype LastSpike = LastSpike(from: Time, to: Time)
  datatype CurrentUsage = CurrentUsage(value: real)
  datatype CumulativeUsage = CumulativeUsage(value: real)

  datatype InstanceReport = InstanceReport(
    instanceID: int,
    cumulativeUsage: CumulativeUsage,
    currentUsage: CurrentUsage,
    lastSpike: LastSpike)

  datatype ApplicationReport = ApplicationReport(
    org: string,
    username: string,
    space: string,
    applicationName: string,
    instanceReports: seq<InstanceReport>)

  const DeploymentAdvice := ". Make sure that you are using cf-deployment version >= v5.5.0."

  /** `NewUnsupportedCFDeploymentError` */
  function UnsupportedCFDeploymentError(appName: string): (e: Error)
    ensures e.UnsupportedCFDeployment?
  {
    UnsupportedCFDeployment("Could not find any CPU data for app " + appName
      + DeploymentAdvice)
  }

  /** The three fetchers, in the order they are asked. */
  datatype Fetcher = CurrentUsageFetcher | LastSpikeFetcher | CumulativeUsageFetcher

  /** The dynamic type the reporter expects from each fetcher. */
  predicate Expected(fetcher: Fetcher, d: Dynamic) {
    match fetcher
    case CurrentUsageFetcher => d.Current?
    case LastSpikeFetcher => d.LastSpike?
    case CumulativeUsageFetcher => d.Cumulative?
  }

  /** The report with the field that `fetcher`'s data supplies set from it. */
  function Fill(report: InstanceReport, fetcher: Fetcher, d: Dynamic): (r: InstanceReport)
    requires Expected(fetcher, d)
  {
    match fetcher
    case CurrentUsageFetcher => report.(currentUsage := CurrentUsage(d.current.usage))
    case LastSpikeFetcher => report.(lastSpike := LastSpike(d.lastSpike.from, d.lastSpike.to))
    case CumulativeUsageFetcher => report.(cumulativeUsage := CumulativeUsage(d.cumulative.usage))
  }

  /** `InstanceReport{InstanceID: id}` */
  function NewReport(id: int): InstanceReport {
    InstanceReport(id, CumulativeUsage(0.0), CurrentUsage(0.0), LastSpike(ZeroTime, ZeroTime))
  }

  /** What `getOrCreateInstanceReport` returns. */
  function Existing(reports: map<int, InstanceReport>, id: int): InstanceReport {
    if id in reports then reports[id] else NewReport(id)
  }

  /** `fetcher`'s data holds a value of the expected type for `id`. */
  predicate Supplies(data: map<int, Dynamic>, fetcher: Fetcher, id: int) {
    id in data && Expected(fetcher, data[id])
  }

  /** The reports after one of the three loops has merged `fetcher`'s data into `reports`. */
  function Merge(reports: map<int, InstanceReport>, data: map<int, Dynamic>, fetcher: Fetcher): map<int, InstanceReport> {
    map id | id in reports.Keys + (set i | i in data && Expected(fetcher, data[i])) ::
      if Supplies(data, fetcher, id) then Fill(Existing(reports, id), fetcher, data[id]) else reports[id]
  }

  /** The reports after all three loops. */
  function Merged(current: map<int, Dynamic>, lastSpike: map<int, Dynamic>, cumulative: map<int, Dynamic>): map<int, InstanceReport> {
    Merge(Merge(Merge(map[], current, CurrentUsageFetcher), lastSpike, LastSpikeFetcher), cumulative, CumulativeUsageFetcher)
  }

  /** `getOrCreateInstanceReport`: inserts a fresh report for an absent id, and returns the id's report. */
  method GetOrCreateInstanceReport(reports: map<int, InstanceReport>, instanceID: int)
    returns (updated: map<int, InstanceReport>, report: InstanceReport)
    ensures report == Existing(reports, instanceID)
    ensures instanceID in reports ==> updated == reports
    ensures instanceID !in reports ==> updated == reports[instanceID := NewReport(instanceID)]
    ensures report.instanceID == instanceID || instanceID in reports
  {
    updated := reports;
    if instanceID !in reports {
      updated := updated[instanceID := InstanceReport(instanceID, CumulativeUsage(0.0), CurrentUsage(0.0), LastSpike(ZeroTime, ZeroTime))];
    }
    report := updated[instanceID];
  }

  /** One of the three loops: entries of another dynamic type are skipped. */
  method MergeLoop(reports: map<int, InstanceReport>, data: map<int, Dynamic>, fetcher: Fetcher)
    returns (latestReports: map<int, InstanceReport>)
    ensures latestReports == Merge(reports, data, fetcher)
  {
    latestReports := reports;
    var todo := data.Keys;
    while todo != {}
      invariant todo <= data.Keys
      invariant forall id :: id in latestReports <==> id in reports || (Supplies(data, fetcher, id) && id !in todo)
      invariant forall id :: id in latestReports ==>
        latestReports[id] == if Supplies(data, fetcher, id) && id !in todo then Fill(Existing(reports, id), fetcher, data[id])
                             else reports[id]
      decreases todo
    {
      ghost var some := SomeMember(todo);
      var instanceID :| instanceID in todo;
      todo := todo - {instanceID};
      if !Expected(fetcher, data[instanceID]) {
        continue;
      }
      var currentReport;
      latestReports, currentReport := GetOrCreateInstanceReport(latestReports, instanceID);
      latestReports := latestReports[instanceID := Fill(currentReport, fetcher, data[instanceID])];
    }
    var expected := Merge(reports, data, fetcher);
    forall id
      ensures id in latestReports <==> id in expected
      ensures id in latestReports ==> latestReports[id] == expected[id]
    {
    }
    assert latestReports == expected;
  }

  predicate SortedById(s: seq<InstanceReport>) {
    forall p, q :: 0 <= p < q < |s| ==> s[p].instanceID <= s[q].instanceID
  }

  predicate DistinctIds(s: seq<InstanceReport>) {
    forall p, q :: 0 <= p < q < |s| ==> s[p].instanceID != s[q].instanceID
  }

  predicate StrictlyAscending(s: seq<InstanceReport>) {
    forall p, q :: 0 <= p < q < |s| ==> s[p].instanceID < s[q].instanceID
  }

  /** Exchanges two neighbouring reports. */
  method SwapAdjacent(a: array<InstanceReport>, j: int)
    requires 0 < j < a.Length
    modifies a
    ensures a[..] == old(a[..])[j - 1 := old(a[j])][j := old(a[j - 1])]
    ensures multiset(a[..]) == old(multiset(a[..]))
    ensures DistinctIds(old(a[..])) ==> DistinctIds(a[..])
  {
    ghost var s := a[..];
    a[j - 1], a[j] := a[j], a[j - 1];
    assert a[..] == s[j - 1 := s[j]][j := s[j - 1]];
    SwapKeepsDistinct(s, j);
  }

  /** Exchanging two neighbours keeps the ids distinct. */
  lemma SwapKeepsDistinct(s: seq<InstanceReport>, j: int)
    requires 0 < j < |s|
    ensures DistinctIds(s) ==> DistinctIds(s[j - 1 := s[j]][j := s[j - 1]])
  {
    var t := s[j - 1 := s[j]][j := s[j - 1]];
    if DistinctIds(s) {
      forall p, q | 0 <= p < q < |t| ensures t[p].instanceID != t[q].instanceID {
        var p' := if p == j - 1 then j else if p == j then j - 1 else p;
        var q' := if q == j - 1 then j else if q == j then j - 1 else q;
        assert t[p] == s[p'] && t[q] == s[q'];
      }
    }
  }

  /** While `s[j]` moves down: `s[..i + 1]` without position `j` is sorted, and `s[j]` is below everything after it. */
  predicate Inserting(s: seq<InstanceReport>, i: int, j: int)
    requires 0 <= j <= i < |s|
  {
    && (forall p, q :: 0 <= p < q <= i && p != j && q != j ==> s[p].instanceID <= s[q].instanceID)
    && (forall q :: j < q <= i ==> s[j].instanceID < s[q].instanceID)
  }

  lemma InsertingStart(s: seq<InstanceReport>, i: int)
    requires 0 < i < |s| && SortedById(s[..i])
    ensures Inserting(s, i, i)
  {
    forall p, q | 0 <= p < q <= i && p != i && q != i ensures s[p].instanceID <= s[q].instanceID {
      assert s[..i][p] == s[p] && s[..i][q] == s[q];
    }
  }

  lemma InsertingStep(s: seq<InstanceReport>, i: int, j: int)
    requires 0 < j <= i < |s| && Inserting(s, i, j) && s[j - 1].instanceID > s[j].instanceID
    ensures Inserting(s[j - 1 := s[j]][j := s[j - 1]], i, j - 1)
  {
  }

  lemma InsertingDone(s: seq<InstanceReport>, i: int, j: int)
    requires 0 <= j <= i < |s| && Inserting(s, i, j)
    requires j == 0 || s[j - 1].instanceID <= s[j].instanceID
    ensures SortedById(s[..i + 1])
  {
    var t := s[..i + 1];
    forall p, q | 0 <= p < q < |t| ensures t[p].instanceID <= t[q].instanceID {
      if q == j && p < j - 1 {
        assert s[p].instanceID <= s[j - 1].instanceID;
      }
    }
  }

  /** Moves `a[i]` down into the sorted prefix `a[..i]`. */
  method InsertDown(a: array<InstanceReport>, i: int)
    requires 0 < i < a.Length
    requires SortedById(a[..i])
    modifies a
    ensures SortedById(a[..i + 1])
    ensures multiset(a[..]) == old(multiset(a[..]))
    ensures DistinctIds(old(a[..])) ==> DistinctIds(a[..])
  {
    ghost var distinct := DistinctIds(a[..]);
    InsertingStart(a[..], i);
    var j := i;
    while j > 0 && a[j - 1].instanceID > a[j].instanceID
      invariant 0 <= j <= i
      invariant multiset(a[..]) == old(multiset(a[..]))
      invariant distinct ==> DistinctIds(a[..])
      invariant Inserting(a[..], i, j)
    {
      InsertingStep(a[..], i, j);
      SwapAdjacent(a, j);
      j := j - 1;
    }
    InsertingDone(a[..], i, j);
  }

  /** `sort.Slice` by instance id, as an insertion sort in place. */
  method SortByInstanceID(a: array<InstanceReport>)
    modifies a
    ensures SortedById(a[..])
    ensures multiset(a[..]) == old(multiset(a[..]))
    ensures DistinctIds(old(a[..])) ==> StrictlyAscending(a[..])
  {
    ghost var distinct := DistinctIds(a[..]);
    if a.Length == 0 {
      return;
    }
    for i := 1 to a.Length
      invariant SortedById(a[..i])
      invariant multiset(a[..]) == old(multiset(a[..]))
      invariant distinct ==> DistinctIds(a[..])
    {
      InsertDown(a, i);
    }
    assert a[..a.Length] == a[..];
  }

  /** `reports` lists the reports of the map, one per id. */
  predicate Enumerates(reports: seq<InstanceReport>, reportsMap: map<int, InstanceReport>) {
    && |reports| == |reportsMap|
    && (forall id :: id in reportsMap ==> reportsMap[id] in reports)
    && (forall x :: x in reports ==> exists id :: id in reportsMap && reportsMap[id] == x)
  }

  /** A list of the reports under distinct keys, covering every key, enumerates the map. */
  lemma EnumeratesByKeys(appended: seq<InstanceReport>, keys: seq<int>, reportsMap: map<int, InstanceReport>)
    requires |keys| == |appended| == |reportsMap|
    requires forall i :: 0 <= i < |keys| ==> keys[i] in reportsMap && appended[i] == reportsMap[keys[i]]
    requires forall p, q :: 0 <= p < q < |keys| ==> keys[p] != keys[q]
    requires forall id :: id in reportsMap ==> id in keys
    ensures Enumerates(appended, reportsMap)
    ensures KeyedById(reportsMap) ==> DistinctIds(appended)
  {
    forall id | id in reportsMap ensures reportsMap[id] in appended {
      var i :| 0 <= i < |keys| && keys[i] == id;
      assert appended[i] == reportsMap[id];
    }
    forall x | x in appended ensures exists id :: id in reportsMap && reportsMap[id] == x {
      var i :| 0 <= i < |appended| && appended[i] == x;
      assert reportsMap[keys[i]] == x;
    }
  }

  /** The append loop of `buildReportsSlice`, in Go's map iteration order. */
  method AppendReports(reportsMap: map<int, InstanceReport>) returns (appended: seq<InstanceReport>)
    ensures Enumerates(appended, reportsMap)
    ensures KeyedById(reportsMap) ==> DistinctIds(appended)
  {
    appended := [];
    ghost var keys: seq<int> := [];
    var todo := reportsMap.Keys;
    while todo != {}
      invariant todo <= reportsMap.Keys
      invariant |keys| == |appended|
      invariant forall i :: 0 <= i < |keys| ==> keys[i] in reportsMap && appended[i] == reportsMap[keys[i]]
      invariant forall p, q :: 0 <= p < q < |keys| ==> keys[p] != keys[q]
      invariant forall id :: id in keys <==> id in reportsMap && id !in todo
      decreases todo
    {
      ghost var some := SomeMember(todo);
      var id :| id in todo;
      appended := appended + [reportsMap[id]];
      keys := keys + [id];
      todo := todo - {id};
    }
    forall x ensures x in reportsMap.Keys <==> x in keys {
      assert x in keys <==> x in reportsMap && x !in todo;
    }
    DistinctLength(keys, reportsMap.Keys);
    EnumeratesByKeys(appended, keys, reportsMap);
  }

  /**
   * `buildReportsSlice`: every report of the map once, sorted by instance
   * id; strictly ascending when each report sits under its own id.
   */
  method BuildReportsSlice(reportsMap: map<int, InstanceReport>) returns (reports: seq<InstanceReport>)
    ensures Enumerates(reports, reportsMap)
    ensures SortedById(reports)
    ensures KeyedById(reportsMap) ==> StrictlyAscending(reports)
  {
    var appended := AppendReports(reportsMap);
    var a := new InstanceReport[|appended|];
    forall i | 0 <= i < a.Length {
      a[i] := appended[i];
    }
    assert a[..] == appended;
    SortByInstanceID(a);
    reports := a[..];
    assert forall x :: x in reports <==> x in appended by {
      assert multiset(reports) == multiset(appended);
      forall x ensures x in reports <==> x in appended {
        assert x in reports <==> x in multiset(reports);
        assert x in appended <==> x in multiset(appended);
      }
    }
    assert |reports| == |appended| by {
      assert |multiset(reports)| == |multiset(appended)|;
    }
  }

  /** The reports of a map keyed by id, once each, in strictly ascending id order. */
  predicate Presents(reports: seq<InstanceReport>, reportsMap: map<int, InstanceReport>) {
    && |reports| == |reportsMap|
    && (forall id :: id in reportsMap ==> reportsMap[id] in reports)
    && (forall x :: x in reports ==> x.instanceID in reportsMap && reportsMap[x.instanceID] == x)
    && StrictlyAscending(reports)
  }

  lemma PresentsSorted(reports: seq<InstanceReport>, reportsMap: map<int, InstanceReport>)
    requires KeyedById(reportsMap) && Enumerates(reports, reportsMap) && StrictlyAscending(reports)
    ensures Presents(reports, reportsMap)
  {
  }

  /** Every report sits under its own instance id. */
  predicate KeyedById(m: map<int, InstanceReport>) {
    forall id :: id in m ==> m[id].instanceID == id
  }

  /** `buildReportsSlice` on the merged reports. */
  method BuildMergedReports(latestReports: map<int, InstanceReport>,
                            ghost current: map<int, Dynamic>, ghost lastSpike: map<int, Dynamic>, ghost cumulative: map<int, Dynamic>)
    returns (reports: seq<InstanceReport>)
    requires latestReports == Merged(current, lastSpike, cumulative)
    ensures Presents(reports, Merged(current, lastSpike, cumulative))
  {
    MergedKeyedById(current, lastSpike, cumulative);
    reports := BuildReportsSlice(latestReports);
    PresentsSorted(reports, latestReports);
  }

  /**
   * The fetching half of `CreateApplicationReport`, for an application
   * with instances: a fetch error stops at that fetch, and an empty current
   * usage is an unsupported deployment.
   */
  method FetchInstanceReports(
    appName: string,
    currentUsage: ErrorOr<map<int, Dynamic>>,
    lastSpike: ErrorOr<map<int, Dynamic>>,
    cumulativeUsage: ErrorOr<map<int, Dynamic>>)
    returns (r: ErrorOr<seq<InstanceReport>>, fetched: seq<Fetcher>)
    ensures currentUsage.Err? ==> r == Err(currentUsage.error) && fetched == [CurrentUsageFetcher]
    ensures currentUsage.Ok? && |currentUsage.value| == 0 ==>
      r == Err(UnsupportedCFDeploymentError(appName)) && fetched == [CurrentUsageFetcher]
    ensures currentUsage.Ok? && |currentUsage.value| > 0 && lastSpike.Err? ==>
      r == Err(lastSpike.error) && fetched == [CurrentUsageFetcher, LastSpikeFetcher]
    ensures currentUsage.Ok? && |currentUsage.value| > 0 && lastSpike.Ok? ==>
      fetched == [CurrentUsageFetcher, LastSpikeFetcher, CumulativeUsageFetcher]
    ensures currentUsage.Ok? && |currentUsage.value| > 0 && lastSpike.Ok? && cumulativeUsage.Err? ==>
      r == Err(cumulativeUsage.error)
    ensures currentUsage.Ok? && |currentUsage.value| > 0 && lastSpike.Ok? && cumulativeUsage.Ok? ==>
      r.Ok? && Presents(r.value, Merged(currentUsage.value, lastSpike.value, cumulativeUsage.value))
  {
    fetched := [CurrentUsageFetcher];
    if currentUsage.Err? {
      return Err(currentUsage.error), fetched;
    }
    if |currentUsage.value| == 0 {
      return Err(UnsupportedCFDeploymentError(appName)), fetched;
    }
    var latestReports := MergeLoop(map[], currentUsage.value, CurrentUsageFetcher);
    var more;
    r, more := FetchAfterCurrentUsage(latestReports, lastSpike, cumulativeUsage, currentUsage.value);
    fetched := fetched + more;
  }

  /** The last-spike and cumulative fetches, once the current usage has been merged. */
  method FetchAfterCurrentUsage(
    latestReports: map<int, InstanceReport>,
    lastSpike: ErrorOr<map<int, Dynamic>>,
    cumulativeUsage: ErrorOr<map<int, Dynamic>>,
    ghost current: map<int, Dynamic>)
    returns (r: ErrorOr<seq<InstanceReport>>, fetched: seq<Fetcher>)
    requires latestReports == Merge(map[], current, CurrentUsageFetcher)
    ensures lastSpike.Err? ==> r == Err(lastSpike.error) && fetched == [LastSpikeFetcher]
    ensures lastSpike.Ok? ==> fetched == [LastSpikeFetcher, CumulativeUsageFetcher]
    ensures lastSpike.Ok? && cumulativeUsage.Err? ==> r == Err(cumulativeUsage.error)
    ensures lastSpike.Ok? && cumulativeUsage.Ok? ==>
      r.Ok? && Presents(r.value, Merged(current, lastSpike.value, cumulativeUsage.value))
  {
    fetched := [LastSpikeFetcher];
    if lastSpike.Err? {
      return Err(lastSpike.error), fetched;
    }
    var afterSpike := MergeLoop(latestReports, lastSpike.value, LastSpikeFetcher);
    fetched := fetched + [CumulativeUsageFetcher];
    if cumulativeUsage.Err? {
      return Err(cumulativeUsage.error), fetched;
    }
    var merged := MergeLoop(afterSpike, cumulativeUsage.value, CumulativeUsageFetcher);
    var instanceReports := BuildMergedReports(merged, current, lastSpike.value, cumulativeUsage.value);
    return Ok(instanceReports), fetched;
  }

  /**
   * `AppReporter.CreateApplicationReport`. Errors of GetApplication,
   * GetCurrentOrg, GetCurrentSpace and Username are returned in that order
   * before any fetch; an application without instances gets an empty
   * report without any fetch; otherwise the fetches decide.
   */
  method CreateApplicationReport(
    appName: string,
    application: ErrorOr<CfClient.Application>,
    org: ErrorOr<string>,
    space: ErrorOr<string>,
    user: ErrorOr<string>,
    currentUsage: ErrorOr<map<int, Dynamic>>,
    lastSpike: ErrorOr<map<int, Dynamic>>,
    cumulativeUsage: ErrorOr<map<int, Dynamic>>)
    returns (r: ErrorOr<ApplicationReport>, fetched: seq<Fetcher>)
    ensures application.Err? ==> r == Err(application.error) && fetched == []
    ensures application.Ok? && org.Err? ==> r == Err(org.error) && fetched == []
    ensures application.Ok? && org.Ok? && space.Err? ==> r == Err(space.error) && fetched == []
    ensures application.Ok? && org.Ok? && space.Ok? && user.Err? ==> r == Err(user.error) && fetched == []
    ensures application.Ok? && org.Ok? && space.Ok? && user.Ok? && |application.value.instances| == 0 ==>
      r == Ok(ApplicationReport(org.value, user.value, space.value, appName, [])) && fetched == []
    ensures application.Ok? && org.Ok? && space.Ok? && user.Ok? && |application.value.instances| > 0 ==>
      && (currentUsage.Err? ==> r == Err(currentUsage.error) && fetched == [CurrentUsageFetcher])
      && (currentUsage.Ok? && |currentUsage.value| == 0 ==>
            r == Err(UnsupportedCFDeploymentError(appName)) && fetched == [CurrentUsageFetcher])
      && (currentUsage.Ok? && |currentUsage.value| > 0 && lastSpike.Err? ==>
            r == Err(lastSpike.error) && fetched == [CurrentUsageFetcher, LastSpikeFetcher])
      && (currentUsage.Ok? && |currentUsage.value| > 0 && lastSpike.Ok? && cumulativeUsage.Err? ==>
            r == Err(cumulativeUsage.error) && fetched == [CurrentUsageFetcher, LastSpikeFetcher, CumulativeUsageFetcher])
      && (currentUsage.Ok? && |currentUsage.value| > 0 && lastSpike.Ok? && cumulativeUsage.Ok? ==>
            && r.Ok?
            && r.value.org == org.value && r.value.username == user.value
            && r.value.space == space.value && r.value.applicationName == appName
            && fetched == [CurrentUsageFetcher, LastSpikeFetcher, CumulativeUsageFetcher]
            && Presents(r.value.instanceReports, Merged(currentUsage.value, lastSpike.value, cumulativeUsage.value)))
  {
    fetched := [];
    if application.Err? {
      return Err(application.error), fetched;
    }
    if org.Err? {
      return Err(org.error), fetched;
    }
    if space.Err? {
      return Err(space.error), fetched;
    }
    if user.Err? {
      return Err(user.error), fetched;
    }
    if |application.value.instances| == 0 {
      return Ok(ApplicationReport(org.value, user.value, space.value, appName, [])), fetched;
    }
    var reports;
    reports, fetched := FetchInstanceReports(appName, currentUsage, lastSpike, cumulativeUsage);
    if reports.Err? {
      return Err(reports.error), fetched;
    }
    return Ok(ApplicationReport(org.value, user.value, space.value, appName, reports.value)), fetched;
  }

  /** Merging keeps every report under its own id. */
  lemma MergeKeyedById(reports: map<int, InstanceReport>, data: map<int, Dynamic>, fetcher: Fetcher)
    requires KeyedById(reports)
    ensures KeyedById(Merge(reports, data, fetcher))
  {
    forall id | id in Merge(reports, data, fetcher) ensures Merge(reports, data, fetcher)[id].instanceID == id {
      if Supplies(data, fetcher, id) {
        assert Fill(Existing(reports, id), fetcher, data[id]).instanceID == id;
      }
    }
  }

  lemma MergedKeyedById(current: map<int, Dynamic>, lastSpike: map<int, Dynamic>, cumulative: map<int, Dynamic>)
    ensures KeyedById(Merged(current, lastSpike, cumulative))
  {
    var m0: map<int, InstanceReport> := map[];
    MergeKeyedById(m0, current, CurrentUsageFetcher);
    var m1 := Merge(m0, current, CurrentUsageFetcher);
    MergeKeyedById(m1, lastSpike, LastSpikeFetcher);
    MergeKeyedById(Merge(m1, lastSpike, LastSpikeFetcher), cumulative, CumulativeUsageFetcher);
  }

  /**
   * The reported instances are the union of the ids for which some fetcher
   * returned data of the type expected of it; data of another type never
   * creates a report.
   */
  lemma MergedKeys(current: map<int, Dynamic>, lastSpike: map<int, Dynamic>, cumulative: map<int, Dynamic>)
    ensures forall id :: id in Merged(current, lastSpike, cumulative) <==>
      Supplies(current, CurrentUsageFetcher, id) || Supplies(lastSpike, LastSpikeFetcher, id)
      || Supplies(cumulative, CumulativeUsageFetcher, id)
  {
    var m0: map<int, InstanceReport> := map[];
    var m1 := Merge(m0, current, CurrentUsageFetcher);
    var m2 := Merge(m1, lastSpike, LastSpikeFetcher);
    assert forall id :: id in m1 <==> Supplies(current, CurrentUsageFetcher, id);
    assert forall id :: id in m2 <==> id in m1 || Supplies(lastSpike, LastSpikeFetcher, id);
  }

  /** Each report takes each field from the fetcher that supplies it, and stays zero where none does. */
  lemma MergedFields(current: map<int, Dynamic>, lastSpike: map<int, Dynamic>, cumulative: map<int, Dynamic>, id: int)
    requires id in Merged(current, lastSpike, cumulative)
    ensures var r := Merged(current, lastSpike, cumulative)[id];
      && r.instanceID == id
      && r.currentUsage.value == (if Supplies(current, CurrentUsageFetcher, id) then current[id].current.usage else 0.0)
      && r.lastSpike == (if Supplies(lastSpike, LastSpikeFetcher, id) then LastSpike(lastSpike[id].lastSpike.from, lastSpike[id].lastSpike.to)
                         else LastSpike(ZeroTime, ZeroTime))
      && r.cumulativeUsage.value == (if Supplies(cumulative, CumulativeUsageFetcher, id) then cumulative[id].cumulative.usage else 0.0)
  {
    var m0: map<int, InstanceReport> := map[];
    var m1 := Merge(m0, current, CurrentUsageFetcher);
    var m2 := Merge(m1, lastSpike, LastSpikeFetcher);
    MergedKeyedById(current, lastSpike, cumulative);
  }
}

=== FILE: app_runner.dfy ===
/**
 * plugins/app_runner.go: the command that reports an application through
 * reporter/app_reporter.go. The reporter and the renderer are function
 * parameters; the calls made on them are returned as a trace.
 */
module AppRunner {
  import opened GoLib
  import opened Results
  import AppReporter

  type ApplicationReport = AppReporter.ApplicationReport

  datatype Step = CreateApplicationReport(appName: string) | ShowApplicationReport(report: ApplicationReport)

  /**
   * `AppRunner.Run`: the reporter's error, with the feature warning unless
   * it is an unsupported-deployment error; then the renderer's error; then
   * success. The renderer is only called with the reporter's report.
   */
  function Run(
    appName: string,
    createApplicationReport: string -> ErrorOr<ApplicationReport>,
    showApplicationReport: ApplicationReport -> Option<Error>)
    : (out: (Result, seq<Step>))
    ensures |out.1| >= 1 && out.1[0] == CreateApplicationReport(appName)
    ensures match createApplicationReport(appName)
      case Err(e) =>
        && out.1 == [CreateApplicationReport(appName)]
        && out.0 == if e.UnsupportedCFDeployment? then FailureFromError(e) else WithWarning(FailureFromError(e), FeatureWarning)
      case Ok(report) =>
        && out.1 == [CreateApplicationReport(appName), ShowApplicationReport(report)]
        && out.0 == match showApplicationReport(report)
                    case Some(e) => FailureFromError(e)
                    case None => Success()
    /* the run succeeds iff both the reporter and the renderer do */
    ensures !IsFailure(out.0) <==>
      createApplicationReport(appName).Ok? && showApplicationReport(createApplicationReport(appName).value).None?
    /* the renderer is called iff the reporter succeeded, and then with its report */
    ensures forall s :: s in out.1 && s.ShowApplicationReport? ==>
      createApplicationReport(appName) == Ok(s.report)
    ensures (exists s :: s in out.1 && s.ShowApplicationReport?) <==> createApplicationReport(appName).Ok?
  {
    var trace := [CreateApplicationReport(appName)];
    match createApplicationReport(appName)
    case Err(err) =>
      if err.UnsupportedCFDeployment? then (FailureFromError(err), trace)
      else (WithWarning(FailureFromError(err), FeatureWarning), trace)
    case Ok(applicationReport) =>
      var shown := trace + [ShowApplicationReport(applicationReport)];
      assert shown[1] in shown;
      match showApplicationReport(applicationReport)
      case Some(err) => (FailureFromError(err), shown)
      case None => (Success(), shown)
  }
}

=== FILE: average_usage.dfy ===
/**
 * fetchers/average_usage.go: the average usage of each instance, from a
 * PromQL instant query. Which data points are valid is decided by
 * `isValid`, which is not part of this model; it is a parameter here.
 */
module AverageUsage {
  import opened GoLib
  import opened Strconv
  import opened LogCache
  import Metadata
  import opened FetcherData

  /** The `isValid` check applied to each data point. */
  type Validity = (InstanceData, map<int, Metadata.CFAppInstance>) -> bool

  /** The data point a sample yields, when its `instance_id` and its time parse. */
  function DataPoint(s: Sample): (r: Option<InstanceData>)
    ensures r.Some? <==> Atoi(Label(s.metric, "instance_id")).Some? && ParseFloat(s.point.time).Some?
    ensures r.Some? ==> && r.value.instanceID == Atoi(Label(s.metric, "instance_id")).value
                        && r.value.time == Unix(Trunc(ParseFloat(s.point.time).value))
                        && r.value.value == s.point.value
  {
    match Atoi(Label(s.metric, "instance_id"))
    case None => None
    case Some(id) =>
      match ParseFloat(s.point.time)
      case None => None
      case Some(timestamp) => Some(InstanceData(Unix(Trunc(timestamp)), id, s.point.value, ZeroTime, ZeroTime))
  }

  /** The data point each sample yields, if any. */
  type PointOf = Sample -> Option<InstanceData>

  /** `DataPoint` as a function of the sample. */
  function DataPoints(): PointOf {
    s => DataPoint(s)
  }

  /** Sample `s` yields, by `point`, a valid data point for instance `id`. */
  predicate ValidFor(point: PointOf, s: Sample, instances: map<int, Metadata.CFAppInstance>, isValid: Validity, id: int) {
    point(s).Some? && point(s).value.instanceID == id && isValid(point(s).value, instances)
  }

  /**
   * The one-point lists after reading `samples` in order, each yielding
   * the data point `point` gives, a later valid sample replacing an earlier one.
   */
  function AveragesBy(samples: seq<Sample>, point: PointOf, instances: map<int, Metadata.CFAppInstance>, isValid: Validity)
    : map<int, seq<InstanceData>>
  {
    if samples == [] then map[]
    else
      var before := AveragesBy(samples[..|samples| - 1], point, instances, isValid);
      match point(samples[|samples| - 1])
      case None => before
      case Some(dataPoint) =>
        if isValid(dataPoint, instances) then before[dataPoint.instanceID := [dataPoint]] else before
  }

  /** The map `parseAverageUsage` builds. */
  function Averages(samples: seq<Sample>, instances: map<int, Metadata.CFAppInstance>, isValid: Validity)
    : map<int, seq<InstanceData>>
  {
    AveragesBy(samples, DataPoints(), instances, isValid)
  }

  /** `parseAverageUsage` */
  method ParseAverageUsage(samples: seq<Sample>, appInstances: map<int, Metadata.CFAppInstance>, isValid: Validity)
    returns (usagePerInstance: map<int, seq<InstanceData>>)
    ensures usagePerInstance == Averages(samples, appInstances, isValid)
  {
    usagePerInstance := map[];
    for i := 0 to |samples|
      invariant usagePerInstance == Averages(samples[..i], appInstances, isValid)
    {
      assert samples[..i + 1][..i] == samples[..i];
      assert DataPoints()(samples[i]) == DataPoint(samples[i]);
      var instanceID := Atoi(Label(samples[i].metric, "instance_id"));
      if instanceID.None? {
        continue;
      }
      var timestamp := ParseFloat(samples[i].point.time);
      if timestamp.None? {
        continue;
      }
      var dataPoint := InstanceData(Unix(Trunc(timestamp.value)), instanceID.value, samples[i].point.value, ZeroTime, ZeroTime);
      if isValid(dataPoint, appInstances) {
        usagePerInstance := usagePerInstance[instanceID.value := [dataPoint]];
      }
    }
    assert samples[..|samples|] == samples;
  }

  /** `AverageUsageFetcher.FetchInstanceData`: the query error, or the parsed data points. */
  method FetchInstanceData(promql: ErrorOr<seq<Sample>>, appInstances: map<int, Metadata.CFAppInstance>, isValid: Validity)
    returns (r: ErrorOr<map<int, seq<InstanceData>>>)
    ensures promql.Err? ==> r == Err(promql.error)
    ensures promql.Ok? ==> r == Ok(Averages(promql.value, appInstances, isValid))
  {
    if promql.Err? {
      return Err(promql.error);
    }
    var usage := ParseAverageUsage(promql.value, appInstances, isValid);
    return Ok(usage);
  }

  /** Each entry of `a` is a one-element list holding a valid data point of that instance. */
  predicate OnePointEach(a: map<int, seq<InstanceData>>, instances: map<int, Metadata.CFAppInstance>, isValid: Validity) {
    forall id :: id in a ==> |a[id]| == 1 && a[id][0].instanceID == id && isValid(a[id][0], instances)
  }

  lemma {:induction false} AveragesValues(samples: seq<Sample>, point: PointOf, instances: map<int, Metadata.CFAppInstance>, isValid: Validity)
    ensures OnePointEach(AveragesBy(samples, point, instances, isValid), instances, isValid)
  {
    if samples != [] {
      var init := samples[..|samples| - 1];
      AveragesValues(init, point, instances, isValid);
      var before := AveragesBy(init, point, instances, isValid);
      match point(samples[|samples| - 1]) {
        case None =>
          assert AveragesBy(samples, point, instances, isValid) == before;
        case Some(dataPoint) =>
          if isValid(dataPoint, instances) {
            assert AveragesBy(samples, point, instances, isValid) == before[dataPoint.instanceID := [dataPoint]];
          } else {
            assert AveragesBy(samples, point, instances, isValid) == before;
          }
      }
    }
  }

  /** An instance has an entry iff some sample yields a valid data point for it. */
  lemma {:induction false} AveragesKeys(samples: seq<Sample>, point: PointOf, instances: map<int, Metadata.CFAppInstance>, isValid: Validity)
    ensures forall id :: id in AveragesBy(samples, point, instances, isValid) <==>
      exists k :: 0 <= k < |samples| && ValidFor(point, samples[k], instances, isValid, id)
  {
    if samples != [] {
      var n := |samples| - 1;
      AveragesKeys(samples[..n], point, instances, isValid);
      assert forall k :: 0 <= k < n ==> samples[..n][k] == samples[k];
    }
  }

  /** The entry of an instance is the data point of the last sample valid for it, sample `k`. */
  lemma {:induction false} AveragesLastWins(samples: seq<Sample>, point: PointOf, instances: map<int, Metadata.CFAppInstance>, isValid: Validity, id: int)
    returns (k: nat)
    requires id in AveragesBy(samples, point, instances, isValid)
    ensures k < |samples| && ValidFor(point, samples[k], instances, isValid, id)
    ensures AveragesBy(samples, point, instances, isValid)[id] == [point(samples[k]).value]
    ensures forall j :: k < j < |samples| ==> !ValidFor(point, samples[j], instances, isValid, id)
  {
    var n := |samples| - 1;
    var init := samples[..n];
    if ValidFor(point, samples[n], instances, isValid, id) {
      k := n;
    } else {
      k := AveragesLastWins(init, point, instances, isValid, id);
      assert forall j :: k < j < n ==> init[j] == samples[j];
    }
  }
}

=== FILE: base64.dfy ===
/**
 * `base64.RawURLEncoding` of Go's `encoding/base64`: the URL-safe alphabet
 * of section 5 of RFC 4648 without `=` padding, as JSON Web Tokens use it
 * (section 2 of RFC 7515). Decoding skips `\r` and `\n`, rejects every
 * other character outside the alphabet (padding included) and a lone
 * trailing character; leftover low bits of the last character are ignored.
 * Encoding is the reference the decoder is proved against.
 */
module Base64 {
  import opened GoLib

  type Byte = x: int | 0 <= x < 256
  type Sextet = x: int | 0 <= x < 64

  /** The character that stands for a six-bit value. */
  function AlphabetChar(v: Sextet): char {
    if v < 26 then ('A' as int + v) as char
    else if v < 52 then ('a' as int + (v - 26)) as char
    else if v < 62 then ('0' as int + (v - 52)) as char
    else if v == 62 then '-'
    else '_'
  }

  /** The six-bit value of an alphabet character; None for any other character. */
  function SextetOf(c: char): (r: Option<Sextet>)
    ensures r.Some? ==> AlphabetChar(r.value) == c
  {
    if 'A' <= c <= 'Z' then Some(c as int - 'A' as int)
    else if 'a' <= c <= 'z' then Some(c as int - 'a' as int + 26)
    else if '0' <= c <= '9' then Some(c as int - '0' as int + 52)
    else if c == '-' then Some(62)
    else if c == '_' then Some(63)
    else None
  }

  lemma SextetOfAlphabetChar(v: Sextet)
    ensures SextetOf(AlphabetChar(v)) == Some(v)
  {
  }

  function StripNewlines(s: string): (r: string)
    ensures '\n' !in r && '\r' !in r
    ensures |r| <= |s|
  {
    if s == [] then []
    else if s[0] == '\n' || s[0] == '\r' then StripNewlines(s[1..])
    else [s[0]] + StripNewlines(s[1..])
  }

  function Sextets(s: string): (r: Option<seq<Sextet>>)
    ensures r.Some? ==> |r.value| == |s|
  {
    if s == [] then Some([])
    else match (SextetOf(s[0]), Sextets(s[1..]))
      case (Some(v), Some(rest)) => Some([v] + rest)
      case _ => None
  }

  /** The bytes that sextets a, b, c, d carry: 8 bits of a:b, of b:c and of c:d. */
  function Byte0(a: Sextet, b: Sextet): Byte { a * 4 + b / 16 }
  function Byte1(b: Sextet, c: Sextet): Byte { (b % 16) * 16 + c / 4 }
  function Byte2(c: Sextet, d: Sextet): Byte { (c % 4) * 64 + d }

  /** Four sextets carry three bytes; a trailing two carry one, a trailing three carry two. */
  function SextetsToBytes(v: seq<Sextet>): (r: Option<seq<Byte>>)
    ensures r.Some? ==> |v| % 4 != 1
  {
    if |v| == 0 then Some([])
    else if |v| == 1 then None
    else if |v| == 2 then Some([Byte0(v[0], v[1])])
    else if |v| == 3 then Some([Byte0(v[0], v[1]), Byte1(v[1], v[2])])
    else
      assert |v[4..]| % 4 == |v| % 4;
      match SextetsToBytes(v[4..])
      case None => None
      case Some(rest) => Some([Byte0(v[0], v[1]), Byte1(v[1], v[2]), Byte2(v[2], v[3])] + rest)
  }

  /** The text of a decoding error (`base64.CorruptInputError`), without the offset it names. */
  const CorruptInput: string := "illegal base64 data at input byte"

  /**
   * `base64.RawURLEncoding.DecodeString(s)`; None is the decoding error.
   * Ignoring line breaks, every alphabet string decodes unless one character
   * is left over, and n characters carry 6n/8 whole bytes.
   */
  function DecodeString(s: string): (r: Option<seq<Byte>>)
    ensures r.Some? ==> |StripNewlines(s)| % 4 != 1 && |r.value| == |StripNewlines(s)| * 3 / 4
    ensures Sextets(StripNewlines(s)).Some? && |StripNewlines(s)| % 4 != 1 ==> r.Some?
    ensures Sextets(StripNewlines(s)).None? ==> r.None?
  {
    match Sextets(StripNewlines(s))
    case None => None
    case Some(v) =>
      SextetsToBytesLength(v);
      SextetsToBytes(v)
  }

  /** Every sextet count but 1 modulo 4 decodes, and n sextets carry 6n/8 whole bytes. */
  lemma {:induction false} SextetsToBytesLength(v: seq<Sextet>)
    ensures |v| % 4 != 1 ==> SextetsToBytes(v).Some? && |SextetsToBytes(v).value| == |v| * 3 / 4
  {
    if |v| >= 4 {
      assert |v[4..]| % 4 == |v| % 4;
      SextetsToBytesLength(v[4..]);
    }
  }

  /** The sextets that carry bytes x, y, z. */
  function Sextet0(x: Byte): Sextet { x / 4 }
  function Sextet1(x: Byte, y: Byte): Sextet { (x % 4) * 16 + y / 16 }
  function Sextet2(y: Byte, z: Byte): Sextet { (y % 16) * 4 + z / 64 }
  function Sextet3(z: Byte): Sextet { z % 64 }

  /** The reference encoder, `base64.RawURLEncoding.EncodeToString`, as sextets. */
  function BytesToSextets(b: seq<Byte>): (v: seq<Sextet>)
  {
    if |b| == 0 then []
    else if |b| == 1 then [Sextet0(b[0]), Sextet1(b[0], 0)]
    else if |b| == 2 then [Sextet0(b[0]), Sextet1(b[0], b[1]), Sextet2(b[1], 0)]
    else [Sextet0(b[0]), Sextet1(b[0], b[1]), Sextet2(b[1], b[2]), Sextet3(b[2])]
         + BytesToSextets(b[3..])
  }

  function EncodeToString(b: seq<Byte>): (s: string)
  {
    seq(|BytesToSextets(b)|, i requires 0 <= i < |BytesToSextets(b)| => AlphabetChar(BytesToSextets(b)[i]))
  }

  /** Each byte is recovered from the two sextets that carry its bits. */
  lemma Byte0Inverse(x: Byte, y: Byte)
    ensures Byte0(Sextet0(x), Sextet1(x, y)) == x
  {
    assert Sextet1(x, y) / 16 == x % 4;
  }

  lemma Byte1Inverse(x: Byte, y: Byte, z: Byte)
    ensures Byte1(Sextet1(x, y), Sextet2(y, z)) == y
  {
    assert Sextet2(y, z) / 4 == y % 16 && Sextet1(x, y) % 16 == y / 16;
  }

  lemma Byte2Inverse(y: Byte, z: Byte)
    ensures Byte2(Sextet2(y, z), Sextet3(z)) == z
  {
    assert Sextet2(y, z) % 4 == z / 64;
  }

  /** The two sextets that end an encoding decode to its last byte. */
  lemma DecodeOneByteTail(x: Byte)
    ensures SextetsToBytes([Sextet0(x), Sextet1(x, 0)]) == Some([x])
  {
    Byte0Inverse(x, 0);
  }

  /** The three sextets that end an encoding decode to its last two bytes. */
  lemma DecodeTwoByteTail(x: Byte, y: Byte)
    ensures SextetsToBytes([Sextet0(x), Sextet1(x, y), Sextet2(y, 0)]) == Some([x, y])
  {
    Byte0Inverse(x, y);
    Byte1Inverse(x, y, 0);
  }

  /** Decoding a full group of four sextets yields the three bytes it was made from. */
  lemma DecodeGroup(x: Byte, y: Byte, z: Byte, rest: seq<Sextet>, tail: seq<Byte>)
    requires SextetsToBytes(rest) == Some(tail)
    ensures SextetsToBytes([Sextet0(x), Sextet1(x, y), Sextet2(y, z), Sextet3(z)] + rest)
            == Some([x, y, z] + tail)
  {
    var v := [Sextet0(x), Sextet1(x, y), Sextet2(y, z), Sextet3(z)] + rest;
    assert v[4..] == rest;
    Byte0Inverse(x, y);
    Byte1Inverse(x, y, z);
    Byte2Inverse(y, z);
  }

  lemma {:induction false} SextetsRoundTrip(b: seq<Byte>)
    ensures SextetsToBytes(BytesToSextets(b)) == Some(b)
    decreases |b|
  {
    if |b| == 1 {
      DecodeOneByteTail(b[0]);
      assert b == [b[0]];
    } else if |b| == 2 {
      DecodeTwoByteTail(b[0], b[1]);
      assert b == [b[0], b[1]];
    } else if |b| >= 3 {
      SextetsRoundTrip(b[3..]);
      DecodeGroup(b[0], b[1], b[2], BytesToSextets(b[3..]), b[3..]);
      assert b == [b[0], b[1], b[2]] + b[3..];
    }
  }

  lemma {:induction false} SextetsOfEncoded(v: seq<Sextet>)
    ensures Sextets(seq(|v|, i requires 0 <= i < |v| => AlphabetChar(v[i]))) == Some(v)
  {
    var s := seq(|v|, i requires 0 <= i < |v| => AlphabetChar(v[i]));
    if v != [] {
      SextetOfAlphabetChar(v[0]);
      SextetsOfEncoded(v[1..]);
      assert s[1..] == seq(|v[1..]|, i requires 0 <= i < |v[1..]| => AlphabetChar(v[1..][i]));
      assert v == [v[0]] + v[1..];
    }
  }

  lemma {:induction false} StripNoNewlines(s: string)
    requires '\n' !in s && '\r' !in s
    ensures StripNewlines(s) == s
  {
    if s != [] {
      StripNoNewlines(s[1..]);
      assert s == [s[0]] + s[1..];
    }
  }

  /** Decoding inverts encoding: every byte string survives the round trip. */
  lemma DecodeEncode(b: seq<Byte>)
    ensures DecodeString(EncodeToString(b)) == Some(b)
  {
    var v := BytesToSextets(b);
    var s := EncodeToString(b);
    forall i | 0 <= i < |s| ensures s[i] != '\n' && s[i] != '\r' {
      assert s[i] == AlphabetChar(v[i]);
    }
    StripNoNewlines(s);
    assert s == seq(|v|, i requires 0 <= i < |v| => AlphabetChar(v[i]));
    SextetsOfEncoded(v);
    SextetsRoundTrip(b);
  }

  /** Padding is refused: a `=` anywhere makes decoding fail. */
  lemma {:induction false} PaddingRejected(s: string)
    requires '=' in s
    ensures DecodeString(s) == None
  {
    PaddingStaysAfterStrip(s);
    SextetsRejectPadding(StripNewlines(s));
  }

  lemma {:induction false} PaddingStaysAfterStrip(s: string)
    requires '=' in s
    ensures '=' in StripNewlines(s)
  {
    if s[0] != '=' {
      PaddingStaysAfterStrip(s[1..]);
    }
  }

  lemma {:induction false} SextetsRejectPadding(s: string)
    requires '=' in s
    ensures Sextets(s) == None
  {
    if s[0] != '=' {
      SextetsRejectPadding(s[1..]);
    }
  }
}

=== FILE: calculator.dfy ===
/**
 * calculator/calculator.go: the share of its entitlement each instance
 * uses.
 */
module Calculator {
  import opened GoLib
  import MetricsUsage

  datatype InstanceInfo = InstanceInfo(instanceId: int, entitlementUsage: real)

  /**
   * The `calculator.InstanceReport` that output/renderer.go reads but
   * calculator/calculator.go does not declare: a record rebuilt from the
   * renderer's use, with the fields read there.
   */
  datatype InstanceReport = InstanceReport(
    instanceID: int,
    entitlementUsage: real,
    lastSpikeFrom: Time,
    lastSpikeTo: Time)

  /** The renderer's spike test on this record, the same test as reporter/reporter.go's `HasRecordedSpike`: the spike's end is not the zero time. */
  predicate HasRecordedSpike(r: InstanceReport): (b: bool)
    ensures b <==> r.lastSpikeTo.unixNanos != ZeroTimeUnixSeconds * NanosPerSecond
    ensures After(r.lastSpikeTo, ZeroTime) ==> b
  {
    !IsZero(r.lastSpikeTo)
  }

  /** `calculateInstanceInfo`: the instance's id and its usage over its entitlement. */
  function CalculateInstanceInfo(usage: MetricsUsage.Usage): (info: InstanceInfo)
    ensures info.instanceId == usage.instanceId
    ensures usage.absoluteEntitlement != 0.0 ==> info.entitlementUsage * usage.absoluteEntitlement == usage.absoluteUsage
  {
    InstanceInfo(usage.instanceId, FloatDiv(usage.absoluteUsage, usage.absoluteEntitlement))
  }

  /** `CalculateInstanceInfos`: one info per usage, in the same order. */
  method CalculateInstanceInfos(usages: seq<MetricsUsage.Usage>) returns (infos: seq<InstanceInfo>)
    ensures |infos| == |usages|
    ensures forall i :: 0 <= i < |usages| ==>
      infos[i].instanceId == usages[i].instanceId
      && infos[i].entitlementUsage == MetricsUsage.EntitlementRatio(usages[i])
  {
    infos := [];
    for i := 0 to |usages|
      invariant |infos| == i
      invariant forall k :: 0 <= k < i ==>
        infos[k].instanceId == usages[k].instanceId
        && infos[k].entitlementUsage == MetricsUsage.EntitlementRatio(usages[k])
    {
      infos := infos + [CalculateInstanceInfo(usages[i])];
    }
  }
}

=== FILE: cf_client.dfy ===
/**
 * cf/client.go: the plugin's view of the Cloud Foundry CLI. The CLI is a
 * collaborator; the values its calls return are inputs here.
 */
module CfClient {
  import opened GoLib

  /** A running instance of an application, keyed by its index. */
  datatype Instance = Instance(instanceID: int, since: Time, processInstanceID: string)

  datatype Application = Application(
    name: string,
    guid: string,
    space: string,
    org: string,
    username: string,
    instances: map<int, Instance>)

  datatype Space = Space(name: string, applications: seq<Application>)

  /** What the CLI's `GetSpaces` lists, `GetSpace` details, and `GetApp` returns. */
  datatype SpaceSummary = SpaceSummary(name: string)
  datatype AppSummary = AppSummary(name: string, guid: string)
  datatype SpaceDetails = SpaceDetails(applications: seq<AppSummary>)
  datatype AppInstanceFields = AppInstanceFields(since: Time)
  datatype AppModel = AppModel(name: string, guid: string, instances: seq<AppInstanceFields>)
  /** The CLI's organization and space models; only the name is read. */
  datatype Named = Named(name: string)

  /** The applications of one space, in CLI order, each naming that space. */
  function SpaceApps(apps: seq<AppSummary>, spaceName: string): (r: seq<Application>)
    ensures |r| == |apps|
    ensures forall i :: 0 <= i < |r| ==>
      r[i].name == apps[i].name && r[i].guid == apps[i].guid && r[i].space == spaceName
  {
    seq(|apps|, i requires 0 <= i < |apps| => Application(apps[i].name, apps[i].guid, spaceName, "", "", map[]))
  }

  /** The spaces `GetSpaces` builds from the listed spaces, asking the CLI for each in turn. */
  function SpacesOf(listed: seq<SpaceSummary>, getSpace: string -> ErrorOr<SpaceDetails>): ErrorOr<seq<Space>> {
    if listed == [] then Ok([])
    else match getSpace(listed[0].name)
      case Err(e) => Err(e)
      case Ok(details) =>
        Prepend([Space(listed[0].name, SpaceApps(details.applications, listed[0].name))],
                SpacesOf(listed[1..], getSpace))
  }

  /**
   * `Client.GetSpaces`: the CLI's listing error, the first `GetSpace` error,
   * or one space per listed space with its applications.
   */
  method GetSpaces(listed: ErrorOr<seq<SpaceSummary>>, getSpace: string -> ErrorOr<SpaceDetails>)
    returns (r: ErrorOr<seq<Space>>)
    ensures listed.Err? ==> r == Err(listed.error)
    ensures listed.Ok? ==> r == SpacesOf(listed.value, getSpace)
  {
    if listed.Err? {
      return Err(listed.error);
    }
    var cfSpaces := listed.value;
    var spaces: seq<Space> := [];
    var i := 0;
    assert cfSpaces[i..] == cfSpaces;
    PrependNothing(SpacesOf(cfSpaces, getSpace));
    while i < |cfSpaces|
      invariant 0 <= i <= |cfSpaces|
      invariant SpacesOf(cfSpaces, getSpace) == Prepend(spaces, SpacesOf(cfSpaces[i..], getSpace))
    {
      var details := getSpace(cfSpaces[i].name);
      if details.Err? {
        return Err(details.error);
      }
      var applications: seq<Application> := [];
      var apps := details.value.applications;
      var j := 0;
      while j < |apps|
        invariant 0 <= j <= |apps|
        invariant applications == SpaceApps(apps[..j], cfSpaces[i].name)
      {
        applications := applications + [Application(apps[j].name, apps[j].guid, cfSpaces[i].name, "", "", map[])];
        j := j + 1;
      }
      assert apps[..j] == apps;
      assert cfSpaces[i..][1..] == cfSpaces[i + 1..];
      PrependTwice(spaces, [Space(cfSpaces[i].name, applications)], SpacesOf(cfSpaces[i + 1..], getSpace));
      spaces := spaces + [Space(cfSpaces[i].name, applications)];
      i := i + 1;
    }
    assert cfSpaces[i..] == [];
    assert spaces + [] == spaces;
    return Ok(spaces);
  }

  /**
   * When every `GetSpace` succeeds, the spaces are the listed ones in CLI
   * order, each holding its applications in CLI order and naming it as their space.
   */
  lemma {:induction false} SpacesFollowListing(listed: seq<SpaceSummary>, getSpace: string -> ErrorOr<SpaceDetails>)
    requires forall i :: 0 <= i < |listed| ==> getSpace(listed[i].name).Ok?
    ensures SpacesOf(listed, getSpace).Ok?
    ensures var spaces := SpacesOf(listed, getSpace).value;
      && |spaces| == |listed|
      && forall i :: 0 <= i < |listed| ==>
           && spaces[i].name == listed[i].name
           && spaces[i].applications == SpaceApps(getSpace(listed[i].name).value.applications, listed[i].name)
           && forall a :: a in spaces[i].applications ==> a.space == spaces[i].name
  {
    if listed != [] {
      SpacesFollowListing(listed[1..], getSpace);
      assert getSpace(listed[0].name).Ok?;
      forall i | 1 <= i < |listed| ensures getSpace(listed[1..][i - 1].name) == getSpace(listed[i].name) {
      }
    }
  }

  /** Any failing `GetSpace` makes the whole listing fail, with the first failure's error. */
  lemma {:induction false} FirstSpaceErrorWins(listed: seq<SpaceSummary>, getSpace: string -> ErrorOr<SpaceDetails>, k: nat)
    requires k < |listed| && getSpace(listed[k].name).Err?
    requires forall i :: 0 <= i < k ==> getSpace(listed[i].name).Ok?
    ensures SpacesOf(listed, getSpace) == Err(getSpace(listed[k].name).error)
  {
    if k > 0 {
      FirstSpaceErrorWins(listed[1..], getSpace, k - 1);
    }
  }

  /**
   * `Client.GetApplication`: the `GetApp` error, then the `GetCurrentSpace`
   * error; otherwise the application in the current space, with one
   * instance per index of the CLI's instance list.
   */
  method GetApplication(app: ErrorOr<AppModel>, currentSpace: ErrorOr<Named>) returns (r: ErrorOr<Application>)
    ensures app.Err? ==> r == Err(app.error)
    ensures app.Ok? && currentSpace.Err? ==> r == Err(currentSpace.error)
    ensures app.Ok? && currentSpace.Ok? ==> r.Ok?
    ensures r.Ok? ==>
      && r.value.name == app.value.name && r.value.guid == app.value.guid
      && r.value.space == currentSpace.value.name
      && (forall i :: i in r.value.instances <==> 0 <= i < |app.value.instances|)
      && forall i :: 0 <= i < |app.value.instances| ==>
           r.value.instances[i] == Instance(i, app.value.instances[i].since, "")
  {
    if app.Err? {
      return Err(app.error);
    }
    if currentSpace.Err? {
      return Err(currentSpace.error);
    }
    var fields := app.value.instances;
    var instances: map<int, Instance> := map[];
    var id := 0;
    while id < |fields|
      invariant 0 <= id <= |fields|
      invariant forall i :: i in instances <==> 0 <= i < id
      invariant forall i :: 0 <= i < id ==> instances[i] == Instance(i, fields[i].since, "")
    {
      instances := instances[id := Instance(id, fields[id].since, "")];
      id := id + 1;
    }
    return Ok(Application(app.value.name, app.value.guid, currentSpace.value.name, "", "", instances));
  }

  /** `Client.GetCurrentOrg`: the organization's name, or the CLI's error. */
  function GetCurrentOrg(org: ErrorOr<Named>): (r: ErrorOr<string>)
    ensures r.Ok? <==> org.Ok?
    ensures org.Ok? ==> r.value == org.value.name
    ensures org.Err? ==> r.error == org.error
  {
    match org
    case Ok(o) => Ok(o.name)
    case Err(e) => Err(e)
  }

  /** `Client.GetCurrentSpace`: the space's name, or the CLI's error. */
  function GetCurrentSpace(space: ErrorOr<Named>): (r: ErrorOr<string>)
    ensures r.Ok? <==> space.Ok?
    ensures space.Ok? ==> r.value == space.value.name
    ensures space.Err? ==> r.error == space.error
  {
    match space
    case Ok(s) => Ok(s.name)
    case Err(e) => Err(e)
  }

  /** `Client.Username`: passes the CLI's answer through. */
  function Username(user: ErrorOr<string>): (r: ErrorOr<string>)
    ensures r == user
  {
    user
  }
}

=== FILE: cumulative_usage.dfy ===
/**
 * fetchers/cumulative_usage.go: usage per instance from the ratio of the
 * cumulative usage and entitlement counters, one PromQL instant query.
 * The log-cache client's answer is an input: the samples, or its error.
 */
module CumulativeUsage {
  import opened GoLib
  import opened Strconv
  import opened LogCache
  import CfClient
  import opened FetcherData

  /** The fetcher's result for the usages found: each instance's data carries its own id. */
  function CumulativeEntries(m: map<int, real>): (r: map<int, Dynamic>)
    ensures r.Keys == m.Keys
    ensures forall id :: id in r ==> r[id] == Cumulative(CumulativeInstanceData(id, m[id]))
  {
    map id | id in m :: Cumulative(CumulativeInstanceData(id, m[id]))
  }

  /** Recording one usage records its entry. */
  lemma CumulativeEntriesUpdate(m: map<int, real>, id: int, usage: real)
    ensures CumulativeEntries(m[id := usage]) == CumulativeEntries(m)[id := Cumulative(CumulativeInstanceData(id, usage))]
  {
  }

  /**
   * `CumulativeUsageFetcher.FetchInstanceData`: the PromQL error, or the
   * usage of every instance some sample counts for, the last such sample
   * winning; nothing matching gives an empty map.
   */
  method FetchInstanceData(promql: ErrorOr<seq<Sample>>, appInstances: map<int, CfClient.Instance>)
    returns (r: ErrorOr<map<int, Dynamic>>)
    ensures promql.Err? ==> r == Err(promql.error)
    ensures promql.Ok? ==> r == Ok(CumulativeEntries(MatchedUsages(promql.value, appInstances)))
  {
    if promql.Err? {
      return Err(promql.error);
    }
    var samples := promql.value;
    var instanceUsages: map<int, Dynamic> := map[];
    for i := 0 to |samples|
      invariant instanceUsages == CumulativeEntries(MatchedUsages(samples[..i], appInstances))
    {
      assert samples[..i + 1][..i] == samples[..i];
      MatchedUsagesStep(samples[..i + 1], appInstances);
      var instanceID := Atoi(Label(samples[i].metric, "instance_id"));
      if instanceID.None? {
        continue;
      }
      var processInstanceID := Label(samples[i].metric, "process_instance_id");
      if RegisteredProcessInstanceID(appInstances, instanceID.value) != processInstanceID {
        continue;
      }
      CumulativeEntriesUpdate(MatchedUsages(samples[..i], appInstances), instanceID.value, samples[i].point.value);
      instanceUsages := instanceUsages[instanceID.value := Cumulative(CumulativeInstanceData(instanceID.value, samples[i].point.value))];
    }
    assert samples[..|samples|] == samples;
    return Ok(instanceUsages);
  }
}

=== FILE: current_usage.dfy ===
/**
 * fetchers/current_usage.go: usage per instance over the last minute, from
 * one PromQL instant query, with the cumulative fetcher as a fallback for
 * instances the query did not cover. The log-cache client's answer and the
 * fallback fetcher's answer are inputs; whether the fallback is asked is
 * part of the result.
 */
module CurrentUsage {
  import opened GoLib
  import opened Strconv
  import opened LogCache
  import CfClient
  import opened FetcherData

  const UnexpectedStructMessage: string := "cumulative fetcher returned result in unexpected struct"

  /** The fetcher's result for the usages found: each instance's data carries its own id. */
  function CurrentEntries(m: map<int, real>): (r: map<int, Dynamic>)
    ensures r.Keys == m.Keys
    ensures forall id :: id in r ==> r[id] == Current(CurrentInstanceData(id, m[id]))
  {
    map id | id in m :: Current(CurrentInstanceData(id, m[id]))
  }

  /** Recording one usage records its entry. */
  lemma CurrentEntriesUpdate(m: map<int, real>, id: int, usage: real)
    ensures CurrentEntries(m[id := usage]) == CurrentEntries(m)[id := Current(CurrentInstanceData(id, usage))]
  {
  }

  /** `parseCurrentUsage`: the last sample that counts for an instance gives its usage. */
  method ParseCurrentUsage(samples: seq<Sample>, appInstances: map<int, CfClient.Instance>)
    returns (usagePerInstance: map<int, Dynamic>)
    ensures usagePerInstance == CurrentEntries(MatchedUsages(samples, appInstances))
  {
    usagePerInstance := map[];
    for i := 0 to |samples|
      invariant usagePerInstance == CurrentEntries(MatchedUsages(samples[..i], appInstances))
    {
      assert samples[..i + 1][..i] == samples[..i];
      MatchedUsagesStep(samples[..i + 1], appInstances);
      var instanceID := Atoi(Label(samples[i].metric, "instance_id"));
      if instanceID.None? {
        continue;
      }
      var processInstanceID := Label(samples[i].metric, "process_instance_id");
      if processInstanceID != RegisteredProcessInstanceID(appInstances, instanceID.value) {
        continue;
      }
      CurrentEntriesUpdate(MatchedUsages(samples[..i], appInstances), instanceID.value, samples[i].point.value);
      usagePerInstance := usagePerInstance[instanceID.value := Current(CurrentInstanceData(instanceID.value, samples[i].point.value))];
    }
    assert samples[..|samples|] == samples;
  }

  /** Fallback data recast as current data; its own instance id is kept. */
  function AsCurrent(d: CumulativeInstanceData): Dynamic {
    Current(CurrentInstanceData(d.instanceID, d.usage))
  }

  /** Some registered instance lacks current data and has fallback data of the wrong type. */
  predicate HasUnexpectedFallback(current: map<int, Dynamic>, instances: set<int>, fallback: map<int, Dynamic>) {
    exists id :: id in instances && id !in current && id in fallback && !fallback[id].Cumulative?
  }

  /**
   * The current data patched from the fallback: registered instances
   * without current data take the fallback's data, if there is any; nothing
   * already present is overwritten.
   */
  function Patched(current: map<int, Dynamic>, instances: set<int>, fallback: map<int, Dynamic>): (r: map<int, Dynamic>)
    requires forall id :: id in instances && id !in current && id in fallback ==> fallback[id].Cumulative?
    ensures forall id :: id in r <==> id in current || (id in instances && id in fallback)
    ensures forall id :: id in current ==> r[id] == current[id]
    ensures forall id :: id in r && id !in current ==> r[id] == AsCurrent(fallback[id].cumulative)
  {
    map id | id in current.Keys + (instances * fallback.Keys) ::
      if id in current then current[id] else AsCurrent(fallback[id].cumulative)
  }

  /**
   * The loop of `FetchInstanceData` over the registered instances, in any
   * order: the wrong-type error if some instance it would fill has
   * fallback data of another type, else the patched data.
   */
  method PatchFromFallback(current: map<int, Dynamic>, instances: set<int>, cumulativeResult: map<int, Dynamic>)
    returns (r: ErrorOr<map<int, Dynamic>>)
    ensures HasUnexpectedFallback(current, instances, cumulativeResult) ==> r == Err(Error(UnexpectedStructMessage))
    ensures !HasUnexpectedFallback(current, instances, cumulativeResult) ==> r == Ok(Patched(current, instances, cumulativeResult))
  {
    var currentUsage := current;
    var todo := instances;
    while todo != {}
      invariant todo <= instances
      invariant forall id :: id in currentUsage <==> id in current || (id in instances && id !in todo && id in cumulativeResult)
      invariant forall id :: id in currentUsage && id !in current ==>
        cumulativeResult[id].Cumulative? && currentUsage[id] == AsCurrent(cumulativeResult[id].cumulative)
      invariant forall id :: id in current ==> currentUsage[id] == current[id]
      invariant forall id :: id in instances && id !in todo && id !in current && id in cumulativeResult ==>
        cumulativeResult[id].Cumulative?
      decreases todo
    {
      ghost var some := SomeMember(todo);
      var instanceID :| instanceID in todo;
      todo := todo - {instanceID};
      if instanceID in currentUsage {
        continue;
      }
      if instanceID !in cumulativeResult {
        continue;
      }
      var result := cumulativeResult[instanceID];
      if !result.Cumulative? {
        return Err(Error(UnexpectedStructMessage));
      }
      currentUsage := currentUsage[instanceID := AsCurrent(result.cumulative)];
    }
    assert todo == {};
    assert !HasUnexpectedFallback(current, instances, cumulativeResult);
    var patched := Patched(current, instances, cumulativeResult);
    forall id
      ensures id in currentUsage <==> id in patched
      ensures id in currentUsage ==> currentUsage[id] == patched[id]
    {
    }
    assert currentUsage == patched;
    return Ok(currentUsage);
  }

  /**
   * `CurrentUsageFetcher.FetchInstanceData`. The fallback is asked exactly
   * when the query succeeded and found data for a number of instances
   * different from the number registered. A fallback error is returned as
   * is; fallback data of the wrong type for an instance it would fill is an
   * error; otherwise the current data patched from the fallback.
   */
  method FetchInstanceData(
    promql: ErrorOr<seq<Sample>>,
    appInstances: map<int, CfClient.Instance>,
    fallback: ErrorOr<map<int, Dynamic>>)
    returns (r: ErrorOr<map<int, Dynamic>>, fallbackCalled: bool)
    ensures promql.Err? ==> r == Err(promql.error) && !fallbackCalled
    ensures promql.Ok? ==>
      var current := CurrentEntries(MatchedUsages(promql.value, appInstances));
      && (fallbackCalled <==> |current| != |appInstances|)
      && (!fallbackCalled ==> r == Ok(current))
      && (fallbackCalled && fallback.Err? ==> r == Err(fallback.error))
      && (fallbackCalled && fallback.Ok? && HasUnexpectedFallback(current, appInstances.Keys, fallback.value) ==>
            r == Err(Error(UnexpectedStructMessage)))
      && (fallbackCalled && fallback.Ok? && !HasUnexpectedFallback(current, appInstances.Keys, fallback.value) ==>
            r == Ok(Patched(current, appInstances.Keys, fallback.value)))
  {
    if promql.Err? {
      return Err(promql.error), false;
    }
    var currentUsage := ParseCurrentUsage(promql.value, appInstances);
    if |currentUsage| == |appInstances| {
      return Ok(currentUsage), false;
    }
    fallbackCalled := true;
    if fallback.Err? {
      return Err(fallback.error), fallbackCalled;
    }
    r := PatchFromFallback(currentUsage, appInstances.Keys, fallback.value);
  }

  /**
   * The fallback is skipped on a count: when every instance the query found
   * is registered, an equal count means every registered instance has
   * current data.
   */
  lemma EqualCountCoversRegistered(current: map<int, Dynamic>, appInstances: map<int, CfClient.Instance>)
    requires current.Keys <= appInstances.Keys
    requires |current| == |appInstances|
    ensures current.Keys == appInstances.Keys
  {
    SubsetCardinality(current.Keys, appInstances.Keys);
  }

  /**
   * The count alone is not coverage: a sample for an unregistered id with
   * no `process_instance_id` counts, so the query can match as many ids as
   * there are instances while a registered instance has no data, and the
   * fallback is not asked.
   */
  lemma CountWithoutCoverage()
    ensures var appInstances := map[0 := CfClient.Instance(0, ZeroTime, "a"), 1 := CfClient.Instance(1, ZeroTime, "b")];
      var samples := [Sample(map["instance_id" := "0", "process_instance_id" := "a"], Point("60", 0.5)),
                      Sample(map["instance_id" := "7"], Point("60", 0.1))];
      var current := CurrentEntries(MatchedUsages(samples, appInstances));
      |current| == |appInstances| && 1 in appInstances && 1 !in current
  {
    var appInstances := map[0 := CfClient.Instance(0, ZeroTime, "a"), 1 := CfClient.Instance(1, ZeroTime, "b")];
    var s0 := Sample(map["instance_id" := "0", "process_instance_id" := "a"], Point("60", 0.5));
    var s1 := Sample(map["instance_id" := "7"], Point("60", 0.1));
    assert DigitsValue("0") == 0 && DigitsValue("7") == 7;
    assert Atoi("0") == Some(0) && Atoi("7") == Some(7);
    assert SampleInstance(s0.metric, appInstances) == Some(0);
    assert SampleInstance(s1.metric, appInstances) == Some(7);
    assert [s0, s1][..1] == [s0] && [s0][..0] == [];
    assert MatchedUsages([s0], appInstances) == map[][0 := 0.5];
    var m := MatchedUsages([s0, s1], appInstances);
    assert m == map[][0 := 0.5][7 := 0.1];
    assert |m| == 2;
    assert |appInstances| == 2;
    assert 1 !in m;
  }
}

=== FILE: display.dfy ===
/**
 * The terminal output the renderers produce, as a trace of calls to their
 * display. Formatting is kept symbolic: a percentage, a date or a colour
 * escape is a constructor of `Text`, not the characters it would print.
 */
module Display {
  import opened GoLib

  /** The `color.Attribute` values the renderers use. */
  datatype Color = Red | Yellow | Cyan | Bold

  datatype Text =
    | Str(s: string)
      /** `fmt.Sprintf(format, args...)`, or `ShowMessage(format, args...)`. */
    | Format(format: string, args: seq<Text>)
      /** `terminal.Colorize(text, color)` */
    | Colorize(text: Text, color: Color)
      /** `terminal.EntityNameColor(name)` */
    | EntityName(name: string)
      /** `%d` */
    | Int(n: int)
      /** `fmt.Sprintf("%.2f%%", ratio*100)` */
    | Percent(ratio: real)
      /** `t.Format("2006-01-02 15:04:05")` */
    | Date(t: Time)

  /** A call on the display. */
  datatype Call =
    | ShowMessage(message: Text)
    | ShowTable(headers: seq<Text>, rows: seq<seq<Text>>)

  /** How an instance's usage ratio compares with its entitlement. */
  datatype Level = Over | Near | Within

  /** Above 1 is over; above 0.95 and at most 1 is near. */
  function LevelOf(ratio: real): (l: Level)
    ensures l == Over <==> ratio > 1.0
    ensures l == Near <==> 0.95 < ratio <= 1.0
    ensures l == Within <==> ratio <= 0.95
  {
    if ratio > 1.0 then Over else if ratio > 0.95 then Near else Within
  }

  /** The colour of a row, or of both cells of a row: red when over, yellow when near, none otherwise. */
  function RowColor(ratio: real): (c: Option<Color>)
    ensures c == Some(Red) <==> ratio > 1.0
    ensures c == Some(Yellow) <==> 0.95 < ratio <= 1.0
    ensures c == None <==> ratio <= 0.95
  {
    match LevelOf(ratio)
    case Over => Some(Red)
    case Near => Some(Yellow)
    case Within => None
  }

  /** Every cell of `row` in `color`, or the row as it is when there is no colour. */
  function Paint(row: seq<Text>, color: Option<Color>): (r: seq<Text>)
    ensures |r| == |row|
  {
    if color.None? then row else seq(|row|, i requires 0 <= i < |row| => Colorize(row[i], color.value))
  }

  /** The renderers' `status` after one more instance: "over" is never downgraded, "near" only set once. */
  function NextStatus(status: string, ratio: real): string {
    match LevelOf(ratio)
    case Over => "over"
    case Near => if status == "" then "near" else status
    case Within => status
  }

  /** The `status` after the loop over `ratios`. */
  function StatusOf(ratios: seq<real>): string {
    if ratios == [] then ""
    else NextStatus(StatusOf(ratios[..|ratios| - 1]), ratios[|ratios| - 1])
  }

  /** The status after one more ratio. */
  lemma StatusOfSnoc(ratios: seq<real>, i: nat)
    requires i < |ratios|
    ensures StatusOf(ratios[..i + 1]) == NextStatus(StatusOf(ratios[..i]), ratios[i])
  {
    assert ratios[..i + 1][..i] == ratios[..i];
  }

  /** "over" if some ratio is above 1; otherwise "near" if some is above 0.95; otherwise empty. */
  lemma {:induction false} StatusMeaning(ratios: seq<real>)
    ensures StatusOf(ratios) == "over" <==> exists i :: 0 <= i < |ratios| && ratios[i] > 1.0
    ensures StatusOf(ratios) == "near" <==>
      (forall i :: 0 <= i < |ratios| ==> ratios[i] <= 1.0) && exists i :: 0 <= i < |ratios| && ratios[i] > 0.95
    ensures StatusOf(ratios) == "" <==> forall i :: 0 <= i < |ratios| ==> ratios[i] <= 0.95
  {
    if ratios != [] {
      var n := |ratios| - 1;
      StatusMeaning(ratios[..n]);
      assert forall i :: 0 <= i < n ==> ratios[..n][i] == ratios[i];
    }
  }

  /** The elements of `xs` that satisfy `p`, in their order: what appending inside a range loop collects. */
  function Filter<T>(xs: seq<T>, p: T -> bool): seq<T> {
    if xs == [] then []
    else Filter(xs[..|xs| - 1], p) + (if p(xs[|xs| - 1]) then [xs[|xs| - 1]] else [])
  }

  /** Filtering one more element. */
  lemma FilterSnoc<T>(xs: seq<T>, i: nat, p: T -> bool)
    requires i < |xs|
    ensures Filter(xs[..i + 1], p) == Filter(xs[..i], p) + (if p(xs[i]) then [xs[i]] else [])
  {
    assert xs[..i + 1][..i] == xs[..i];
  }

  /**
   * `Filter` keeps exactly the elements satisfying `p`, in input order: its
   * k-th element is the element at a strictly increasing index `idx[k]`, and
   * an index is among `idx` iff its element satisfies `p`.
   */
  lemma {:induction false} FilterIndices<T>(xs: seq<T>, p: T -> bool) returns (idx: seq<nat>)
    ensures |idx| == |Filter(xs, p)|
    ensures forall k :: 0 <= k < |idx| ==> idx[k] < |xs| && Filter(xs, p)[k] == xs[idx[k]] && p(xs[idx[k]])
    ensures forall k, l :: 0 <= k < l < |idx| ==> idx[k] < idx[l]
    ensures forall i :: 0 <= i < |xs| ==> (p(xs[i]) <==> i in idx)
  {
    if xs == [] {
      return [];
    }
    var n := |xs| - 1;
    var pre := FilterIndices(xs[..n], p);
    assert forall i :: 0 <= i < n ==> xs[..n][i] == xs[i];
    assert n !in pre;
    if p(xs[n]) {
      idx := pre + [n];
      assert Filter(xs, p) == Filter(xs[..n], p) + [xs[n]];
      forall i | 0 <= i < |xs| ensures p(xs[i]) <==> i in idx {
        assert i in idx <==> i in pre || i == n;
      }
    } else {
      idx := pre;
      assert Filter(xs, p) == Filter(xs[..n], p);
    }
  }

  const TipFormat: string := "TIP: Some instances are %s their CPU entitlement. Consider scaling your memory or instances."
  const SpikeAtFormat: string := "WARNING: Instance #%d was over entitlement at %s"
  const SpikeRangeFormat: string := "WARNING: Instance #%d was over entitlement from %s to %s"

  /** The tip shown when some instance is over or near its entitlement. */
  function Tip(status: string): Text {
    Colorize(Format(TipFormat, [Str(status)]), Cyan)
  }

  /** The spike warning: the "at" form iff the spike started and ended at the same instant. */
  function SpikeWarning(instanceID: int, from: Time, to: Time): (t: Text)
    ensures from == to ==> t == Colorize(Format(SpikeAtFormat, [Int(instanceID), Date(from)]), Yellow)
    ensures from != to ==> t == Colorize(Format(SpikeRangeFormat, [Int(instanceID), Date(from), Date(to)]), Yellow)
  {
    if from == to then
      Colorize(Format(SpikeAtFormat, [Int(instanceID), Date(from)]), Yellow)
    else
      Colorize(Format(SpikeRangeFormat, [Int(instanceID), Date(from), Date(to)]), Yellow)
  }

  const AppInfoFormat: string := "Showing CPU usage against entitlement for app %s in org %s / space %s as %s ...\n"

  /** The header both instance renderers show first. */
  function AppInfoHeader(appName: string, org: string, space: string, username: string): Text {
    Format(AppInfoFormat,
      [EntityName(appName), EntityName(org), EntityName(space), EntityName(username)])
  }
}

=== FILE: endpoints.dfy ===
/**
 * Deriving the log-cache and log-stream endpoints from the endpoints the
 * CLI knows: plugins/app_plugin.go rewrites the API URL's first host label,
 * plugins/org/plugin.go and plugin/plugin.go rewrite a doppler host. The
 * CLI's answers are inputs; `url.Parse` is a function parameter and its
 * result a record whose parts other than scheme and host stay opaque.
 */
module Endpoints {
  import opened GoLib
  import opened Regexps

  /** A parsed `url.URL`: scheme, host (with any port), and everything else kept as it was parsed. */
  datatype URL = URL(scheme: string, host: string, rest: string)

  /** `url.Parse` */
  type Parser = string -> ErrorOr<URL>

  const NoAPIEndpoint := "No API endpoint set. Use 'cf login' or 'cf api' to target an endpoint."
  const UnparsableApi := "Unable to parse CF_API to get log-cache endpoint: "
  const UnparsableDoppler := "Unable to parse log-stream endpoint from doppler URL"

  /**
   * `url` is `api` rewritten at the leftmost, greedy match of the API
   * pattern: its scheme, then "log-cache", then its second group.
   */
  ghost predicate RewritesLeftmostMatch(api: string, url: string) {
    exists a: nat, scheme, d: nat, e: nat ::
      && ApiMatchAt(api, a, scheme, d, e)
      && (forall b: nat, scheme', d': nat, e': nat :: b < a ==> !ApiMatchAt(api, b, scheme', d', e'))
      && (forall e': nat :: e < e' ==> !ApiMatchAt(api, a, scheme, d, e'))
      && url == scheme + "log-cache" + api[d..e]
  }

  /**
   * `getLogCacheURL` of plugins/app_plugin.go: the CLI's errors unchanged,
   * the no-endpoint error, the parse error naming the URL, or the matched
   * scheme, then "log-cache", then the URL from the first "." after the
   * first host label to the end of its line.
   */
  function AppLogCacheURL(hasAPIEndpoint: ErrorOr<bool>, apiEndpoint: ErrorOr<string>): (r: ErrorOr<string>)
    ensures hasAPIEndpoint.Err? ==> r == Err(hasAPIEndpoint.error)
    ensures hasAPIEndpoint == Ok(false) ==> r == Err(Error(NoAPIEndpoint))
    ensures hasAPIEndpoint == Ok(true) && apiEndpoint.Err? ==> r == Err(apiEndpoint.error)
    ensures hasAPIEndpoint == Ok(true) && apiEndpoint.Ok? ==>
      var api := apiEndpoint.value;
      (r.Err? <==> forall a: nat, scheme, d: nat, e: nat :: !ApiMatchAt(api, a, scheme, d, e))
    ensures hasAPIEndpoint == Ok(true) && apiEndpoint.Ok? && r.Err? ==>
      r.error == Error(UnparsableApi + apiEndpoint.value)
    ensures hasAPIEndpoint == Ok(true) && apiEndpoint.Ok? && r.Ok? ==> RewritesLeftmostMatch(apiEndpoint.value, r.value)
  {
    match hasAPIEndpoint
    case Err(e) => Err(e)
    case Ok(hasAPISet) =>
      if !hasAPISet then Err(Error(NoAPIEndpoint))
      else match apiEndpoint
        case Err(e) => Err(e)
        case Ok(apiURL) =>
          match FindApi(apiURL, 0)
          case None => Err(Error(UnparsableApi + apiURL))
          case Some((_, scheme, d, e)) => Ok(scheme + "log-cache" + apiURL[d..e])
  }

  /** An API URL scheme + hostLabel + rest becomes scheme + "log-cache" + rest: only the first host label changes. */
  lemma AppLogCacheOfApiURL(scheme: string, hostLabel: string, rest: string)
    requires scheme == "http://" || scheme == "https://"
    requires hostLabel != [] && '.' !in hostLabel
    requires rest != [] && rest[0] == '.' && '\n' !in rest
    ensures AppLogCacheURL(Ok(true), Ok(scheme + hostLabel + rest)) == Ok(scheme + "log-cache" + rest)
  {
    var api := scheme + hostLabel + rest;
    var d := |scheme| + |hostLabel|;
    assert api[d..|api|] == rest by {
      assert api == (scheme + hostLabel) + rest;
    }
    assert FindApi(api, 0) == Some((0, scheme, d, |api|)) by {
      ApiOfUrl(scheme, hostLabel, rest);
    }
  }

  /** An API URL without any "." cannot be rewritten. */
  lemma AppLogCacheNeedsDot(api: string)
    requires '.' !in api
    ensures AppLogCacheURL(Ok(true), Ok(api)) == Err(Error(UnparsableApi + api))
  {
    ApiNeedsDot(api);
  }

  /**
   * The rewrite both doppler-based builders share: the parse error, the
   * error when the host has no `doppler(\S+):443`, or the URL with scheme
   * "http" and host `prefix` + the group, the port dropped, the rest kept.
   */
  function RewriteDoppler(dopplerURL: string, parse: Parser, prefix: string): (r: ErrorOr<URL>)
    ensures parse(dopplerURL).Err? ==> r == Err(parse(dopplerURL).error)
    ensures parse(dopplerURL).Ok? ==>
      (r.Err? <==> forall a: nat, m: nat :: !DopplerMatchAt(parse(dopplerURL).value.host, a, m))
    ensures parse(dopplerURL).Ok? && r.Err? ==> r.error == Error(UnparsableDoppler)
    ensures r.Ok? ==> r.value.scheme == "http" && r.value.rest == parse(dopplerURL).value.rest
    ensures r.Ok? ==> exists a: nat, m: nat ::
      && DopplerMatchAt(parse(dopplerURL).value.host, a, m)
      && r.value.host == prefix + parse(dopplerURL).value.host[a + 7..m]
  {
    match parse(dopplerURL)
    case Err(e) => Err(e)
    case Ok(logStreamURL) =>
      match DopplerSuffix(logStreamURL.host)
      case None => Err(Error(UnparsableDoppler))
      case Some(suffix) => Ok(logStreamURL.(scheme := "http", host := prefix + suffix))
  }

  /** `buildLogCacheURL` of plugins/org/plugin.go. */
  function BuildLogCacheURL(dopplerURL: string, parse: Parser): (r: ErrorOr<URL>)
    ensures r == RewriteDoppler(dopplerURL, parse, "log-cache")
  {
    RewriteDoppler(dopplerURL, parse, "log-cache")
  }

  /** `getLogCacheURL` of plugins/org/plugin.go: the CLI's error unchanged, or the rewritten doppler URL. */
  function OrgLogCacheURL(dopplerEndpoint: ErrorOr<string>, parse: Parser): (r: ErrorOr<URL>)
    ensures dopplerEndpoint.Err? ==> r == Err(dopplerEndpoint.error)
    ensures dopplerEndpoint.Ok? ==> r == BuildLogCacheURL(dopplerEndpoint.value, parse)
  {
    match dopplerEndpoint
    case Err(e) => Err(e)
    case Ok(dopplerURL) => BuildLogCacheURL(dopplerURL, parse)
  }

  /** `buildLogStreamURL` of plugin/plugin.go. */
  function BuildLogStreamURL(dopplerURL: string, parse: Parser): (r: ErrorOr<URL>)
    ensures r == RewriteDoppler(dopplerURL, parse, "log-stream")
  {
    RewriteDoppler(dopplerURL, parse, "log-stream")
  }

  /** A doppler host "doppler" + d + ":443" becomes host `prefix` + d over plain http, the rest of the URL kept. */
  lemma RewriteDopplerHost(dopplerURL: string, parse: Parser, prefix: string, d: string)
    requires d != [] && forall t :: 0 <= t < |d| ==> !IsSpace(d[t])
    requires parse(dopplerURL).Ok? && parse(dopplerURL).value.host == "doppler" + d + ":443"
    ensures RewriteDoppler(dopplerURL, parse, prefix) == Ok(URL("http", prefix + d, parse(dopplerURL).value.rest))
  {
    DopplerSuffixOfHost(d);
  }
}

=== FILE: fetcher_data.dfy ===
/**
 * The values the fetchers of fetchers/ produce, and the sample filter that
 * the current and cumulative usage fetchers share: a PromQL sample counts
 * for the instance its `instance_id` label names, and only when its
 * `process_instance_id` label is the one registered for that instance.
 */
module FetcherData {
  import opened GoLib
  import opened Strconv
  import opened LogCache
  import CfClient

  datatype CurrentInstanceData = CurrentInstanceData(instanceID: int, usage: real)
  datatype CumulativeInstanceData = CumulativeInstanceData(instanceID: int, usage: real)
  datatype LastSpikeInstanceData = LastSpikeInstanceData(instanceID: int, from: Time, to: Time)

  /**
   * `InstanceData` of the historical and average fetchers. `From` and `To`
   * are read by the reporter from last-spike data of this type; these
   * fetchers leave them zero.
   */
  datatype InstanceData = InstanceData(time: Time, instanceID: int, value: real, from: Time, to: Time)

  /** A value of a `map[int]interface{}` result, with its dynamic type. */
  datatype Dynamic =
    | Current(current: CurrentInstanceData)
    | Cumulative(cumulative: CumulativeInstanceData)
    | LastSpike(lastSpike: LastSpikeInstanceData)
    | OtherValue

  /** `cf.Instance{}`, what a lookup of an unregistered id yields. */
  const ZeroInstance: CfClient.Instance := CfClient.Instance(0, ZeroTime, "")

  /** `appInstances[id].ProcessInstanceID` */
  function RegisteredProcessInstanceID(instances: map<int, CfClient.Instance>, id: int): (pid: string)
    ensures id in instances ==> pid == instances[id].processInstanceID
    ensures id !in instances ==> pid == ""
  {
    Lookup(instances, id, ZeroInstance).processInstanceID
  }

  /**
   * The instance a sample counts for: its parsed `instance_id`, provided its
   * `process_instance_id` equals the registered one.
   */
  function SampleInstance(metric: map<string, string>, instances: map<int, CfClient.Instance>): (r: Option<int>)
    ensures r.Some? <==>
      && Atoi(Label(metric, "instance_id")).Some?
      && Label(metric, "process_instance_id") == RegisteredProcessInstanceID(instances, Atoi(Label(metric, "instance_id")).value)
    ensures r.Some? ==> r == Atoi(Label(metric, "instance_id"))
    ensures match Atoi(Label(metric, "instance_id"))
      case Some(id) => id !in instances ==> (r.Some? <==> Label(metric, "process_instance_id") == "")
      case None => r.None?
  {
    match Atoi(Label(metric, "instance_id"))
    case None => None
    case Some(id) =>
      if Label(metric, "process_instance_id") != RegisteredProcessInstanceID(instances, id) then None
      else Some(id)
  }

  /** The usage per instance after reading `samples` in order, a later sample replacing an earlier one. */
  function MatchedUsages(samples: seq<Sample>, instances: map<int, CfClient.Instance>): map<int, real> {
    if samples == [] then map[]
    else
      var before := MatchedUsages(samples[..|samples| - 1], instances);
      var last := samples[|samples| - 1];
      match SampleInstance(last.metric, instances)
      case None => before
      case Some(id) => before[id := last.point.value]
  }

  /** The last sample read decides the change: none, or its instance's usage replaced. */
  lemma MatchedUsagesStep(samples: seq<Sample>, instances: map<int, CfClient.Instance>)
    requires samples != []
    ensures var before := MatchedUsages(samples[..|samples| - 1], instances);
      var last := samples[|samples| - 1];
      var key := SampleInstance(last.metric, instances);
      MatchedUsages(samples, instances) == if key.None? then before else before[key.value := last.point.value]
  {
  }

  /** Sample `s` counts for instance `id`. */
  predicate CountsFor(s: Sample, instances: map<int, CfClient.Instance>, id: int) {
    SampleInstance(s.metric, instances) == Some(id)
  }

  /** An instance has a usage iff some sample counts for it. */
  lemma {:induction false} MatchedUsagesKeys(samples: seq<Sample>, instances: map<int, CfClient.Instance>)
    ensures forall id :: id in MatchedUsages(samples, instances) <==>
      exists k :: 0 <= k < |samples| && CountsFor(samples[k], instances, id)
  {
    if samples != [] {
      var n := |samples| - 1;
      MatchedUsagesKeys(samples[..n], instances);
      assert forall k :: 0 <= k < n ==> samples[..n][k] == samples[k];
    }
  }

  /** The usage of an instance is the value of the last sample that counts for it. */
  lemma {:induction false} MatchedUsagesLastWins(samples: seq<Sample>, instances: map<int, CfClient.Instance>, id: int)
    returns (k: nat)
    requires id in MatchedUsages(samples, instances)
    ensures k < |samples| && CountsFor(samples[k], instances, id)
    ensures MatchedUsages(samples, instances)[id] == samples[k].point.value
    ensures forall j :: k < j < |samples| ==> !CountsFor(samples[j], instances, id)
  {
    var n := |samples| - 1;
    var init := samples[..n];
    if CountsFor(samples[n], instances, id) {
      k := n;
    } else {
      k := MatchedUsagesLastWins(init, instances, id);
      assert forall j :: k < j < n ==> init[j] == samples[j];
    }
  }
}

=== FILE: go_lib.dfy ===
/**
 * Go run-time vocabulary shared by every module of the model: optional
 * values, error values, the (value, error) pair that Go functions return,
 * instants of time, and map lookups that fall back to the zero value.
 */
module GoLib {

  datatype Option<+T> = None | Some(value: T)

  /** A Go `error` value. `Error()` of every kind is its `message`. */
  datatype Error =
    | Error(message: string)
      /** reporter.UnsupportedCFDeploymentError, recognised by a type assertion. */
    | UnsupportedCFDeployment(message: string)
      /** A run-time panic (nil dereference, index out of range); nothing recovers from it. */
    | Panic(message: string)

  /** The `(T, error)` pair of a Go function; callers never read T beside an error. */
  datatype ErrorOr<+T> = Ok(value: T) | Err(error: Error)

  /** `m[k]` on a Go map: the zero value of the element type when k is absent. */
  function Lookup<K, V>(m: map<K, V>, k: K, zero: V): (v: V)
    ensures k in m ==> v == m[k]
    ensures k !in m ==> v == zero
  {
    if k in m then m[k] else zero
  }

  /**
   * `a / b` on float64. A zero divisor, where Go yields an infinity or NaN,
   * gives 0 here.
   */
  function FloatDiv(a: real, b: real): (q: real)
    ensures b != 0.0 ==> q * b == a
    ensures b > 0.0 ==> (q > 1.0 <==> a > b)
  {
    if b == 0.0 then 0.0 else a / b
  }

  const NanosPerSecond: int := 1_000_000_000

  /** Seconds from the Unix epoch back to January 1 of year 1, Go's zero `time.Time`. */
  const ZeroTimeUnixSeconds: int := -62_135_596_800

  /** A `time.Time`, as nanoseconds since the Unix epoch (location is not modelled). */
  datatype Time = Time(unixNanos: int)

  /** `time.Unix(sec, 0)` */
  function Unix(sec: int): (t: Time)
    ensures t.unixNanos == sec * NanosPerSecond
  {
    Time(sec * NanosPerSecond)
  }

  /** `time.Unix(0, nsec)` */
  function UnixNano(nsec: int): (t: Time)
    ensures t.unixNanos == nsec
  {
    Time(nsec)
  }

  /** `time.Time{}` */
  const ZeroTime: Time := Unix(ZeroTimeUnixSeconds)

  predicate IsZero(t: Time) {
    t == ZeroTime
  }

  /** `t.After(u)` */
  predicate After(t: Time, u: Time) {
    t.unixNanos > u.unixNanos
  }

  /** Whole seconds never collide: `time.Unix` is injective. */
  lemma UnixInjective(a: int, b: int)
    ensures Unix(a) == Unix(b) <==> a == b
  {
    if Unix(a) == Unix(b) {
      assert a * NanosPerSecond == b * NanosPerSecond;
    }
  }

  /** The epoch, `time.Unix(0, 0)`, is not the zero time. */
  lemma EpochIsNotZero()
    ensures !IsZero(Unix(0))
  {
  }

  /** The elements already appended, ahead of what the rest of a loop yields or the error that stops it. */
  function Prepend<T>(xs: seq<T>, ys: ErrorOr<seq<T>>): (r: ErrorOr<seq<T>>)
    ensures r.Ok? <==> ys.Ok?
    ensures ys.Err? ==> r == ys
  {
    match ys
    case Ok(v) => Ok(xs + v)
    case Err(e) => Err(e)
  }

  lemma PrependNothing<T>(ys: ErrorOr<seq<T>>)
    ensures Prepend([], ys) == ys
  {
    if ys.Ok? {
      assert [] + ys.value == ys.value;
    }
  }

  lemma PrependTwice<T>(xs: seq<T>, ys: seq<T>, zs: ErrorOr<seq<T>>)
    ensures Prepend(xs, Prepend(ys, zs)) == Prepend(xs + ys, zs)
  {
    if zs.Ok? {
      assert xs + (ys + zs.value) == (xs + ys) + zs.value;
    }
  }

  /** `xs` is `ys` with some elements left out, the rest in their order. */
  predicate IsSubsequence<T(==)>(xs: seq<T>, ys: seq<T>)
    decreases |ys|
  {
    xs == [] || (ys != [] && ((xs[0] == ys[0] && IsSubsequence(xs[1..], ys[1..])) || IsSubsequence(xs, ys[1..])))
  }

  /** A non-empty set has a member: what picking the next key of a Go map iteration relies on. */
  lemma SomeMember<T>(s: set<T>) returns (x: T)
    requires s != {}
    ensures x in s
  {
    if forall y :: y !in s {
      assert false;
    }
    x :| x in s;
  }

  /** A subset is no larger than its superset, and a proper subset is smaller. */
  lemma {:induction false} SubsetCardinality<T>(a: set<T>, b: set<T>)
    requires a <= b
    ensures |a| <= |b|
    ensures a != b ==> |a| < |b|
    decreases |b|
  {
    if a != b {
      var x := SomeMember(b - a);
      SubsetCardinality(a, b - {x});
    } else if a != {} {
      var x := SomeMember(a);
      SubsetCardinality(a - {x}, b - {x});
    }
  }

  /** A sequence without repetitions is as long as the set of its elements. */
  lemma {:induction false} DistinctLength<T>(xs: seq<T>, elems: set<T>)
    requires forall p, q :: 0 <= p < q < |xs| ==> xs[p] != xs[q]
    requires forall x :: x in elems <==> x in xs
    ensures |xs| == |elems|
  {
    if xs != [] {
      var n := |xs| - 1;
      forall x ensures x in elems - {xs[n]} <==> x in xs[..n] {
        if x in xs[..n] {
          var i :| 0 <= i < n && xs[..n][i] == x;
          assert xs[i] == x;
        }
        if x in xs && x != xs[n] {
          var i :| 0 <= i < |xs| && xs[i] == x;
          assert xs[..n][i] == x;
        }
      }
      DistinctLength(xs[..n], elems - {xs[n]});
    }
  }
}

=== FILE: historical_usage.dfy ===
/**
 * fetchers/historical_usage.go: the usage history of each instance, from a
 * PromQL range query. A series counts for an instance when its
 * `instance_id` names a registered instance and its first point is not
 * older than the instance (an older series belongs to a previous
 * incarnation). The query's answer is an input: the series, or its error.
 */
module HistoricalUsage {
  import opened GoLib
  import opened Strconv
  import opened LogCache
  import Metadata
  import opened FetcherData

  /** The time of a point, when it parses: whole seconds, truncated. */
  function PointTime(p: Point): Option<Time> {
    match ParseFloat(p.time)
    case None => None
    case Some(ts) => Some(Unix(Trunc(ts)))
  }

  /** `isCurrentSeries`: the series has a first point, it parses, and it is at or after the instance's start. */
  function IsCurrentSeries(series: Series, instance: Metadata.CFAppInstance): (r: bool)
    ensures r <==> && |series.points| > 0
                   && PointTime(series.points[0]).Some?
                   && PointTime(series.points[0]).value.unixNanos >= instance.since.unixNanos
  {
    if |series.points| == 0 then false
    else match ParseFloat(series.points[0].time)
      case None => false
      case Some(timestamp) =>
        var pointTime := Unix(Trunc(timestamp));
        After(pointTime, instance.since) || pointTime == instance.since
  }

  /** The row built from a series' points: those whose time parses, in order. */
  function RowOf(points: seq<Point>, id: int): (row: seq<InstanceData>)
    ensures |row| <= |points|
    ensures forall e :: e in row ==> e.instanceID == id
  {
    if points == [] then []
    else
      var last := points[|points| - 1];
      RowOf(points[..|points| - 1], id)
        + match PointTime(last)
          case None => []
          case Some(t) => [InstanceData(t, id, last.value, ZeroTime, ZeroTime)]
  }

  /** The instance a series counts for, if any. */
  function SeriesInstance(series: Series, instances: map<int, Metadata.CFAppInstance>): (r: Option<int>)
    ensures r.Some? <==> && Atoi(Label(series.metric, "instance_id")).Some?
                         && Atoi(Label(series.metric, "instance_id")).value in instances
                         && IsCurrentSeries(series, instances[Atoi(Label(series.metric, "instance_id")).value])
    ensures r.Some? ==> r == Atoi(Label(series.metric, "instance_id"))
  {
    match Atoi(Label(series.metric, "instance_id"))
    case None => None
    case Some(id) => if id in instances && IsCurrentSeries(series, instances[id]) then Some(id) else None
  }

  /** A builder of an instance's row from a series' points. */
  type RowBuilder = (seq<Point>, int) -> seq<InstanceData>

  /**
   * The rows after reading the series in order, each series counting for
   * the instance `key` names and giving it the row `row` builds, a later
   * series replacing an earlier one.
   */
  function Rows(series: seq<Series>, key: Series -> Option<int>, row: RowBuilder): map<int, seq<InstanceData>> {
    if series == [] then map[]
    else
      var before := Rows(series[..|series| - 1], key, row);
      var last := series[|series| - 1];
      match key(last)
      case None => before
      case Some(id) => before[id := row(last.points, id)]
  }

  /** The instance each series counts for, as a function of the series. */
  function KeyOf(instances: map<int, Metadata.CFAppInstance>): Series -> Option<int> {
    s => SeriesInstance(s, instances)
  }

  /** `RowOf` as a row builder. */
  function RowsFromPoints(): RowBuilder {
    (points, id) => RowOf(points, id)
  }

  /** The rows `parseResult` builds. */
  function Historical(series: seq<Series>, instances: map<int, Metadata.CFAppInstance>): map<int, seq<InstanceData>> {
    Rows(series, KeyOf(instances), RowsFromPoints())
  }

  /** The last series read decides the change: none, or its instance's row replaced. */
  lemma RowsStep(series: seq<Series>, key: Series -> Option<int>, row: RowBuilder)
    requires series != []
    ensures var before := Rows(series[..|series| - 1], key, row);
      var last := series[|series| - 1];
      Rows(series, key, row) == if key(last).None? then before else before[key(last).value := row(last.points, key(last).value)]
  {
  }

  /** The entry a point contributes to a row: one when its time parses, none otherwise. */
  function PointEntry(p: Point, id: int): seq<InstanceData> {
    match PointTime(p)
    case None => []
    case Some(t) => [InstanceData(t, id, p.value, ZeroTime, ZeroTime)]
  }

  /** Reading one more point extends the row by that point's entry. */
  lemma RowOfSnoc(points: seq<Point>, p: Point, id: int)
    ensures RowOf(points + [p], id) == RowOf(points, id) + PointEntry(p, id)
  {
    assert (points + [p])[..|points|] == points;
  }

  /** The inner loop of `parseResult`: the points whose time parses, in order, as entries of instance `id`. */
  method BuildRow(points: seq<Point>, id: int) returns (instanceDataRow: seq<InstanceData>)
    ensures instanceDataRow == RowOf(points, id)
  {
    instanceDataRow := [];
    for j := 0 to |points|
      invariant instanceDataRow == RowOf(points[..j], id)
    {
      assert points[..j + 1] == points[..j] + [points[j]];
      RowOfSnoc(points[..j], points[j], id);
      var timestamp := ParseFloat(points[j].time);
      if timestamp.None? {
        assert PointEntry(points[j], id) == [];
        continue;
      }
      var entry := InstanceData(Unix(Trunc(timestamp.value)), id, points[j].value, ZeroTime, ZeroTime);
      assert PointEntry(points[j], id) == [entry];
      instanceDataRow := instanceDataRow + [entry];
    }
    assert points[..|points|] == points;
  }

  /** `parseResult` */
  method ParseResult(series: seq<Series>, appInstances: map<int, Metadata.CFAppInstance>)
    returns (dataPerInstance: map<int, seq<InstanceData>>)
    ensures dataPerInstance == Historical(series, appInstances)
  {
    dataPerInstance := map[];
    for i := 0 to |series|
      invariant dataPerInstance == Historical(series[..i], appInstances)
    {
      assert series[..i + 1][..i] == series[..i];
      RowsStep(series[..i + 1], KeyOf(appInstances), RowsFromPoints());
      assert KeyOf(appInstances)(series[i]) == SeriesInstance(series[i], appInstances);
      var instanceID := Atoi(Label(series[i].metric, "instance_id"));
      if instanceID.None? {
        continue;
      }
      if instanceID.value !in appInstances {
        continue;
      }
      var instance := appInstances[instanceID.value];
      if !IsCurrentSeries(series[i], instance) {
        continue;
      }
      var instanceDataRow := BuildRow(series[i].points, instanceID.value);
      assert RowsFromPoints()(series[i].points, instanceID.value) == instanceDataRow;
      dataPerInstance := dataPerInstance[instanceID.value := instanceDataRow];
    }
    assert series[..|series|] == series;
  }

  /** `HistoricalUsageFetcher.FetchInstanceData`: the query error, or the parsed rows. */
  method FetchInstanceData(promqlRange: ErrorOr<seq<Series>>, appInstances: map<int, Metadata.CFAppInstance>)
    returns (r: ErrorOr<map<int, seq<InstanceData>>>)
    ensures promqlRange.Err? ==> r == Err(promqlRange.error)
    ensures promqlRange.Ok? ==> r == Ok(Historical(promqlRange.value, appInstances))
  {
    if promqlRange.Err? {
      return Err(promqlRange.error);
    }
    var rows := ParseResult(promqlRange.value, appInstances);
    return Ok(rows);
  }

  /** A row keeps the first point when its time parses, so it is not empty. */
  lemma {:induction false} RowKeepsFirstPoint(points: seq<Point>, id: int)
    requires |points| > 0 && PointTime(points[0]).Some?
    ensures |RowOf(points, id)| > 0
    ensures RowOf(points, id)[0] == InstanceData(PointTime(points[0]).value, id, points[0].value, ZeroTime, ZeroTime)
  {
    if |points| > 1 {
      var init := points[..|points| - 1];
      assert init[0] == points[0];
      RowKeepsFirstPoint(init, id);
    }
  }

  /**
   * The positions of the elements that satisfy `ok`, ascending: every such
   * position appears, once, and no other.
   */
  function Positions<T>(xs: seq<T>, ok: T -> bool): (ks: seq<nat>)
    ensures forall i :: 0 <= i < |ks| ==> ks[i] < |xs| && ok(xs[ks[i]])
    ensures forall i, j :: 0 <= i < j < |ks| ==> ks[i] < ks[j]
    ensures forall k :: 0 <= k < |xs| && ok(xs[k]) ==> k in ks
  {
    if xs == [] then []
    else
      var n := |xs| - 1;
      var init := Positions(xs[..n], ok);
      assert forall k :: 0 <= k < n ==> xs[..n][k] == xs[k];
      init + (if ok(xs[n]) then [n] else [])
  }

  /** A point's time parses. */
  function TimeParses(): Point -> bool {
    p => PointTime(p).Some?
  }

  /**
   * A row is exactly the points whose time parses, in their order: its
   * i-th entry comes from the i-th such point, with that point's time and value.
   */
  lemma {:induction false} RowOfParsedPoints(points: seq<Point>, id: int)
    ensures |RowOf(points, id)| == |Positions(points, TimeParses())|
    ensures forall i :: 0 <= i < |Positions(points, TimeParses())| ==>
      var k := Positions(points, TimeParses())[i];
      PointTime(points[k]).Some? &&
      RowOf(points, id)[i] == InstanceData(PointTime(points[k]).value, id, points[k].value, ZeroTime, ZeroTime)
  {
    if points != [] {
      var n := |points| - 1;
      var init := points[..n];
      RowOfParsedPoints(init, id);
      assert points == init + [points[n]];
      RowOfSnoc(init, points[n], id);
      assert TimeParses()(points[n]) == PointTime(points[n]).Some?;
      var ks := Positions(points, TimeParses());
      var before := Positions(init, TimeParses());
      assert ks == before + (if TimeParses()(points[n]) then [n] else []);
      forall i | 0 <= i < |ks|
        ensures PointTime(points[ks[i]]).Some?
        ensures RowOf(points, id)[i] == InstanceData(PointTime(points[ks[i]]).value, id, points[ks[i]].value, ZeroTime, ZeroTime)
      {
        assert TimeParses()(points[ks[i]]);
        if i < |before| {
          assert init[before[i]] == points[ks[i]];
        }
      }
    }
  }

  /** Every entry of a row is a point whose time parsed, carried over with its value. */
  lemma {:induction false} RowFromParsedPoints(points: seq<Point>, id: int)
    ensures forall e :: e in RowOf(points, id) ==>
      exists k :: 0 <= k < |points| && PointTime(points[k]) == Some(e.time) && e.value == points[k].value
  {
    if points != [] {
      var n := |points| - 1;
      RowFromParsedPoints(points[..n], id);
      assert forall k :: 0 <= k < n ==> points[..n][k] == points[k];
    }
  }

  /** An instance has a row iff some series counts for it. */
  lemma {:induction false} RowsKeys(series: seq<Series>, key: Series -> Option<int>, row: RowBuilder)
    ensures forall id :: id in Rows(series, key, row) <==> exists k :: 0 <= k < |series| && key(series[k]) == Some(id)
  {
    if series != [] {
      var n := |series| - 1;
      RowsKeys(series[..n], key, row);
      assert forall k :: 0 <= k < n ==> series[..n][k] == series[k];
    }
  }

  /** The row of an instance comes from the last series that counts for it, series `k`. */
  lemma {:induction false} RowsLastWins(series: seq<Series>, key: Series -> Option<int>, row: RowBuilder, id: int) returns (k: nat)
    requires id in Rows(series, key, row)
    ensures k < |series| && key(series[k]) == Some(id)
    ensures Rows(series, key, row)[id] == row(series[k].points, id)
    ensures forall j :: k < j < |series| ==> key(series[j]) != Some(id)
  {
    var n := |series| - 1;
    var init := series[..n];
    RowsStep(series, key, row);
    if key(series[n]) == Some(id) {
      k := n;
    } else {
      k := RowsLastWins(init, key, row, id);
      forall j | k < j < |series| ensures key(series[j]) != Some(id) {
        if j < n {
          assert init[j] == series[j];
        }
      }
    }
  }

  /** Series `s` counts for instance `id`. */
  predicate SeriesCountsFor(s: Series, instances: map<int, Metadata.CFAppInstance>, id: int) {
    SeriesInstance(s, instances) == Some(id)
  }

  /** The row of an instance comes from the last series that counts for it, series `k`. */
  lemma HistoricalLastWins(series: seq<Series>, instances: map<int, Metadata.CFAppInstance>, id: int)
    returns (k: nat)
    requires id in Historical(series, instances)
    ensures k < |series| && SeriesCountsFor(series[k], instances, id)
    ensures Historical(series, instances)[id] == RowOf(series[k].points, id)
    ensures forall j :: k < j < |series| ==> !SeriesCountsFor(series[j], instances, id)
  {
    k := RowsLastWins(series, KeyOf(instances), RowsFromPoints(), id);
    forall j | k < j < |series| ensures !SeriesCountsFor(series[j], instances, id) {
      assert KeyOf(instances)(series[j]) == SeriesInstance(series[j], instances);
    }
  }

  /** An instance gets a row iff some series counts for it. */
  lemma HistoricalKeys(series: seq<Series>, instances: map<int, Metadata.CFAppInstance>)
    ensures forall id :: id in Historical(series, instances) <==> exists k :: 0 <= k < |series| && SeriesCountsFor(series[k], instances, id)
  {
    RowsKeys(series, KeyOf(instances), RowsFromPoints());
    forall k | 0 <= k < |series| ensures KeyOf(instances)(series[k]) == SeriesInstance(series[k], instances) {
    }
  }

  /**
   * Only registered instances get a row, and every row is non-empty and
   * carries its instance's id.
   */
  lemma HistoricalRows(series: seq<Series>, instances: map<int, Metadata.CFAppInstance>)
    ensures var h := Historical(series, instances);
      forall id :: id in h ==> id in instances && |h[id]| > 0 && forall e :: e in h[id] ==> e.instanceID == id
  {
    var h := Historical(series, instances);
    forall id | id in h ensures id in instances && |h[id]| > 0 && forall e: InstanceData :: e in h[id] ==> e.instanceID == id {
      var k := HistoricalLastWins(series, instances, id);
      RowKeepsFirstPoint(series[k].points, id);
    }
  }
}

=== FILE: httpclient_token.dfy ===
/**
 * httpclient/token.go: the HTTP client's own token cache. It is the same
 * code as token/token.go under other names, and reads the expiry with the
 * same function, so it uses `Token.ExtractExpirationTime`.
 */
module HttpClientToken {
  import opened GoLib
  import TokenPackage = Token

  /** `TokenGetter`: the last token fetched and the time it expires. */
  class TokenGetter {
    var currentToken: string
    var tokenExpirationTime: Time

    /** `NewTokenGetter`: no token yet, and an expiry of the construction time. */
    constructor(now: Time)
      ensures currentToken == "" && tokenExpirationTime == now
    {
      currentToken := "";
      tokenExpirationTime := now;
    }

    /** `tokenExpired`: the clock is strictly after the stored expiry. */
    predicate TokenExpired(now: Time): (b: bool)
      reads this
      ensures b <==> now.unixNanos > tokenExpirationTime.unixNanos
      /* once expired, the token stays expired at every later clock reading */
      ensures b ==> forall later: Time :: !After(now, later) ==> After(later, tokenExpirationTime)
    {
      After(now, tokenExpirationTime)
    }

    /**
     * `refreshToken`: on a source error, "" with that error and nothing
     * changed; otherwise the token is cached and its expiry stored (the zero
     * time on an error), and the token is returned unless there was an error.
     */
    method RefreshToken(fetched: ErrorOr<string>, decodeClaims: TokenPackage.ClaimsDecoder) returns (r: ErrorOr<string>)
      modifies this
      ensures fetched.Err? ==> r == Err(fetched.error) && unchanged(this)
      ensures fetched.Ok? ==> currentToken == fetched.value
      ensures fetched.Ok? ==> match TokenPackage.ExtractExpirationTime(fetched.value, decodeClaims)
        case Ok(t) => tokenExpirationTime == t && r == Ok(fetched.value)
        case Err(e) => r == Err(e) && tokenExpirationTime == (if e.Panic? then old(tokenExpirationTime) else ZeroTime)
    {
      if fetched.Err? {
        return Err(fetched.error);
      }
      var token := fetched.value;
      currentToken := token;
      var expiry := TokenPackage.ExtractExpirationTime(token, decodeClaims);
      if expiry.Err? {
        if !expiry.error.Panic? {
          tokenExpirationTime := ZeroTime;
        }
        return Err(expiry.error);
      }
      tokenExpirationTime := expiry.value;
      return Ok(token);
    }

    /**
     * `Token`: the cached token while the clock has not passed the expiry;
     * otherwise a refresh, which is the only time the source is consulted.
     */
    method Token(now: Time, fetched: ErrorOr<string>, decodeClaims: TokenPackage.ClaimsDecoder) returns (r: ErrorOr<string>, refreshed: bool)
      modifies this
      ensures refreshed <==> old(TokenExpired(now))
      ensures !refreshed ==> r == Ok(old(currentToken)) && unchanged(this)
      ensures refreshed && fetched.Err? ==> r == Err(fetched.error) && unchanged(this)
      ensures refreshed && fetched.Ok? ==> currentToken == fetched.value
      ensures refreshed && fetched.Ok? ==> match TokenPackage.ExtractExpirationTime(fetched.value, decodeClaims)
        case Ok(t) => tokenExpirationTime == t && r == Ok(fetched.value)
        case Err(e) => r == Err(e) && tokenExpirationTime == (if e.Panic? then old(tokenExpirationTime) else ZeroTime)
      /* after an unreadable expiry, any later call past the zero time refreshes again */
      ensures refreshed && r.Err? && !r.error.Panic? && fetched.Ok? ==>
        forall later: Time :: After(later, ZeroTime) ==> TokenExpired(later)
    {
      if TokenExpired(now) {
        r := RefreshToken(fetched, decodeClaims);
        return r, true;
      }
      return Ok(currentToken), false;
    }
  }
}

=== FILE: instance_runner.dfy ===
/**
 * plugins/app/runner.go: the command that reports an application's
 * instances. Its three collaborators (the app-info getter, the reporter and
 * the renderer) are function parameters; the calls made on the reporter and
 * the renderer are returned as a trace.
 */
module InstanceRunner {
  import opened GoLib
  import opened Results
  import Metadata
  import Reporter

  type InstanceReport = Reporter.InstanceReport

  datatype Step =
    | ShowMessage(info: Metadata.CFAppInfo, message: string)
    | CreateInstanceReports(info: Metadata.CFAppInfo)
    | ShowInstanceReports(info: Metadata.CFAppInfo, reports: seq<InstanceReport>)

  const NoInstancesMessage := "There are no running instances of this process."

  const DeploymentAdvice := ". Make sure that you are using cf-deployment version >= v5.5.0."

  function NoDataMessage(appName: string): string {
    "Could not find any CPU data for app " + appName + DeploymentAdvice
  }

  /** The command reaches the reporter: the app info was found and has running instances. */
  predicate Reports(info: ErrorOr<Metadata.CFAppInfo>) {
    info.Ok? && |info.value.instances| != 0
  }

  /**
   * `Runner.Run`: an app-info failure; success after one message when there
   * are no running instances; a reporter failure with the feature warning;
   * a failure naming the application when there are no reports; then the
   * renderer's failure, or success.
   */
  function Run(
    appName: string,
    getCFAppInfo: string -> ErrorOr<Metadata.CFAppInfo>,
    createInstanceReports: Metadata.CFAppInfo -> ErrorOr<seq<InstanceReport>>,
    showInstanceReports: (Metadata.CFAppInfo, seq<InstanceReport>) -> Option<Error>)
    : (out: (Result, seq<Step>))
    ensures getCFAppInfo(appName).Err? ==> out == (FailureFromError(getCFAppInfo(appName).error), [])
    ensures getCFAppInfo(appName).Ok? && |getCFAppInfo(appName).value.instances| == 0 ==>
      out == (Success(), [ShowMessage(getCFAppInfo(appName).value, NoInstancesMessage)])
    ensures Reports(getCFAppInfo(appName)) ==>
      && |out.1| >= 1 && out.1[0] == CreateInstanceReports(getCFAppInfo(appName).value)
      && match createInstanceReports(getCFAppInfo(appName).value)
         case Err(e) => out.0 == WithWarning(FailureFromError(e), FeatureWarning) && |out.1| == 1
         case Ok(reports) =>
           if reports == [] then out.0 == Failure(NoDataMessage(appName)) && |out.1| == 1
           else
             && out.1 == [out.1[0], ShowInstanceReports(getCFAppInfo(appName).value, reports)]
             && out.0 == match showInstanceReports(getCFAppInfo(appName).value, reports)
                         case Some(e) => FailureFromError(e)
                         case None => Success()
    /* the reporter is called iff the app has running instances */
    ensures (exists s :: s in out.1 && s.CreateInstanceReports?) <==> Reports(getCFAppInfo(appName))
    /* a warning is given iff the reporter failed */
    ensures out.0.warningMessage != NoWarning <==>
      Reports(getCFAppInfo(appName)) && createInstanceReports(getCFAppInfo(appName).value).Err?
  {
    match getCFAppInfo(appName)
    case Err(e) => (FailureFromError(e), [])
    case Ok(info) =>
      if |info.instances| == 0 then (Success(), [ShowMessage(info, NoInstancesMessage)])
      else
        var trace := [CreateInstanceReports(info)];
        assert trace[0] in trace;
        match createInstanceReports(info)
        case Err(e) => (WithWarning(FailureFromError(e), FeatureWarning), trace)
        case Ok(instanceReports) =>
          if |instanceReports| == 0 then (Failure(NoDataMessage(appName)), trace)
          else
            var shown := trace + [ShowInstanceReports(info, instanceReports)];
            assert shown[0] in shown;
            match showInstanceReports(info, instanceReports)
            case Some(e) => (FailureFromError(e), shown)
            case None => (Success(), shown)
  }

  /**
   * The command succeeds iff the app info is found and either there are no
   * running instances, or there are reports and the renderer shows them.
   */
  lemma RunSucceeds(
    appName: string,
    getCFAppInfo: string -> ErrorOr<Metadata.CFAppInfo>,
    createInstanceReports: Metadata.CFAppInfo -> ErrorOr<seq<InstanceReport>>,
    showInstanceReports: (Metadata.CFAppInfo, seq<InstanceReport>) -> Option<Error>)
    ensures !IsFailure(Run(appName, getCFAppInfo, createInstanceReports, showInstanceReports).0) <==>
      && getCFAppInfo(appName).Ok?
      && (Reports(getCFAppInfo(appName)) ==>
            && createInstanceReports(getCFAppInfo(appName).value).Ok?
            && createInstanceReports(getCFAppInfo(appName).value).value != []
            && showInstanceReports(getCFAppInfo(appName).value, createInstanceReports(getCFAppInfo(appName).value).value).None?)
  {
  }
}

=== FILE: last_spike.dfy ===
/**
 * fetchers/last_spike.go: the most recent CPU spike of each instance, from
 * the "spike" gauges log-cache returns newest first. The first qualifying
 * envelope of an instance claims its slot. A gauge without a `spike_start`
 * or `spike_end` value is dereferenced as a nil pointer, which panics; the
 * panic is modelled as an `Error.Panic` result.
 */
module LastSpike {
  import opened GoLib
  import opened Strconv
  import opened LogCache
  import CfClient
  import opened FetcherData

  const SpikeStart: string := "spike_start"
  const SpikeEnd: string := "spike_end"
  const NilDereference: string := "runtime error: invalid memory address or nil pointer dereference"

  /** Both spike bounds are present in a gauge envelope. */
  predicate HasSpikeBounds(e: Envelope) {
    e.message.Gauge? && SpikeStart in e.message.metrics && SpikeEnd in e.message.metrics
  }

  /** The spike an envelope records for `id`: both bounds truncated to whole seconds. */
  function SpikeOf(e: Envelope, id: int): (d: LastSpikeInstanceData)
    requires HasSpikeBounds(e)
    ensures d.instanceID == id
    ensures d.from == Unix(Trunc(e.message.metrics[SpikeStart])) && d.to == Unix(Trunc(e.message.metrics[SpikeEnd]))
    ensures d.from == d.to <==> Trunc(e.message.metrics[SpikeStart]) == Trunc(e.message.metrics[SpikeEnd])
  {
    UnixInjective(Trunc(e.message.metrics[SpikeStart]), Trunc(e.message.metrics[SpikeEnd]));
    LastSpikeInstanceData(id, Unix(Trunc(e.message.metrics[SpikeStart])), Unix(Trunc(e.message.metrics[SpikeEnd])))
  }

  /** Envelope `e` may claim the slot of instance `id`. */
  predicate Qualifies(e: Envelope, instances: map<int, CfClient.Instance>, id: int) {
    && Atoi(e.instanceId) == Some(id)
    && HasSpikeBounds(e)
    && Label(e.tags, "process_instance_id") == RegisteredProcessInstanceID(instances, id)
  }

  /**
   * Envelope `e` panics the loop once `m` is claimed: its id parses to a free
   * slot and it is a gauge lacking a bound. Both bounds are read before the
   * process instance id is compared, so a stale gauge panics too.
   */
  predicate Panics(m: map<int, Dynamic>, e: Envelope) {
    && Atoi(e.instanceId).Some?
    && Atoi(e.instanceId).value !in m
    && e.message.Gauge?
    && !HasSpikeBounds(e)
  }

  /** One pass of the loop of `parseLastSpike`, from the slots claimed so far. */
  function SpikeStep(m: map<int, Dynamic>, e: Envelope, instances: map<int, CfClient.Instance>): (r: ErrorOr<map<int, Dynamic>>)
    ensures r.Err? <==> Panics(m, e)
    ensures r.Err? ==> r.error == Panic(NilDereference)
    ensures r.Ok? ==> forall id :: id in m ==> id in r.value && r.value[id] == m[id]
    ensures r.Ok? ==> forall id :: id !in m ==> (id in r.value <==> Qualifies(e, instances, id))
    ensures r.Ok? ==> forall id :: id in r.value && id !in m ==>
      Qualifies(e, instances, id) && r.value[id] == LastSpike(SpikeOf(e, id))
  {
    match Atoi(e.instanceId)
    case None => Ok(m)
    case Some(id) =>
      if id in m then Ok(m)
      else if !e.message.Gauge? then Ok(m)
      else if SpikeStart !in e.message.metrics || SpikeEnd !in e.message.metrics then Err(Panic(NilDereference))
      else if RegisteredProcessInstanceID(instances, id) != Label(e.tags, "process_instance_id") then Ok(m)
      else Ok(m[id := LastSpike(SpikeOf(e, id))])
  }

  /** The slots claimed after reading `envelopes` in order, or the panic that stopped the loop. */
  function LastSpikes(envelopes: seq<Envelope>, instances: map<int, CfClient.Instance>): (r: ErrorOr<map<int, Dynamic>>)
    ensures r.Err? ==> r.error.Panic?
  {
    if envelopes == [] then Ok(map[])
    else match LastSpikes(envelopes[..|envelopes| - 1], instances)
      case Err(e) => Err(e)
      case Ok(m) => SpikeStep(m, envelopes[|envelopes| - 1], instances)
  }

  /** A panic ends the loop: the envelopes after it change nothing. */
  lemma {:induction false} PanicStops(envelopes: seq<Envelope>, i: nat, instances: map<int, CfClient.Instance>)
    requires i <= |envelopes| && LastSpikes(envelopes[..i], instances).Err?
    ensures LastSpikes(envelopes, instances) == LastSpikes(envelopes[..i], instances)
    decreases |envelopes| - i
  {
    if i < |envelopes| {
      var n := |envelopes| - 1;
      assert envelopes[..n][..i] == envelopes[..i];
      PanicStops(envelopes[..n], i, instances);
    } else {
      assert envelopes[..i] == envelopes;
    }
  }

  /** `parseLastSpike`: never an error, though a gauge missing a bound panics. */
  method ParseLastSpike(res: seq<Envelope>, appInstances: map<int, CfClient.Instance>) returns (r: ErrorOr<map<int, Dynamic>>)
    ensures r == LastSpikes(res, appInstances)
  {
    var lastSpikePerInstance: map<int, Dynamic> := map[];
    for i := 0 to |res|
      invariant LastSpikes(res[..i], appInstances) == Ok(lastSpikePerInstance)
    {
      assert res[..i + 1][..i] == res[..i];
      var envelope := res[i];
      var instanceID := Atoi(envelope.instanceId);
      if instanceID.None? {
        continue;
      }
      if instanceID.value in lastSpikePerInstance {
        continue;
      }
      if !envelope.message.Gauge? {
        continue;
      }
      var gaugeValues := envelope.message.metrics;
      if SpikeStart !in gaugeValues || SpikeEnd !in gaugeValues {
        PanicStops(res, i + 1, appInstances);
        return Err(Panic(NilDereference));
      }
      var spikeStart := Unix(Trunc(gaugeValues[SpikeStart]));
      var spikeEnd := Unix(Trunc(gaugeValues[SpikeEnd]));
      var processInstanceID := Label(envelope.tags, "process_instance_id");
      if RegisteredProcessInstanceID(appInstances, instanceID.value) != processInstanceID {
        continue;
      }
      lastSpikePerInstance := lastSpikePerInstance[instanceID.value := LastSpike(LastSpikeInstanceData(instanceID.value, spikeStart, spikeEnd))];
    }
    assert res[..|res|] == res;
    return Ok(lastSpikePerInstance);
  }

  /** `LastSpikeFetcher.FetchInstanceData`: the log-cache read error, or the parsed spikes. */
  method FetchInstanceData(read: ErrorOr<seq<Envelope>>, appInstances: map<int, CfClient.Instance>) returns (r: ErrorOr<map<int, Dynamic>>)
    ensures read.Err? ==> r == Err(read.error)
    ensures read.Ok? ==> r == LastSpikes(read.value, appInstances)
  {
    if read.Err? {
      return Err(read.error);
    }
    r := ParseLastSpike(read.value, appInstances);
  }

  /** Without a panic, an instance has a slot iff some envelope qualifies for it. */
  lemma {:induction false} LastSpikesKeys(envelopes: seq<Envelope>, instances: map<int, CfClient.Instance>)
    requires LastSpikes(envelopes, instances).Ok?
    ensures forall id :: id in LastSpikes(envelopes, instances).value <==>
      exists k :: 0 <= k < |envelopes| && Qualifies(envelopes[k], instances, id)
  {
    if envelopes != [] {
      var n := |envelopes| - 1;
      LastSpikesKeys(envelopes[..n], instances);
      assert forall k :: 0 <= k < n ==> envelopes[..n][k] == envelopes[k];
    }
  }

  /** The first qualifying envelope of an instance, in input order, gives its spike. */
  lemma {:induction false} LastSpikesFirstWins(envelopes: seq<Envelope>, instances: map<int, CfClient.Instance>, id: int, k: nat)
    requires LastSpikes(envelopes, instances).Ok?
    requires k < |envelopes| && Qualifies(envelopes[k], instances, id)
    requires forall j :: 0 <= j < k ==> !Qualifies(envelopes[j], instances, id)
    ensures id in LastSpikes(envelopes, instances).value
    ensures LastSpikes(envelopes, instances).value[id] == LastSpike(SpikeOf(envelopes[k], id))
    ensures LastSpikes(envelopes, instances).value[id].lastSpike.from == Unix(Trunc(envelopes[k].message.metrics[SpikeStart]))
    ensures LastSpikes(envelopes, instances).value[id].lastSpike.to == Unix(Trunc(envelopes[k].message.metrics[SpikeEnd]))
  {
    var n := |envelopes| - 1;
    var init := envelopes[..n];
    assert forall j :: 0 <= j < n ==> init[j] == envelopes[j];
    if k < n {
      LastSpikesFirstWins(init, instances, id, k);
    } else {
      LastSpikesKeys(init, instances);
    }
  }

  /**
   * The loop panics iff some envelope panics it, given the slots claimed
   * by the envelopes before it.
   */
  lemma {:induction false} LastSpikesPanicIff(envelopes: seq<Envelope>, instances: map<int, CfClient.Instance>)
    ensures LastSpikes(envelopes, instances).Err? <==>
      exists k :: 0 <= k < |envelopes| && LastSpikes(envelopes[..k], instances).Ok?
                  && Panics(LastSpikes(envelopes[..k], instances).value, envelopes[k])
  {
    if envelopes != [] {
      var n := |envelopes| - 1;
      var init := envelopes[..n];
      LastSpikesPanicIff(init, instances);
      assert forall k :: 0 <= k <= n ==> init[..k] == envelopes[..k];
      assert forall k :: 0 <= k < n ==> init[k] == envelopes[k];
      if LastSpikes(init, instances).Err? {
        var k :| 0 <= k < n && LastSpikes(init[..k], instances).Ok? && Panics(LastSpikes(init[..k], instances).value, init[k]);
        assert LastSpikes(envelopes[..k], instances).Ok? && Panics(LastSpikes(envelopes[..k], instances).value, envelopes[k]);
      } else if LastSpikes(envelopes, instances).Err? {
        assert LastSpikes(envelopes[..n], instances).Ok? && Panics(LastSpikes(envelopes[..n], instances).value, envelopes[n]);
      }
    }
  }

  /** When every gauge with a parseable id carries both bounds, the loop never panics. */
  lemma NoPanicWithBounds(envelopes: seq<Envelope>, instances: map<int, CfClient.Instance>)
    requires forall k :: 0 <= k < |envelopes| && Atoi(envelopes[k].instanceId).Some? && envelopes[k].message.Gauge? ==>
      HasSpikeBounds(envelopes[k])
    ensures LastSpikes(envelopes, instances).Ok?
  {
    LastSpikesPanicIff(envelopes, instances);
  }
}

=== FILE: log_cache.dfy ===
/**
 * The log-cache and loggregator values the fetchers read: PromQL instant
 * samples and range series (labels, and points whose time is a decimal
 * string), and loggregator envelopes with their gauge metrics.
 */
module LogCache {
  import opened GoLib

  /** A PromQL point: `GetTime()` is a decimal string of seconds, `GetValue()` a float. */
  datatype Point = Point(time: string, value: real)

  /** A sample of an instant query: its labels and its one point. */
  datatype Sample = Sample(metric: map<string, string>, point: Point)

  /** A series of a range query: its labels and its points, oldest first. */
  datatype Series = Series(metric: map<string, string>, points: seq<Point>)

  /**
   * What an envelope carries. A gauge maps metric names to values; a name
   * missing from `metrics` is a nil `*GaugeValue`.
   */
  datatype Message = Gauge(metrics: map<string, real>) | OtherMessage

  datatype Envelope = Envelope(
    instanceId: string,
    timestamp: int,
    tags: map<string, string>,
    message: Message)

  /** `envelope.GetGauge().GetMetrics()`: empty for an envelope that is not a gauge. */
  function GaugeMetrics(e: Envelope): (m: map<string, real>)
    ensures e.message.OtherMessage? ==> m == map[]
  {
    match e.message
    case Gauge(metrics) => metrics
    case OtherMessage => map[]
  }

  /** `metric[key]` on a label map: "" when the label is absent. */
  function Label(metric: map<string, string>, key: string): (v: string)
    ensures key in metric ==> v == metric[key]
    ensures key !in metric ==> v == ""
  {
    Lookup(metric, key, "")
  }
}

=== FILE: metadata.dfy ===
/**
 * metadata/appinfo.go: what the CLI says about the application being
 * reported on. `Guid` and `Instances` are read by the reporter but not
 * declared by the struct as shown; they are plain fields here.
 */
module Metadata {
  import opened GoLib

  /** An instance of the application and the time it started. */
  datatype CFAppInstance = CFAppInstance(instanceID: int, since: Time)

  /** The CLI's `GetAppModel`, with the fields the plugin reads. */
  datatype AppModel = AppModel(name: string, guid: string, instanceCount: int)

  datatype CFAppInfo = CFAppInfo(
    app: AppModel,
    username: string,
    org: string,
    space: string,
    guid: string,
    instances: map<int, CFAppInstance>)
}

=== FILE: metric_fetcher.dfy ===
/**
 * metricfetcher/metricfetcher.go: the latest usage of each instance, from
 * log-cache envelopes read newest first. The scan keeps the first usable
 * envelope per instance and stops as soon as it has as many instances as
 * the application runs.
 */
module MetricFetcher {
  import opened GoLib
  import opened Strconv
  import opened LogCache
  import opened MetricsUsage
  import UsageMetric

  /** The decoded usage of an envelope, when it decodes. */
  function Decoded(e: Envelope): (r: Option<Usage>)
    ensures r.Some? <==> UsageFromGauge(e.instanceId, GaugeMetrics(e)).1
    ensures r.Some? ==> r.value == UsageFromGauge(e.instanceId, GaugeMetrics(e)).0
  {
    var (usage, ok) := UsageFromGauge(e.instanceId, GaugeMetrics(e));
    if ok then Some(usage) else None
  }

  /** How an envelope decodes to a usage, if it does. */
  type Decoder = Envelope -> Option<Usage>

  /** `Decoded` as a decoder. */
  function Decodes(): Decoder {
    e => Decoded(e)
  }

  /** Envelope `e` decodes to a usage of instance `id` that passes the `< instanceCount` test. */
  predicate Counts(decode: Decoder, e: Envelope, instanceCount: int, id: int) {
    decode(e).Some? && decode(e).value.instanceId == id && id < instanceCount
  }

  /** Where the scan of `extractLatestMetrics` is: the map so far, and whether it broke out. */
  datatype Scan = Scan(latest: map<int, Usage>, stopped: bool)

  /** The map after envelope `e`, when `e` decodes to an id below `instanceCount`; the first entry for an id stays. */
  function Next(decode: Decoder, e: Envelope, instanceCount: int, latest: map<int, Usage>): (r: Option<map<int, Usage>>)
    ensures r.Some? <==> decode(e).Some? && decode(e).value.instanceId < instanceCount
    ensures r.Some? ==> r.value == if decode(e).value.instanceId in latest then latest
                                   else latest[decode(e).value.instanceId := decode(e).value]
  {
    match decode(e)
    case Some(usage) =>
      if usage.instanceId < instanceCount then
        Some(if usage.instanceId in latest then latest else latest[usage.instanceId := usage])
      else None
    case None => None
  }

  /** The scan of `envelopes` starting from the map `latest`. */
  function ScanFrom(envelopes: seq<Envelope>, decode: Decoder, instanceCount: int, latest: map<int, Usage>): Scan {
    if envelopes == [] then Scan(latest, false)
    else match Next(decode, envelopes[0], instanceCount, latest)
      case Some(next) =>
        if |next| == instanceCount then Scan(next, true)
        else ScanFrom(envelopes[1..], decode, instanceCount, next)
      case None => ScanFrom(envelopes[1..], decode, instanceCount, latest)
  }

  /** `buildMetricsSlice`: the entries for 0, 1, …, instanceCount - 1 that the map holds, in that order. */
  function MetricsSlice(metricsMap: map<int, Usage>, instanceCount: int): seq<Usage>
    decreases instanceCount
  {
    if instanceCount <= 0 then []
    else
      var i := instanceCount - 1;
      MetricsSlice(metricsMap, i) + (if i in metricsMap then [metricsMap[i]] else [])
  }

  /** The scan that fills `latestMetrics`, breaking out once it holds `instanceCount` instances. */
  method ScanLatest(envelopes: seq<Envelope>, instanceCount: int) returns (latestMetrics: map<int, Usage>)
    ensures latestMetrics == ScanFrom(envelopes, Decodes(), instanceCount, map[]).latest
  {
    latestMetrics := map[];
    var i := 0;
    while i < |envelopes|
      invariant 0 <= i <= |envelopes|
      invariant ScanFrom(envelopes, Decodes(), instanceCount, map[]) == ScanFrom(envelopes[i..], Decodes(), instanceCount, latestMetrics)
    {
      assert envelopes[i..][0] == envelopes[i] && envelopes[i..][1..] == envelopes[i + 1..];
      assert Decodes()(envelopes[i]) == Decoded(envelopes[i]);
      var (usageMetric, ok) := UsageFromGauge(envelopes[i].instanceId, GaugeMetrics(envelopes[i]));
      if ok && usageMetric.instanceId < instanceCount {
        var exists_ := usageMetric.instanceId in latestMetrics;
        if !exists_ {
          latestMetrics := latestMetrics[usageMetric.instanceId := usageMetric];
        }
        if |latestMetrics| == instanceCount {
          return;
        }
      }
      i := i + 1;
    }
  }

  /** `buildMetricsSlice`, the counting loop. */
  method BuildMetricsSlice(metricsMap: map<int, Usage>, instanceCount: int) returns (metrics: seq<Usage>)
    ensures metrics == MetricsSlice(metricsMap, instanceCount)
  {
    metrics := [];
    var i := 0;
    while i < instanceCount
      invariant instanceCount > 0 ==> 0 <= i <= instanceCount
      invariant instanceCount <= 0 ==> i == 0
      invariant metrics == MetricsSlice(metricsMap, i)
    {
      if i in metricsMap {
        metrics := metrics + [metricsMap[i]];
      }
      i := i + 1;
    }
  }

  /** `extractLatestMetrics` */
  method ExtractLatestMetrics(envelopes: seq<Envelope>, instanceCount: int) returns (r: seq<Usage>)
    ensures r == MetricsSlice(ScanFrom(envelopes, Decodes(), instanceCount, map[]).latest, instanceCount)
  {
    var latestMetrics := ScanLatest(envelopes, instanceCount);
    r := BuildMetricsSlice(latestMetrics, instanceCount);
  }

  /**
   * `CachedUsageMetricFetcher.FetchLatest`: the wrapped read error, the
   * "No CPU metrics found" error when nothing is extracted, or the metrics.
   */
  method FetchLatest(read: ErrorOr<seq<Envelope>>, appGuid: string, instanceCount: int)
    returns (r: ErrorOr<seq<Usage>>)
    ensures read.Err? ==> r == Err(Error("log-cache read failed: " + read.error.message))
    ensures read.Ok? ==>
      var latest := MetricsSlice(ScanFrom(read.value, Decodes(), instanceCount, map[]).latest, instanceCount);
      r == if latest == [] then Err(Error("No CPU metrics found for '" + appGuid + "'")) else Ok(latest)
  {
    if read.Err? {
      return Err(Error("log-cache read failed: " + read.error.message));
    }
    var latestMetrics := ExtractLatestMetrics(read.value, instanceCount);
    if |latestMetrics| == 0 {
      return Err(Error("No CPU metrics found for '" + appGuid + "'"));
    }
    return Ok(latestMetrics);
  }

  /** Every entry is keyed by its own instance id. */
  predicate KeyedById(m: map<int, Usage>) {
    forall id :: id in m ==> m[id].instanceId == id
  }

  /** The scan never replaces an entry, and keys every entry it adds by its id. */
  lemma {:induction false} ScanKeeps(envelopes: seq<Envelope>, decode: Decoder, instanceCount: int, latest: map<int, Usage>)
    requires KeyedById(latest)
    ensures KeyedById(ScanFrom(envelopes, decode, instanceCount, latest).latest)
    ensures forall id :: id in latest ==>
      id in ScanFrom(envelopes, decode, instanceCount, latest).latest && ScanFrom(envelopes, decode, instanceCount, latest).latest[id] == latest[id]
  {
    if envelopes != [] {
      match Next(decode, envelopes[0], instanceCount, latest) {
        case Some(next) =>
          if |next| != instanceCount {
            ScanKeeps(envelopes[1..], decode, instanceCount, next);
          }
        case None =>
          ScanKeeps(envelopes[1..], decode, instanceCount, latest);
      }
    }
  }

  /** An entry the scan adds comes from the first envelope counting for its id, envelope `k`. */
  lemma {:induction false} ScanFirstWins(envelopes: seq<Envelope>, decode: Decoder, instanceCount: int, latest: map<int, Usage>, id: int)
    returns (k: nat)
    requires KeyedById(latest)
    requires id !in latest && id in ScanFrom(envelopes, decode, instanceCount, latest).latest
    ensures k < |envelopes| && Counts(decode, envelopes[k], instanceCount, id)
    ensures ScanFrom(envelopes, decode, instanceCount, latest).latest[id] == decode(envelopes[k]).value
    ensures forall j :: 0 <= j < k ==> !Counts(decode, envelopes[j], instanceCount, id)
  {
    var rest := envelopes[1..];
    if Counts(decode, envelopes[0], instanceCount, id) {
      k := 0;
      var next := Next(decode, envelopes[0], instanceCount, latest).value;
      if |next| != instanceCount {
        ScanKeeps(rest, decode, instanceCount, next);
      }
    } else {
      match Next(decode, envelopes[0], instanceCount, latest) {
        case Some(next) =>
          assert |next| != instanceCount;
          k := ScanFirstWins(rest, decode, instanceCount, next, id);
        case None =>
          k := ScanFirstWins(rest, decode, instanceCount, latest, id);
      }
      assert forall j :: 1 <= j <= k ==> envelopes[j] == rest[j - 1];
      k := k + 1;
    }
  }

  /** Once the scan has stopped, later envelopes change nothing. */
  lemma {:induction false} StoppedScanIgnoresRest(a: seq<Envelope>, b: seq<Envelope>, decode: Decoder, instanceCount: int, latest: map<int, Usage>)
    ensures ScanFrom(a, decode, instanceCount, latest).stopped ==>
      ScanFrom(a + b, decode, instanceCount, latest) == ScanFrom(a, decode, instanceCount, latest)
    ensures !ScanFrom(a, decode, instanceCount, latest).stopped ==>
      ScanFrom(a + b, decode, instanceCount, latest) == ScanFrom(b, decode, instanceCount, ScanFrom(a, decode, instanceCount, latest).latest)
  {
    if a != [] {
      assert (a + b)[0] == a[0] && (a + b)[1..] == a[1..] + b;
      match Next(decode, a[0], instanceCount, latest) {
        case Some(next) =>
          if |next| != instanceCount {
            StoppedScanIgnoresRest(a[1..], b, decode, instanceCount, next);
          }
        case None =>
          StoppedScanIgnoresRest(a[1..], b, decode, instanceCount, latest);
      }
    } else {
      assert a + b == b;
    }
  }

  /** The slice holds only entries of the map, with ids in [0, instanceCount). */
  lemma {:induction false} MetricsSliceFromMap(metricsMap: map<int, Usage>, instanceCount: int)
    requires KeyedById(metricsMap)
    ensures forall u :: u in MetricsSlice(metricsMap, instanceCount) ==>
      0 <= u.instanceId < instanceCount && u.instanceId in metricsMap && metricsMap[u.instanceId] == u
    decreases instanceCount
  {
    if instanceCount > 0 {
      MetricsSliceFromMap(metricsMap, instanceCount - 1);
    }
  }

  /** Every entry of the map with an id in [0, instanceCount) is in the slice. */
  lemma {:induction false} MetricsSliceComplete(metricsMap: map<int, Usage>, instanceCount: int)
    ensures forall id :: 0 <= id < instanceCount && id in metricsMap ==> metricsMap[id] in MetricsSlice(metricsMap, instanceCount)
    decreases instanceCount
  {
    if instanceCount > 0 {
      MetricsSliceComplete(metricsMap, instanceCount - 1);
    }
  }

  predicate StrictlyAscending(s: seq<Usage>) {
    forall i, j :: 0 <= i < j < |s| ==> s[i].instanceId < s[j].instanceId
  }

  /** The slice is sorted strictly ascending by instance id. */
  lemma {:induction false} MetricsSliceSorted(metricsMap: map<int, Usage>, instanceCount: int)
    requires KeyedById(metricsMap)
    ensures StrictlyAscending(MetricsSlice(metricsMap, instanceCount))
    decreases instanceCount
  {
    if instanceCount > 0 {
      var n := instanceCount - 1;
      MetricsSliceSorted(metricsMap, n);
      MetricsSliceFromMap(metricsMap, n);
      var s0 := MetricsSlice(metricsMap, n);
      assert forall i :: 0 <= i < |s0| ==> s0[i] in s0 && s0[i].instanceId < n;
      if n in metricsMap {
        var s := s0 + [metricsMap[n]];
        assert s == MetricsSlice(metricsMap, instanceCount);
        assert StrictlyAscending(s) by {
          forall i, j | 0 <= i < j < |s| ensures s[i].instanceId < s[j].instanceId {
            if j < |s0| {
              assert s[i] == s0[i] && s[j] == s0[j];
              assert s0[i].instanceId < s0[j].instanceId;
            } else {
              assert s[i] == s0[i] && s[j] == metricsMap[n];
              assert s0[i].instanceId < n && metricsMap[n].instanceId == n;
            }
          }
        }
      }
    }
  }

  /**
   * The `< instanceCount` test has no lower bound: for a single-instance
   * application, an envelope with id -1 fills the only slot and ends the
   * scan, the slice then drops it, and the usable envelope of instance 0
   * behind it is never read.
   */
  lemma NegativeIdHidesInstance(gauge: map<string, real>)
    requires UsageMetric.HasUsageKeys(gauge)
    ensures var negative := Envelope(Itoa(-1), 0, map[], Gauge(gauge));
            var first := Envelope(Itoa(0), 0, map[], Gauge(gauge));
      && Counts(Decodes(), first, 1, 0)
      && MetricsSlice(ScanFrom([negative, first], Decodes(), 1, map[]).latest, 1) == []
  {
    var negative := Envelope(Itoa(-1), 0, map[], Gauge(gauge));
    var first := Envelope(Itoa(0), 0, map[], Gauge(gauge));
    AtoiItoa(-1);
    AtoiItoa(0);
    assert Decoded(negative).value.instanceId == -1;
    var latest := map[-1 := Decoded(negative).value];
    assert Next(Decodes(), negative, 1, map[]) == Some(latest);
    assert ScanFrom([negative, first], Decodes(), 1, map[]) == Scan(latest, true);
    assert MetricsSlice(latest, 0) == [];
  }
}

=== FILE: metrics_data.dfy ===
/**
 * metrics/data.go: a timestamped usage record decoded from a whole envelope.
 */
module MetricsData {
  import opened GoLib
  import opened Strconv
  import opened LogCache
  import UsageMetric

  datatype InstanceData = InstanceData(
    time: Time,
    instanceId: int,
    absoluteUsage: real,
    absoluteEntitlement: real,
    containerAge: real)

  /** `InstanceData{}`: its time is Go's zero time. */
  const ZeroInstanceData: InstanceData := InstanceData(ZeroTime, 0, 0.0, 0.0, 0.0)

  /**
   * `InstanceDataFromEnvelope`: the zero record and false when a gauge key
   * is missing or the id is not an integer; otherwise the envelope's
   * timestamp as nanoseconds, the parsed id and the three values.
   */
  function InstanceDataFromEnvelope(e: Envelope): (r: (InstanceData, bool))
    ensures r.1 <==> UsageMetric.HasUsageKeys(GaugeMetrics(e)) && Atoi(e.instanceId).Some?
    ensures !r.1 ==> r.0 == ZeroInstanceData
    ensures r.1 ==> && r.0.time == UnixNano(e.timestamp)
                    && r.0.instanceId == Atoi(e.instanceId).value
                    && r.0.absoluteUsage == GaugeMetrics(e)["absolute_usage"]
                    && r.0.absoluteEntitlement == GaugeMetrics(e)["absolute_entitlement"]
                    && r.0.containerAge == GaugeMetrics(e)["container_age"]
  {
    var metric := GaugeMetrics(e);
    if "absolute_usage" !in metric then (ZeroInstanceData, false)
    else if "absolute_entitlement" !in metric then (ZeroInstanceData, false)
    else if "container_age" !in metric then (ZeroInstanceData, false)
    else match Atoi(e.instanceId)
      case None => (ZeroInstanceData, false)
      case Some(instanceIndex) =>
        (InstanceData(UnixNano(e.timestamp), instanceIndex, metric["absolute_usage"],
                      metric["absolute_entitlement"], metric["container_age"]), true)
  }

  /** The envelope an emitter would send for `d`, with its id in decimal. */
  function EnvelopeOf(d: InstanceData): Envelope {
    Envelope(Itoa(d.instanceId), d.time.unixNanos, map[],
      Gauge(map["absolute_usage" := d.absoluteUsage,
                "absolute_entitlement" := d.absoluteEntitlement,
                "container_age" := d.containerAge]))
  }

  /** A record with a 64-bit id decodes back from its envelope. */
  lemma FromEnvelopeOf(d: InstanceData)
    requires MinInt64 <= d.instanceId <= MaxInt64
    ensures InstanceDataFromEnvelope(EnvelopeOf(d)) == (d, true)
  {
    AtoiItoa(d.instanceId);
    assert UsageMetric.HasUsageKeys(GaugeMetrics(EnvelopeOf(d)));
  }

  /** An envelope that is not a gauge never decodes. */
  lemma NonGaugeRejected(e: Envelope)
    requires e.message.OtherMessage?
    ensures InstanceDataFromEnvelope(e) == (ZeroInstanceData, false)
  {
  }
}

=== FILE: metrics_fetcher.dfy ===
/**
 * metrics/fetcher.go: every usable usage record of an application, from
 * log-cache envelopes. The decoder it calls, `InstanceDataFromGauge`, is
 * not part of this model; `MetricsData.InstanceDataFromEnvelope` stands in
 * for it.
 */
module MetricsFetcher {
  import opened GoLib
  import opened LogCache
  import opened MetricsData

  /** Envelope `e` decodes to a record whose id passes the `< instanceCount` test. */
  predicate Kept(e: Envelope, instanceCount: int) {
    InstanceDataFromEnvelope(e).1 && InstanceDataFromEnvelope(e).0.instanceId < instanceCount
  }

  /** `parseEnvelopes`: the kept records, in envelope order. */
  function Parsed(envelopes: seq<Envelope>, instanceCount: int): seq<InstanceData> {
    if envelopes == [] then []
    else
      var last := envelopes[|envelopes| - 1];
      Parsed(envelopes[..|envelopes| - 1], instanceCount)
        + (if Kept(last, instanceCount) then [InstanceDataFromEnvelope(last).0] else [])
  }

  /** `parseEnvelopes`, the append loop. */
  method ParseEnvelopes(envelopes: seq<Envelope>, instanceCount: int) returns (instancesData: seq<InstanceData>)
    ensures instancesData == Parsed(envelopes, instanceCount)
  {
    instancesData := [];
    for i := 0 to |envelopes|
      invariant instancesData == Parsed(envelopes[..i], instanceCount)
    {
      assert envelopes[..i + 1][..i] == envelopes[..i];
      var (instanceData, ok) := InstanceDataFromEnvelope(envelopes[i]);
      if ok && instanceData.instanceId < instanceCount {
        instancesData := instancesData + [instanceData];
      }
    }
    assert envelopes[..|envelopes|] == envelopes;
  }

  /**
   * `LogCacheFetcher.FetchAll`: the wrapped read error, the "No CPU metrics
   * found" error when nothing is kept, or the kept records.
   */
  method FetchAll(read: ErrorOr<seq<Envelope>>, appGuid: string, instanceCount: int)
    returns (r: ErrorOr<seq<InstanceData>>)
    ensures read.Err? ==> r == Err(Error("log-cache read failed: " + read.error.message))
    ensures read.Ok? && Parsed(read.value, instanceCount) == [] ==>
      r == Err(Error("No CPU metrics found for '" + appGuid + "'"))
    ensures read.Ok? && Parsed(read.value, instanceCount) != [] ==> r == Ok(Parsed(read.value, instanceCount))
  {
    if read.Err? {
      return Err(Error("log-cache read failed: " + read.error.message));
    }
    var instancesData := ParseEnvelopes(read.value, instanceCount);
    if |instancesData| == 0 {
      return Err(Error("No CPU metrics found for '" + appGuid + "'"));
    }
    return Ok(instancesData);
  }

  /** Parsing keeps order and duplicates: the records of a concatenation are the concatenated records. */
  lemma {:induction false} ParsedAppend(a: seq<Envelope>, b: seq<Envelope>, instanceCount: int)
    ensures Parsed(a + b, instanceCount) == Parsed(a, instanceCount) + Parsed(b, instanceCount)
    decreases |b|
  {
    if b == [] {
      assert a + b == a;
    } else {
      var n := |b| - 1;
      assert (a + b)[..|a + b| - 1] == a + b[..n];
      assert (a + b)[|a + b| - 1] == b[n];
      ParsedAppend(a, b[..n], instanceCount);
    }
  }

  /** The records are exactly the decoded kept envelopes. */
  lemma {:induction false} ParsedExactly(envelopes: seq<Envelope>, instanceCount: int)
    ensures |Parsed(envelopes, instanceCount)| <= |envelopes|
    ensures forall d :: d in Parsed(envelopes, instanceCount) <==>
      exists k :: 0 <= k < |envelopes| && Kept(envelopes[k], instanceCount) && InstanceDataFromEnvelope(envelopes[k]).0 == d
  {
    if envelopes != [] {
      var n := |envelopes| - 1;
      ParsedExactly(envelopes[..n], instanceCount);
      assert forall k :: 0 <= k < n ==> envelopes[..n][k] == envelopes[k];
    }
  }
}

=== FILE: metrics_usage.dfy ===
/**
 * metrics/usage.go: a usage record decoded from a gauge, with the instance
 * id parsed as an integer.
 */
module MetricsUsage {
  import opened GoLib
  import opened Strconv
  import UsageMetric

  datatype Usage = Usage(
    instanceId: int,
    absoluteUsage: real,
    absoluteEntitlement: real,
    containerAge: real)

  const ZeroUsage: Usage := Usage(0, 0.0, 0.0, 0.0)

  /**
   * `UsageFromGauge`: the zero record and false when a gauge key is missing
   * or the id is not an integer; otherwise the parsed id and the three values.
   */
  function UsageFromGauge(instanceId: string, metric: map<string, real>): (r: (Usage, bool))
    ensures r.1 <==> UsageMetric.HasUsageKeys(metric) && Atoi(instanceId).Some?
    ensures !r.1 ==> r.0 == ZeroUsage
    ensures r.1 ==> && r.0.instanceId == Atoi(instanceId).value
                    && r.0.absoluteUsage == metric["absolute_usage"]
                    && r.0.absoluteEntitlement == metric["absolute_entitlement"]
                    && r.0.containerAge == metric["container_age"]
  {
    if "absolute_usage" !in metric then (ZeroUsage, false)
    else if "absolute_entitlement" !in metric then (ZeroUsage, false)
    else if "container_age" !in metric then (ZeroUsage, false)
    else match Atoi(instanceId)
      case None => (ZeroUsage, false)
      case Some(instanceIndex) =>
        (Usage(instanceIndex, metric["absolute_usage"], metric["absolute_entitlement"], metric["container_age"]), true)
  }

  function GaugeOf(u: Usage): map<string, real> {
    map["absolute_usage" := u.absoluteUsage,
        "absolute_entitlement" := u.absoluteEntitlement,
        "container_age" := u.containerAge]
  }

  /** A record with a 64-bit id, sent as a gauge with the id in decimal, decodes back to itself. */
  lemma UsageFromGaugeOf(u: Usage)
    requires MinInt64 <= u.instanceId <= MaxInt64
    ensures UsageFromGauge(Itoa(u.instanceId), GaugeOf(u)) == (u, true)
  {
    AtoiItoa(u.instanceId);
    assert UsageMetric.HasUsageKeys(GaugeOf(u));
  }

  /** Both decoders accept the same gauges with an integer id, and agree on the values. */
  lemma AgreesWithUsageMetric(instanceId: string, metric: map<string, real>)
    requires Atoi(instanceId).Some?
    ensures UsageFromGauge(instanceId, metric).1 == UsageMetric.FromGaugeMetric(instanceId, metric).1
    ensures UsageFromGauge(instanceId, metric).1 ==>
      var u := UsageFromGauge(instanceId, metric).0;
      var m := UsageMetric.FromGaugeMetric(instanceId, metric).0;
      u.absoluteUsage == m.absoluteUsage && u.absoluteEntitlement == m.absoluteEntitlement
      && u.containerAge == m.containerAge
  {
  }

  /** `EntitlementRatio`: usage over entitlement. */
  function EntitlementRatio(u: Usage): (ratio: real)
    ensures u.absoluteEntitlement != 0.0 ==> ratio * u.absoluteEntitlement == u.absoluteUsage
    ensures u.absoluteEntitlement > 0.0 ==> (ratio > 1.0 <==> u.absoluteUsage > u.absoluteEntitlement)
  {
    FloatDiv(u.absoluteUsage, u.absoluteEntitlement)
  }
}

=== FILE: oei_renderer.dfy ===
/**
 * output/oei_renderer.go: renders an org's over-entitlement report as a
 * table of (space, application) rows. The display's calls are returned as a
 * trace and its `ShowTable` error is an input.
 */
module OeiRenderer {
  import opened GoLib
  import opened Display
  import opened OeiReporter

  const Headers: seq<Text> := [Str("space"), Str("app")]

  const ReportHeaderFormat := "Showing over-entitlement apps in org %s as %s...\n"

  /** `showReportHeader` */
  function ReportHeader(report: OEIReport): (c: Call)
    ensures c.ShowMessage? && c.message.Format? && c.message.format == ReportHeaderFormat
    ensures c.message.args == [EntityName(report.org), EntityName(report.username)]
  {
    ShowMessage(Format(ReportHeaderFormat, [EntityName(report.org), EntityName(report.username)]))
  }

  /** The message shown instead of a table when no space has an application over its entitlement. */
  function NothingOver(report: OEIReport): Call {
    ShowMessage(Format("No apps over entitlement in org %s.\n", [EntityName(report.org)]))
  }

  /** The rows of one space report: one per application, in order, each naming the space. */
  function AppRows(spaceReport: SpaceReport): (rows: seq<seq<Text>>)
    ensures |rows| == |spaceReport.apps|
    ensures forall j :: 0 <= j < |rows| ==> rows[j] == [Str(spaceReport.spaceName), Str(spaceReport.apps[j])]
  {
    seq(|spaceReport.apps|, j requires 0 <= j < |spaceReport.apps| => [Str(spaceReport.spaceName), Str(spaceReport.apps[j])])
  }

  /** The rows of all space reports, space by space. */
  function TableRows(spaceReports: seq<SpaceReport>): seq<seq<Text>> {
    if spaceReports == [] then [] else AppRows(spaceReports[0]) + TableRows(spaceReports[1..])
  }

  /** The number of applications across the space reports. */
  function TotalApps(spaceReports: seq<SpaceReport>): nat {
    if spaceReports == [] then 0 else |spaceReports[0].apps| + TotalApps(spaceReports[1..])
  }

  /** The rows of two runs of space reports are the rows of the first, then those of the second. */
  lemma {:induction false} TableRowsAppend(a: seq<SpaceReport>, b: seq<SpaceReport>)
    ensures TableRows(a + b) == TableRows(a) + TableRows(b)
    ensures TotalApps(a + b) == TotalApps(a) + TotalApps(b)
  {
    if a == [] {
      assert a + b == b;
    } else {
      assert (a + b)[0] == a[0] && (a + b)[1..] == a[1..] + b;
      TableRowsAppend(a[1..], b);
    }
  }

  /** There are as many rows as applications across the space reports. */
  lemma {:induction false} TableRowsCount(spaceReports: seq<SpaceReport>)
    ensures |TableRows(spaceReports)| == TotalApps(spaceReports)
  {
    if spaceReports != [] {
      TableRowsCount(spaceReports[1..]);
    }
  }

  /**
   * Application `j` of space report `s` is the row after all rows of the
   * space reports before `s`, and that row is [space name, application].
   */
  lemma {:induction false} TableRowsPosition(spaceReports: seq<SpaceReport>, s: nat, j: nat)
    requires s < |spaceReports| && j < |spaceReports[s].apps|
    ensures TotalApps(spaceReports[..s]) + j < |TableRows(spaceReports)|
    ensures TableRows(spaceReports)[TotalApps(spaceReports[..s]) + j] == [Str(spaceReports[s].spaceName), Str(spaceReports[s].apps[j])]
  {
    TableRowsCount(spaceReports);
    TableRowsCount(spaceReports[..s]);
    assert spaceReports == spaceReports[..s] + spaceReports[s..];
    TableRowsAppend(spaceReports[..s], spaceReports[s..]);
    assert spaceReports[s..][0] == spaceReports[s];
  }

  /** `buildOEITableRows`: the nested loops over space reports and their applications. */
  method BuildOEITableRows(report: OEIReport) returns (rows: seq<seq<Text>>)
    ensures rows == TableRows(report.spaceReports)
  {
    var spaceReports := report.spaceReports;
    rows := [];
    for i := 0 to |spaceReports|
      invariant rows == TableRows(spaceReports[..i])
    {
      var spaceReport := spaceReports[i];
      ghost var before := rows;
      for j := 0 to |spaceReport.apps|
        invariant rows == before + AppRows(spaceReport)[..j]
      {
        assert AppRows(spaceReport)[..j + 1] == AppRows(spaceReport)[..j] + [[Str(spaceReport.spaceName), Str(spaceReport.apps[j])]];
        rows := rows + [[Str(spaceReport.spaceName), Str(spaceReport.apps[j])]];
      }
      assert AppRows(spaceReport)[..|spaceReport.apps|] == AppRows(spaceReport);
      assert spaceReports[..i + 1] == spaceReports[..i] + [spaceReport];
      TableRowsAppend(spaceReports[..i], [spaceReport]);
      assert TableRows([spaceReport]) == AppRows(spaceReport) + TableRows([]);
    }
    assert spaceReports[..|spaceReports|] == spaceReports;
  }

  /**
   * `OverEntitlementInstancesRenderer.Render`: a single message and no
   * error for an empty report; otherwise the header, then the table, and
   * the display's table error unchanged.
   */
  method Render(report: OEIReport, tableErr: Option<Error>) returns (err: Option<Error>, calls: seq<Call>)
    ensures report.spaceReports == [] ==> err.None? && calls == [NothingOver(report)]
    ensures report.spaceReports != [] ==>
      && err == tableErr
      && calls == [ReportHeader(report), ShowTable(Headers, TableRows(report.spaceReports))]
  {
    if |report.spaceReports| == 0 {
      return None, [NothingOver(report)];
    }
    var rows := BuildOEITableRows(report);
    return tableErr, [ReportHeader(report), ShowTable(Headers, rows)];
  }
}

=== FILE: oei_reporter.dfy ===
/**
 * reporter/oei_reporter.go: the over-entitlement report of an organization.
 * An application is over its entitlement when one of its instances uses
 * strictly more than its entitlement (a ratio above 1); the report lists,
 * space by space, the applications that are, leaving out spaces with none.
 * The metrics fetcher is a function from an application guid to the
 * entitlement ratios of its instances, or the error fetching them.
 */
module OeiReporter {
  import opened GoLib
  import CfClient

  datatype SpaceReport = SpaceReport(spaceName: string, apps: seq<string>)

  /** `OEIReport`; `org` and `username` are read by the renderer and never set here. */
  datatype OEIReport = OEIReport(org: string, username: string, spaceReports: seq<SpaceReport>)

  /** The per-application usage ratios, as `FetchInstanceEntitlementUsages` returns them. */
  type UsageFetcher = string -> ErrorOr<seq<real>>

  /** Some instance uses strictly more than its entitlement. */
  predicate OverEntitlement(usages: seq<real>) {
    exists k :: 0 <= k < |usages| && usages[k] > 1.0
  }

  /** `isOverEntitlement`: the fetch error, or whether some usage exceeds 1. */
  method IsOverEntitlement(appGuid: string, fetch: UsageFetcher) returns (r: ErrorOr<bool>)
    ensures fetch(appGuid).Err? ==> r == Err(fetch(appGuid).error)
    ensures fetch(appGuid).Ok? ==> r == Ok(OverEntitlement(fetch(appGuid).value))
  {
    var usages := fetch(appGuid);
    if usages.Err? {
      return Err(usages.error);
    }
    var isOver := false;
    for i := 0 to |usages.value|
      invariant isOver <==> exists k :: 0 <= k < i && usages.value[k] > 1.0
    {
      if usages.value[i] > 1.0 {
        isOver := true;
      }
    }
    return Ok(isOver);
  }

  /** The names `filterApps` keeps, in order, or the first fetch error. */
  function FilteredApps(apps: seq<CfClient.Application>, fetch: UsageFetcher): ErrorOr<seq<string>> {
    if apps == [] then Ok([])
    else match fetch(apps[0].guid)
      case Err(e) => Err(e)
      case Ok(usages) =>
        Prepend(if OverEntitlement(usages) then [apps[0].name] else [], FilteredApps(apps[1..], fetch))
  }

  /** `filterApps` */
  method FilterApps(spaceApps: seq<CfClient.Application>, fetch: UsageFetcher) returns (r: ErrorOr<seq<string>>)
    ensures r == FilteredApps(spaceApps, fetch)
  {
    var apps: seq<string> := [];
    var i := 0;
    assert spaceApps[i..] == spaceApps;
    PrependNothing(FilteredApps(spaceApps, fetch));
    while i < |spaceApps|
      invariant 0 <= i <= |spaceApps|
      invariant FilteredApps(spaceApps, fetch) == Prepend(apps, FilteredApps(spaceApps[i..], fetch))
    {
      var isOver := IsOverEntitlement(spaceApps[i].guid, fetch);
      if isOver.Err? {
        return Err(isOver.error);
      }
      assert spaceApps[i..][1..] == spaceApps[i + 1..];
      var kept := if isOver.value then [spaceApps[i].name] else [];
      PrependTwice(apps, kept, FilteredApps(spaceApps[i + 1..], fetch));
      apps := apps + kept;
      i := i + 1;
    }
    assert spaceApps[i..] == [];
    assert apps + [] == apps;
    return Ok(apps);
  }

  /** The space reports `OverEntitlementInstances` builds, or the first fetch error. */
  function SpaceReports(spaces: seq<CfClient.Space>, fetch: UsageFetcher): ErrorOr<seq<SpaceReport>> {
    if spaces == [] then Ok([])
    else match FilteredApps(spaces[0].applications, fetch)
      case Err(e) => Err(e)
      case Ok(apps) =>
        Prepend(if apps == [] then [] else [SpaceReport(spaces[0].name, apps)], SpaceReports(spaces[1..], fetch))
  }

  /** `OverEntitlementInstances`: the `GetSpaces` error, the first fetch error, or the report. */
  method OverEntitlementInstances(spaces: ErrorOr<seq<CfClient.Space>>, fetch: UsageFetcher) returns (r: ErrorOr<OEIReport>)
    ensures spaces.Err? ==> r == Err(spaces.error)
    ensures spaces.Ok? ==> match SpaceReports(spaces.value, fetch)
      case Ok(reports) => r == Ok(OEIReport("", "", reports))
      case Err(e) => r == Err(e)
  {
    if spaces.Err? {
      return Err(spaces.error);
    }
    var all := spaces.value;
    var spaceReports: seq<SpaceReport> := [];
    var i := 0;
    assert all[i..] == all;
    PrependNothing(SpaceReports(all, fetch));
    while i < |all|
      invariant 0 <= i <= |all|
      invariant SpaceReports(all, fetch) == Prepend(spaceReports, SpaceReports(all[i..], fetch))
    {
      var apps := FilterApps(all[i].applications, fetch);
      if apps.Err? {
        return Err(apps.error);
      }
      assert all[i..][1..] == all[i + 1..];
      var kept := if apps.value == [] then [] else [SpaceReport(all[i].name, apps.value)];
      PrependTwice(spaceReports, kept, SpaceReports(all[i + 1..], fetch));
      spaceReports := spaceReports + kept;
      i := i + 1;
    }
    assert all[i..] == [];
    assert spaceReports + [] == spaceReports;
    return Ok(OEIReport("", "", spaceReports));
  }

  function AppNames(apps: seq<CfClient.Application>): (names: seq<string>)
    ensures |names| == |apps| && forall i :: 0 <= i < |apps| ==> names[i] == apps[i].name
  {
    seq(|apps|, i requires 0 <= i < |apps| => apps[i].name)
  }

  /** Filtering succeeds iff every fetch does. */
  lemma {:induction false} FilteredAppsOk(apps: seq<CfClient.Application>, fetch: UsageFetcher)
    ensures FilteredApps(apps, fetch).Ok? <==> forall i :: 0 <= i < |apps| ==> fetch(apps[i].guid).Ok?
  {
    if apps != [] {
      var tail := apps[1..];
      FilteredAppsOk(tail, fetch);
      assert forall i :: 1 <= i < |apps| ==> apps[i] == tail[i - 1];
    }
  }

  /** The listed names keep the applications' order. */
  lemma {:induction false} FilteredAppsInOrder(apps: seq<CfClient.Application>, fetch: UsageFetcher)
    ensures FilteredApps(apps, fetch).Ok? ==> IsSubsequence(FilteredApps(apps, fetch).value, AppNames(apps))
  {
    if apps != [] {
      var tail := apps[1..];
      FilteredAppsInOrder(tail, fetch);
      assert AppNames(apps)[1..] == AppNames(tail);
      var rest := FilteredApps(tail, fetch);
      if fetch(apps[0].guid).Ok? && rest.Ok? {
        var names := FilteredApps(apps, fetch).value;
        if OverEntitlement(fetch(apps[0].guid).value) {
          assert names == [apps[0].name] + rest.value;
          assert names[1..] == rest.value;
        } else {
          assert names == rest.value;
          if names != [] {
            assert IsSubsequence(names, AppNames(apps)[1..]);
          }
        }
      }
    }
  }

  /** When filtering succeeds, an application is listed iff one of its usages is above 1. */
  lemma {:induction false} FilteredAppsMembers(apps: seq<CfClient.Application>, fetch: UsageFetcher)
    ensures FilteredApps(apps, fetch).Ok? ==>
      var names := FilteredApps(apps, fetch).value;
      && (forall i :: 0 <= i < |apps| && fetch(apps[i].guid).Ok? && OverEntitlement(fetch(apps[i].guid).value) ==> apps[i].name in names)
      && (forall n :: n in names ==>
            exists i :: 0 <= i < |apps| && apps[i].name == n && fetch(apps[i].guid).Ok? && OverEntitlement(fetch(apps[i].guid).value))
  {
    if apps != [] {
      var tail := apps[1..];
      FilteredAppsMembers(tail, fetch);
      FilteredAppsOk(apps, fetch);
      var rest := FilteredApps(tail, fetch);
      if fetch(apps[0].guid).Ok? && rest.Ok? {
        var names := FilteredApps(apps, fetch).value;
        assert names == (if OverEntitlement(fetch(apps[0].guid).value) then [apps[0].name] else []) + rest.value;
        forall i | 0 <= i < |apps| && fetch(apps[i].guid).Ok? && OverEntitlement(fetch(apps[i].guid).value) ensures apps[i].name in names {
          if i > 0 {
            assert apps[i] == tail[i - 1];
          }
        }
        forall n | n in names
          ensures exists i :: 0 <= i < |apps| && apps[i].name == n && fetch(apps[i].guid).Ok? && OverEntitlement(fetch(apps[i].guid).value)
        {
          if n !in rest.value {
            assert n == apps[0].name && OverEntitlement(fetch(apps[0].guid).value);
          } else {
            assert FilteredApps(tail, fetch).Ok? && n in FilteredApps(tail, fetch).value;
            var j :| 0 <= j < |tail| && tail[j].name == n && fetch(tail[j].guid).Ok? && OverEntitlement(fetch(tail[j].guid).value);
            assert apps[j + 1] == tail[j];
          }
        }
      }
    }
  }

  /** A failing fetch aborts the filtering with the first failure's error. */
  lemma {:induction false} FilteredAppsFirstError(apps: seq<CfClient.Application>, fetch: UsageFetcher, k: nat)
    requires k < |apps| && fetch(apps[k].guid).Err?
    requires forall i :: 0 <= i < k ==> fetch(apps[i].guid).Ok?
    ensures FilteredApps(apps, fetch) == Err(fetch(apps[k].guid).error)
  {
    if k > 0 {
      FilteredAppsFirstError(apps[1..], fetch, k - 1);
    }
  }

  function SpaceNames(spaces: seq<CfClient.Space>): (names: seq<string>)
    ensures |names| == |spaces| && forall i :: 0 <= i < |spaces| ==> names[i] == spaces[i].name
  {
    seq(|spaces|, i requires 0 <= i < |spaces| => spaces[i].name)
  }

  function ReportedSpaceNames(reports: seq<SpaceReport>): (names: seq<string>)
    ensures |names| == |reports| && forall i :: 0 <= i < |reports| ==> names[i] == reports[i].spaceName
  {
    seq(|reports|, i requires 0 <= i < |reports| => reports[i].spaceName)
  }

  /** A report exists only when filtering succeeded for every space. */
  lemma {:induction false} SpaceReportsNeedEveryFetch(spaces: seq<CfClient.Space>, fetch: UsageFetcher)
    requires SpaceReports(spaces, fetch).Ok?
    ensures forall i :: 0 <= i < |spaces| ==> FilteredApps(spaces[i].applications, fetch).Ok?
  {
    if spaces != [] {
      SpaceReportsNeedEveryFetch(spaces[1..], fetch);
      assert forall i :: 1 <= i < |spaces| ==> spaces[i] == spaces[1..][i - 1];
    }
  }

  /** The reported spaces keep the order in which the spaces were listed. */
  lemma {:induction false} SpaceReportsKeepOrder(spaces: seq<CfClient.Space>, fetch: UsageFetcher)
    requires SpaceReports(spaces, fetch).Ok?
    ensures IsSubsequence(ReportedSpaceNames(SpaceReports(spaces, fetch).value), SpaceNames(spaces))
  {
    if spaces != [] {
      var tail := spaces[1..];
      SpaceReportsKeepOrder(tail, fetch);
      assert SpaceNames(spaces)[1..] == SpaceNames(tail);
      var head := FilteredApps(spaces[0].applications, fetch);
      var rest := SpaceReports(tail, fetch).value;
      var reports := SpaceReports(spaces, fetch).value;
      if head.value != [] {
        assert reports == [SpaceReport(spaces[0].name, head.value)] + rest;
        assert ReportedSpaceNames(reports)[1..] == ReportedSpaceNames(rest);
      } else {
        assert reports == rest;
        if reports != [] {
          assert IsSubsequence(ReportedSpaceNames(reports), SpaceNames(spaces)[1..]);
        }
      }
    }
  }

  /** Every reported space is a listed space with the applications its filtering kept, never none. */
  lemma {:induction false} SpaceReportsSound(spaces: seq<CfClient.Space>, fetch: UsageFetcher)
    requires SpaceReports(spaces, fetch).Ok?
    ensures forall r :: r in SpaceReports(spaces, fetch).value ==>
      && r.apps != []
      && exists i :: 0 <= i < |spaces| && FilteredApps(spaces[i].applications, fetch).Ok?
                    && r == SpaceReport(spaces[i].name, FilteredApps(spaces[i].applications, fetch).value)
  {
    if spaces != [] {
      var tail := spaces[1..];
      SpaceReportsSound(tail, fetch);
      var head := FilteredApps(spaces[0].applications, fetch);
      var rest := SpaceReports(tail, fetch).value;
      var reports := SpaceReports(spaces, fetch).value;
      assert reports == (if head.value == [] then [] else [SpaceReport(spaces[0].name, head.value)]) + rest;
      forall r | r in reports
        ensures exists i :: 0 <= i < |spaces| && FilteredApps(spaces[i].applications, fetch).Ok?
                    && r == SpaceReport(spaces[i].name, FilteredApps(spaces[i].applications, fetch).value)
      {
        if r !in rest {
          assert r == SpaceReport(spaces[0].name, head.value);
        } else {
          var j :| 0 <= j < |tail| && FilteredApps(tail[j].applications, fetch).Ok?
                   && r == SpaceReport(tail[j].name, FilteredApps(tail[j].applications, fetch).value);
          assert spaces[j + 1] == tail[j];
        }
      }
    }
  }

  /** Every space whose filtering kept an application is reported, with those applications. */
  lemma {:induction false} SpaceReportsComplete(spaces: seq<CfClient.Space>, fetch: UsageFetcher)
    requires SpaceReports(spaces, fetch).Ok?
    ensures forall i :: 0 <= i < |spaces| && FilteredApps(spaces[i].applications, fetch).Ok?
                        && FilteredApps(spaces[i].applications, fetch).value != [] ==>
      SpaceReport(spaces[i].name, FilteredApps(spaces[i].applications, fetch).value) in SpaceReports(spaces, fetch).value
  {
    if spaces != [] {
      var tail := spaces[1..];
      SpaceReportsComplete(tail, fetch);
      assert forall i :: 1 <= i < |spaces| ==> spaces[i] == tail[i - 1];
      var head := FilteredApps(spaces[0].applications, fetch);
      var rest := SpaceReports(tail, fetch).value;
      assert SpaceReports(spaces, fetch).value
        == (if head.value == [] then [] else [SpaceReport(spaces[0].name, head.value)]) + rest;
    }
  }

  /** Any failing fetch makes the report fail: the first space that fails supplies the error. */
  lemma {:induction false} SpaceReportsFirstError(spaces: seq<CfClient.Space>, fetch: UsageFetcher, k: nat)
    requires k < |spaces| && FilteredApps(spaces[k].applications, fetch).Err?
    requires forall i :: 0 <= i < k ==> FilteredApps(spaces[i].applications, fetch).Ok?
    ensures SpaceReports(spaces, fetch) == Err(FilteredApps(spaces[k].applications, fetch).error)
  {
    if k > 0 {
      SpaceReportsFirstError(spaces[1..], fetch, k - 1);
    }
  }
}

=== FILE: plugin_runner.dfy ===
/**
 * plugin/runner.go: the original command, which reads the latest usage
 * envelopes and shows each instance's share of its entitlement. The info
 * getter, the metric fetcher, the calculator and the renderer are function
 * parameters; the calls made on the last three are returned as a trace.
 */
module PluginRunner {
  import opened GoLib
  import opened Results
  import Metadata
  import MetricsUsage
  import Calculator

  type Usage = MetricsUsage.Usage

  datatype Step =
    | FetchLatest(appGuid: string, instanceCount: int)
    | CalculateInstanceInfos(usages: seq<Usage>)
    | ShowInfos(info: Metadata.CFAppInfo, infos: seq<Calculator.InstanceInfo>)

  /**
   * `Runner.Run`: the app-info error with no fetch; the fetch error with the
   * feature warning; the renderer's error; or success. The calculator gets
   * the fetched metrics unchanged and the renderer gets its answer.
   */
  function Run(
    appName: string,
    getCFAppInfo: string -> ErrorOr<Metadata.CFAppInfo>,
    fetchLatest: (string, int) -> ErrorOr<seq<Usage>>,
    calculateInstanceInfos: seq<Usage> -> seq<Calculator.InstanceInfo>,
    showInfos: (Metadata.CFAppInfo, seq<Calculator.InstanceInfo>) -> Option<Error>)
    : (out: (Result, seq<Step>))
    ensures getCFAppInfo(appName).Err? ==> out == (FailureFromError(getCFAppInfo(appName).error), [])
    ensures getCFAppInfo(appName).Ok? ==>
      var info := getCFAppInfo(appName).value;
      && |out.1| >= 1 && out.1[0] == FetchLatest(info.app.guid, info.app.instanceCount)
      && match fetchLatest(info.app.guid, info.app.instanceCount)
         case Err(e) => out == (WithWarning(FailureFromError(e), FeatureWarning), [out.1[0]])
         case Ok(usages) =>
           && out.1 == [out.1[0], CalculateInstanceInfos(usages), ShowInfos(info, calculateInstanceInfos(usages))]
           && out.0 == match showInfos(info, calculateInstanceInfos(usages))
                       case Some(e) => FailureFromError(e)
                       case None => Success()
    /* nothing is fetched without the app info */
    ensures (exists s :: s in out.1 && s.FetchLatest?) <==> getCFAppInfo(appName).Ok?
    /* a warning is given iff the fetch failed */
    ensures out.0.warningMessage != NoWarning <==>
      getCFAppInfo(appName).Ok? &&
      fetchLatest(getCFAppInfo(appName).value.app.guid, getCFAppInfo(appName).value.app.instanceCount).Err?
  {
    match getCFAppInfo(appName)
    case Err(err) => (FailureFromError(err), [])
    case Ok(info) =>
      var trace := [FetchLatest(info.app.guid, info.app.instanceCount)];
      assert trace[0] in trace;
      match fetchLatest(info.app.guid, info.app.instanceCount)
      case Err(err) => (WithWarning(FailureFromError(err), FeatureWarning), trace)
      case Ok(usageMetrics) =>
        var instanceInfos := calculateInstanceInfos(usageMetrics);
        var shown := trace + [CalculateInstanceInfos(usageMetrics), ShowInfos(info, instanceInfos)];
        assert shown[0] in shown;
        match showInfos(info, instanceInfos)
        case Some(err) => (FailureFromError(err), shown)
        case None => (Success(), shown)
  }

  /** The command succeeds iff the app info is found, the fetch succeeds and the renderer shows the infos. */
  lemma RunSucceeds(
    appName: string,
    getCFAppInfo: string -> ErrorOr<Metadata.CFAppInfo>,
    fetchLatest: (string, int) -> ErrorOr<seq<Usage>>,
    calculateInstanceInfos: seq<Usage> -> seq<Calculator.InstanceInfo>,
    showInfos: (Metadata.CFAppInfo, seq<Calculator.InstanceInfo>) -> Option<Error>)
    ensures !IsFailure(Run(appName, getCFAppInfo, fetchLatest, calculateInstanceInfos, showInfos).0) <==>
      && getCFAppInfo(appName).Ok?
      && var info := getCFAppInfo(appName).value;
         && fetchLatest(info.app.guid, info.app.instanceCount).Ok?
         && showInfos(info, calculateInstanceInfos(fetchLatest(info.app.guid, info.app.instanceCount).value)).None?
  {
  }
}

=== FILE: process_instance_id.dfy ===
/**
 * fetchers/process_instance_id.go: which process instance currently runs
 * each instance index. Of the series seen in the last minute, the one whose
 * first point is latest names the process instance.
 */
module ProcessInstanceId {
  import opened GoLib
  import opened Strconv
  import opened LogCache

  /** The instance id and the first point's time of a series that can be used. */
  function SeriesStart(s: Series): (r: Option<(int, real)>)
    ensures r.Some? <==> && Atoi(Label(s.metric, "instance_id")).Some?
                         && |s.points| > 0 && ParseFloat(s.points[0].time).Some?
    ensures r.Some? ==> r.value == (Atoi(Label(s.metric, "instance_id")).value, ParseFloat(s.points[0].time).value)
  {
    match Atoi(Label(s.metric, "instance_id"))
    case None => None
    case Some(id) =>
      if |s.points| == 0 then None
      else match ParseFloat(s.points[0].time)
        case None => None
        case Some(first) => Some((id, first))
  }

  /** The start of a series: the instance it belongs to and its first point's time, when it can be used. */
  type Start = Series -> Option<(int, real)>

  /** `SeriesStart` as a start function. */
  function SeriesStarts(): Start {
    s => SeriesStart(s)
  }

  /** Series `s` can be used and belongs to instance `id`. */
  predicate StartsFor(start: Start, s: Series, id: int) {
    start(s).Some? && start(s).value.0 == id
  }

  /** The two maps the loop keeps: the chosen process instance id and its series' first point time. */
  datatype Latest = Latest(processInstanceIDs: map<int, string>, firstPointTimes: map<int, real>)

  /**
   * The maps after reading `series` in order, each series starting as
   * `start` says; a series replaces the entry only with a strictly later
   * first point.
   */
  function LatestBy(series: seq<Series>, start: Start): Latest {
    if series == [] then Latest(map[], map[])
    else
      var before := LatestBy(series[..|series| - 1], start);
      var s := series[|series| - 1];
      match start(s)
      case None => before
      case Some((id, first)) =>
        if id !in before.firstPointTimes || first > before.firstPointTimes[id] then
          Latest(before.processInstanceIDs[id := Label(s.metric, "process_instance_id")],
                 before.firstPointTimes[id := first])
        else before
  }

  /** The maps `Fetch` builds. */
  function LatestOf(series: seq<Series>): Latest {
    LatestBy(series, SeriesStarts())
  }

  /** `ProcessInstanceIDFetcher.Fetch`: the query error, or the chosen process instance id per instance. */
  method Fetch(res: ErrorOr<seq<Series>>) returns (r: ErrorOr<map<int, string>>)
    ensures res.Err? ==> r == Err(res.error)
    ensures res.Ok? ==> r == Ok(LatestOf(res.value).processInstanceIDs)
  {
    if res.Err? {
      return Err(res.error);
    }
    var series := res.value;
    var processInstanceIDs: map<int, string> := map[];
    var latestFirstPointTimes: map<int, real> := map[];
    for i := 0 to |series|
      invariant LatestOf(series[..i]) == Latest(processInstanceIDs, latestFirstPointTimes)
    {
      assert series[..i + 1][..i] == series[..i];
      assert SeriesStarts()(series[i]) == SeriesStart(series[i]);
      var metric := series[i].metric;
      var instanceID := Atoi(Label(metric, "instance_id"));
      if instanceID.None? {
        continue;
      }
      var points := series[i].points;
      if |points| == 0 {
        continue;
      }
      var firstPointTime := ParseFloat(points[0].time);
      if firstPointTime.None? {
        continue;
      }
      var isPresent := instanceID.value in latestFirstPointTimes;
      if !isPresent || firstPointTime.value > latestFirstPointTimes[instanceID.value] {
        latestFirstPointTimes := latestFirstPointTimes[instanceID.value := firstPointTime.value];
        processInstanceIDs := processInstanceIDs[instanceID.value := Label(metric, "process_instance_id")];
      }
    }
    assert series[..|series|] == series;
    return Ok(processInstanceIDs);
  }

  /** Both maps have the same keys: exactly the instances with at least one usable series. */
  lemma {:induction false} LatestKeys(series: seq<Series>, start: Start)
    ensures LatestBy(series, start).processInstanceIDs.Keys == LatestBy(series, start).firstPointTimes.Keys
    ensures forall id :: id in LatestBy(series, start).firstPointTimes <==>
      exists k :: 0 <= k < |series| && StartsFor(start, series[k], id)
  {
    if series != [] {
      var n := |series| - 1;
      LatestKeys(series[..n], start);
      assert forall k :: 0 <= k < n ==> series[..n][k] == series[k];
    }
  }

  /** The stored first point time of an instance is the greatest over its usable series. */
  lemma {:induction false} LatestIsMaximal(series: seq<Series>, start: Start, id: int, k: nat)
    requires k < |series| && StartsFor(start, series[k], id)
    ensures id in LatestBy(series, start).firstPointTimes
    ensures start(series[k]).value.1 <= LatestBy(series, start).firstPointTimes[id]
  {
    var n := |series| - 1;
    var before := LatestBy(series[..n], start);
    if k < n {
      assert series[..n][k] == series[k];
      LatestIsMaximal(series[..n], start, id, k);
    }
    if StartsFor(start, series[n], id) {
      var first := start(series[n]).value.1;
      if id !in before.firstPointTimes || first > before.firstPointTimes[id] {
        assert LatestBy(series, start).firstPointTimes[id] == first;
      } else {
        assert LatestBy(series, start) == before;
      }
    } else {
      match start(series[n]) {
        case None => assert LatestBy(series, start) == before;
        case Some((other, first)) =>
          assert other != id;
      }
    }
  }

  /** The last series leaves the entry of an instance alone unless it is usable for it and strictly later. */
  lemma LatestKeepsOthers(series: seq<Series>, start: Start, id: int)
    requires series != []
    requires var before := LatestBy(series[..|series| - 1], start);
      !(StartsFor(start, series[|series| - 1], id)
        && (id !in before.firstPointTimes || start(series[|series| - 1]).value.1 > before.firstPointTimes[id]))
    ensures var before := LatestBy(series[..|series| - 1], start);
      && (id in LatestBy(series, start).firstPointTimes <==> id in before.firstPointTimes)
      && (id in LatestBy(series, start).processInstanceIDs <==> id in before.processInstanceIDs)
      && (id in before.firstPointTimes ==> LatestBy(series, start).firstPointTimes[id] == before.firstPointTimes[id])
      && (id in before.processInstanceIDs ==> LatestBy(series, start).processInstanceIDs[id] == before.processInstanceIDs[id])
  {
  }

  /** A usable, strictly later last series of an instance replaces its entry. */
  lemma LatestReplaces(series: seq<Series>, start: Start, id: int)
    requires series != []
    requires var before := LatestBy(series[..|series| - 1], start);
      && StartsFor(start, series[|series| - 1], id)
      && (id !in before.firstPointTimes || start(series[|series| - 1]).value.1 > before.firstPointTimes[id])
    ensures id in LatestBy(series, start).firstPointTimes && id in LatestBy(series, start).processInstanceIDs
    ensures LatestBy(series, start).firstPointTimes[id] == start(series[|series| - 1]).value.1
    ensures LatestBy(series, start).processInstanceIDs[id] == Label(series[|series| - 1].metric, "process_instance_id")
  {
  }

  /**
   * The chosen process instance id comes from series `k`, a usable series of
   * the instance whose first point is the stored time, and every usable
   * series of the instance seen before it started strictly earlier: ties go
   * to the series seen first.
   */
  lemma {:induction false} LatestChosen(series: seq<Series>, start: Start, id: int) returns (k: nat)
    requires id in LatestBy(series, start).firstPointTimes
    ensures k < |series| && StartsFor(start, series[k], id)
    ensures id in LatestBy(series, start).processInstanceIDs
    ensures LatestBy(series, start).processInstanceIDs[id] == Label(series[k].metric, "process_instance_id")
    ensures LatestBy(series, start).firstPointTimes[id] == start(series[k]).value.1
    ensures forall j :: 0 <= j < k && StartsFor(start, series[j], id) ==>
      start(series[j]).value.1 < start(series[k]).value.1
  {
    var n := |series| - 1;
    var init := series[..n];
    var before := LatestBy(init, start);
    if StartsFor(start, series[n], id)
       && (id !in before.firstPointTimes || start(series[n]).value.1 > before.firstPointTimes[id]) {
      k := n;
      LatestReplaces(series, start, id);
      forall j | 0 <= j < n && StartsFor(start, series[j], id)
        ensures start(series[j]).value.1 < start(series[n]).value.1
      {
        assert init[j] == series[j];
        LatestIsMaximal(init, start, id, j);
      }
    } else {
      LatestKeepsOthers(series, start, id);
      k := LatestChosen(init, start, id);
      assert forall j :: 0 <= j < k ==> init[j] == series[j];
    }
  }
}

=== FILE: regexps.dfy ===
/**
 * The two regular expressions the plugins use to derive endpoints, as Go's
 * `regexp.FindStringSubmatch` applies them: the leftmost position where a
 * match starts wins, and at that position greedy repetitions take as much
 * as they can. Each is proved against a predicate that says which spans
 * the pattern can match at all.
 */
module Regexps {
  import opened GoLib

  /** `\s` in RE2: tab, newline, form feed, carriage return and space. */
  predicate IsSpace(c: char) {
    c == '\t' || c == '\n' || c == '\U{0C}' || c == '\r' || c == ' '
  }

  predicate StartsWithAt(s: string, i: nat, p: string) {
    i + |p| <= |s| && s[i..i + |p|] == p
  }

  /** The first index from `j` on whose character is `c`, or `|s|`. */
  function FirstFrom(s: string, j: nat, c: char): (k: nat)
    requires j <= |s|
    ensures j <= k <= |s|
    ensures forall t :: j <= t < k ==> s[t] != c
    ensures k < |s| ==> s[k] == c
    decreases |s| - j
  {
    if j == |s| || s[j] == c then j else FirstFrom(s, j + 1, c)
  }

  /** The first index from `j` on whose character is white space, or `|s|`. */
  function SpaceFrom(s: string, j: nat): (k: nat)
    requires j <= |s|
    ensures j <= k <= |s|
    ensures forall t :: j <= t < k ==> !IsSpace(s[t])
    ensures k < |s| ==> IsSpace(s[k])
    decreases |s| - j
  {
    if j == |s| || IsSpace(s[j]) then j else SpaceFrom(s, j + 1)
  }

  // ---- doppler(\S+):443 ----

  /** `doppler(\S+):443` can match from `i` with its group ending at `m`. */
  predicate DopplerMatchAt(s: string, i: nat, m: nat) {
    && StartsWithAt(s, i, "doppler")
    && i + 7 < m && m + 4 <= |s|
    && (forall t :: i + 7 <= t < m ==> !IsSpace(s[t]))
    && s[m..m + 4] == ":443"
  }

  /** The largest `m` in [lo, hi] where ":443" starts. */
  function LastPort(s: string, lo: nat, hi: int): (r: Option<nat>)
    ensures r.Some? ==> lo <= r.value <= hi && StartsWithAt(s, r.value, ":443")
    ensures r.Some? ==> forall m: nat :: r.value < m <= hi ==> !StartsWithAt(s, m, ":443")
    ensures r.None? ==> forall m: nat :: lo <= m <= hi ==> !StartsWithAt(s, m, ":443")
    decreases if hi < lo then 0 else hi - lo + 1
  {
    if hi < lo then None
    else if StartsWithAt(s, hi, ":443") then Some(hi)
    else LastPort(s, lo, hi - 1)
  }

  /** Where the greedy `\S+` ends when the pattern is tried at `i`. */
  function DopplerAt(s: string, i: nat): (r: Option<nat>)
    ensures r.Some? ==> DopplerMatchAt(s, i, r.value)
    ensures r.Some? ==> forall m: nat :: m > r.value ==> !DopplerMatchAt(s, i, m)
    ensures r.None? ==> forall m: nat :: !DopplerMatchAt(s, i, m)
  {
    if !StartsWithAt(s, i, "doppler") then None
    else
      var k := SpaceFrom(s, i + 7);
      var r := LastPort(s, i + 8, k - 4);
      DopplerBound(s, i, k);
      r
  }

  /** A match at `i` ends its ":443" within the run of non-space characters after "doppler". */
  lemma DopplerBound(s: string, i: nat, k: nat)
    requires StartsWithAt(s, i, "doppler") && k == SpaceFrom(s, i + 7)
    ensures forall m: nat :: DopplerMatchAt(s, i, m) <==> i + 8 <= m <= k - 4 && StartsWithAt(s, m, ":443")
  {
    forall m: nat | DopplerMatchAt(s, i, m)
      ensures m + 4 <= k
    {
      forall t | m <= t < m + 4 ensures !IsSpace(s[t]) {
        assert s[t] == s[m..m + 4][t - m];
      }
    }
    forall m: nat | i + 8 <= m <= k - 4 && StartsWithAt(s, m, ":443")
      ensures DopplerMatchAt(s, i, m)
    {
    }
  }

  /**
   * `regexp.MustCompile("doppler(\\S+):443").FindStringSubmatch(s)` from
   * position `i` on: the leftmost start and the end of its group.
   */
  function FindDoppler(s: string, i: nat): (r: Option<(nat, nat)>)
    ensures r.Some? ==> i <= r.value.0 && DopplerMatchAt(s, r.value.0, r.value.1)
    ensures r.Some? ==> forall m: nat :: m > r.value.1 ==> !DopplerMatchAt(s, r.value.0, m)
    ensures r.Some? ==> forall a: nat, m: nat :: i <= a < r.value.0 ==> !DopplerMatchAt(s, a, m)
    ensures r.None? ==> forall a: nat, m: nat :: i <= a ==> !DopplerMatchAt(s, a, m)
    decreases |s| - i
  {
    if |s| < i + 7 then None
    else match DopplerAt(s, i)
      case Some(m) => Some((i, m))
      case None => FindDoppler(s, i + 1)
  }

  /** The group of `doppler(\S+):443` in `host`, if it matches. */
  function DopplerSuffix(host: string): (r: Option<string>)
    ensures r.Some? ==> exists a: nat, m: nat :: DopplerMatchAt(host, a, m) && r.value == host[a + 7..m]
    ensures r.None? <==> forall a: nat, m: nat :: !DopplerMatchAt(host, a, m)
  {
    match FindDoppler(host, 0)
    case Some((a, m)) => Some(host[a + 7..m])
    case None => None
  }

  /** For a host "doppler" + d + ":443" with no white space in d, the group is all of d, port excluded. */
  lemma DopplerSuffixOfHost(d: string)
    requires d != [] && forall t :: 0 <= t < |d| ==> !IsSpace(d[t])
    ensures DopplerSuffix("doppler" + d + ":443") == Some(d)
  {
    var host := "doppler" + d + ":443";
    var m := 7 + |d|;
    assert host[..7] == "doppler" && host[m..m + 4] == ":443";
    assert DopplerMatchAt(host, 0, m);
    var r := FindDoppler(host, 0);
    assert r.Some? && r.value.0 == 0;
    assert r.value.1 >= m;
    assert host[7..m] == d;
  }

  // ---- (https?://)[^.]+(\..*) ----

  /**
   * `(https?://)[^.]+(\..*)` can match from `i` with scheme `scheme`, its
   * second group from `d` to `e`.
   */
  predicate ApiMatchAt(s: string, i: nat, scheme: string, d: nat, e: nat) {
    && (scheme == "http://" || scheme == "https://")
    && StartsWithAt(s, i, scheme)
    && i + |scheme| < d < e <= |s|
    && s[d] == '.'
    && (forall t :: i + |scheme| <= t < d ==> s[t] != '.')
    && (forall t :: d < t < e ==> s[t] != '\n')
  }

  /** The match when the pattern is tried at `i`: the scheme, and the greedy second group. */
  function ApiAt(s: string, i: nat): (r: Option<(string, nat, nat)>)
    requires i <= |s|
    ensures r.Some? ==> ApiMatchAt(s, i, r.value.0, r.value.1, r.value.2)
    ensures r.Some? ==> forall scheme, d: nat, e: nat :: ApiMatchAt(s, i, scheme, d, e) ==>
      scheme == r.value.0 && d == r.value.1 && e <= r.value.2
    ensures r.None? ==> forall scheme, d: nat, e: nat :: !ApiMatchAt(s, i, scheme, d, e)
  {
    var scheme := if StartsWithAt(s, i, "https://") then "https://" else "http://";
    SchemesExclusive(s, i);
    if !StartsWithAt(s, i, scheme) then None
    else
      var j := i + |scheme|;
      var d := FirstFrom(s, j, '.');
      if d == j || d == |s| then None
      else Some((scheme, d, FirstFrom(s, d + 1, '\n')))
  }

  /** At one position at most one of the two schemes can start. */
  lemma SchemesExclusive(s: string, i: nat)
    ensures StartsWithAt(s, i, "https://") ==> !StartsWithAt(s, i, "http://")
  {
    if StartsWithAt(s, i, "https://") {
      assert s[i + 4] == s[i..i + 8][4];
    }
  }

  /**
   * `regexp.MustCompile("(https?://)[^.]+(\\..*)").FindStringSubmatch(s)`
   * from position `i` on: the leftmost start, its scheme and second group.
   */
  function FindApi(s: string, i: nat): (r: Option<(nat, string, nat, nat)>)
    requires i <= |s|
    ensures r.Some? ==> i <= r.value.0 && ApiMatchAt(s, r.value.0, r.value.1, r.value.2, r.value.3)
    ensures r.Some? ==> forall e: nat :: e > r.value.3 ==> !ApiMatchAt(s, r.value.0, r.value.1, r.value.2, e)
    ensures r.Some? ==> forall a: nat, scheme, d: nat, e: nat :: i <= a < r.value.0 ==> !ApiMatchAt(s, a, scheme, d, e)
    ensures r.None? ==> forall a: nat, scheme, d: nat, e: nat :: i <= a ==> !ApiMatchAt(s, a, scheme, d, e)
    decreases |s| - i
  {
    match ApiAt(s, i)
    case Some((scheme, d, e)) => Some((i, scheme, d, e))
    case None => if i == |s| then None else FindApi(s, i + 1)
  }

  /**
   * For scheme + host + rest with a host label free of "." and a rest that
   * starts with "." and has no line break, the match starts at 0 and its
   * second group is all of rest.
   */
  lemma ApiOfUrl(scheme: string, host: string, rest: string)
    requires scheme == "http://" || scheme == "https://"
    requires host != [] && '.' !in host
    requires rest != [] && rest[0] == '.' && '\n' !in rest
    ensures FindApi(scheme + host + rest, 0) == Some((0, scheme, |scheme| + |host|, |scheme + host + rest|))
  {
    var s := scheme + host + rest;
    var d := |scheme| + |host|;
    assert s[..|scheme|] == scheme;
    assert forall t :: |scheme| <= t < d ==> s[t] == host[t - |scheme|];
    assert s[d] == '.';
    assert forall t :: d < t < |s| ==> s[t] == rest[t - d];
    assert ApiMatchAt(s, 0, scheme, d, |s|);
  }

  /** Without a "." there is no match. */
  lemma ApiNeedsDot(s: string)
    requires '.' !in s
    ensures FindApi(s, 0).None?
  {
  }
}

=== FILE: renderer.dfy ===
/**
 * output/renderer.go: renders the calculator's per-instance usage as a
 * two-column table, a tip and spike warnings. As in `AppRenderer`, the
 * display's calls are returned as a trace and its `ShowTable` error is an input.
 */
module Renderer {
  import opened GoLib
  import opened Display
  import Metadata
  import Calculator

  type InstanceReport = Calculator.InstanceReport

  /** The header, naming the application, its org and space, and the user. */
  function Header(info: Metadata.CFAppInfo): (c: Call)
    ensures c.ShowMessage? && c.message.Format? && c.message.format == AppInfoFormat
    ensures c.message.args == [EntityName(info.app.name), EntityName(info.org),
                               EntityName(info.space), EntityName(info.username)]
  {
    ShowMessage(AppInfoHeader(info.app.name, info.org, info.space, info.username))
  }

  const Headers: seq<Text> := [Str(""), Colorize(Str("usage"), Bold)]

  /** The two cells of a report before colouring: "#id" and the usage. */
  function Cells(report: InstanceReport): seq<Text> {
    [Format("#%d", [Int(report.instanceID)]), Percent(report.entitlementUsage)]
  }

  /** A report's row: both cells in the colour its usage calls for. */
  function Row(report: InstanceReport): seq<Text> {
    Paint(Cells(report), RowColor(report.entitlementUsage))
  }

  function Usages(reports: seq<InstanceReport>): (ratios: seq<real>)
    ensures |ratios| == |reports|
    ensures forall i :: 0 <= i < |reports| ==> ratios[i] == reports[i].entitlementUsage
  {
    seq(|reports|, i requires 0 <= i < |reports| => reports[i].entitlementUsage)
  }

  /** A report gets a spike warning: a recorded spike and a usage of at most 1. */
  predicate ShowsSpike(report: InstanceReport) {
    Calculator.HasRecordedSpike(report) && report.entitlementUsage <= 1.0
  }

  function Warnings(spikes: seq<InstanceReport>): (calls: seq<Call>)
    ensures |calls| == |spikes|
  {
    seq(|spikes|, k requires 0 <= k < |spikes| =>
      ShowMessage(SpikeWarning(spikes[k].instanceID, spikes[k].lastSpikeFrom, spikes[k].lastSpikeTo)))
  }

  /** The calls after a successful `ShowTable`: the tip when the status is set, then one warning per spike. */
  function Epilogue(reports: seq<InstanceReport>): seq<Call> {
    var status := StatusOf(Usages(reports));
    (if status != "" then [ShowMessage(Tip(status))] else []) + Warnings(Filter(reports, ShowsSpike))
  }

  /** The loop over the reports: one row per report, the status, and the reports that get a spike warning. */
  method BuildRows(instanceReports: seq<InstanceReport>) returns (rows: seq<seq<Text>>, status: string, reportsWithSpikes: seq<InstanceReport>)
    ensures |rows| == |instanceReports|
    ensures forall i :: 0 <= i < |instanceReports| ==> rows[i] == Row(instanceReports[i])
    ensures status == StatusOf(Usages(instanceReports))
    ensures reportsWithSpikes == Filter(instanceReports, ShowsSpike)
  {
    rows := [];
    status := "";
    reportsWithSpikes := [];
    ghost var ratios := Usages(instanceReports);
    for i := 0 to |instanceReports|
      invariant |rows| == i
      invariant forall k :: 0 <= k < i ==> rows[k] == Row(instanceReports[k])
      invariant status == StatusOf(ratios[..i])
      invariant reportsWithSpikes == Filter(instanceReports[..i], ShowsSpike)
    {
      var report := instanceReports[i];
      StatusOfSnoc(ratios, i);
      FilterSnoc(instanceReports, i, ShowsSpike);
      ghost var before := status;
      var instanceID := Format("#%d", [Int(report.instanceID)]);
      var entitlementRatio := Percent(report.entitlementUsage);
      if report.entitlementUsage > 1.0 {
        status := "over";
        instanceID := Colorize(instanceID, Red);
        entitlementRatio := Colorize(entitlementRatio, Red);
      } else if report.entitlementUsage > 0.95 {
        if status == "" {
          status := "near";
        }
        instanceID := Colorize(instanceID, Yellow);
        entitlementRatio := Colorize(entitlementRatio, Yellow);
      }
      if Calculator.HasRecordedSpike(report) && report.entitlementUsage <= 1.0 {
        reportsWithSpikes := reportsWithSpikes + [report];
      }
      assert [instanceID, entitlementRatio] == Row(report);
      ghost var done := rows;
      rows := rows + [[instanceID, entitlementRatio]];
      forall k | 0 <= k <= i ensures rows[k] == Row(instanceReports[k]) {
        if k < i {
          assert rows[k] == done[k];
        }
      }
      assert status == NextStatus(before, ratios[i]);
    }
    assert ratios[..|instanceReports|] == ratios;
    assert instanceReports[..|instanceReports|] == instanceReports;
  }

  /** The loop over the reports with spikes: one warning each, in order. */
  method ShowWarnings(reportsWithSpikes: seq<InstanceReport>) returns (calls: seq<Call>)
    ensures calls == Warnings(reportsWithSpikes)
  {
    calls := [];
    for j := 0 to |reportsWithSpikes|
      invariant calls == Warnings(reportsWithSpikes[..j])
    {
      var report := reportsWithSpikes[j];
      var warning: Text;
      if report.lastSpikeFrom == report.lastSpikeTo {
        warning := Colorize(Format(SpikeAtFormat,
          [Int(report.instanceID), Date(report.lastSpikeFrom)]), Yellow);
      } else {
        warning := Colorize(Format(SpikeRangeFormat,
          [Int(report.instanceID), Date(report.lastSpikeFrom), Date(report.lastSpikeTo)]), Yellow);
      }
      assert Warnings(reportsWithSpikes[..j + 1]) == Warnings(reportsWithSpikes[..j]) + [ShowMessage(warning)];
      calls := calls + [ShowMessage(warning)];
    }
    assert reportsWithSpikes[..|reportsWithSpikes|] == reportsWithSpikes;
  }

  /**
   * `Renderer.ShowInstanceReports`: the header, then the table with one row
   * per report in input order; the display's table error is returned before
   * anything else is shown; otherwise the tip and the spike warnings follow.
   */
  method ShowInstanceReports(info: Metadata.CFAppInfo, instanceReports: seq<InstanceReport>, tableErr: Option<Error>)
    returns (err: Option<Error>, calls: seq<Call>)
    ensures |calls| >= 2 && calls[0] == Header(info)
    ensures calls[1].ShowTable? && calls[1].headers == Headers
    ensures |calls[1].rows| == |instanceReports|
    ensures forall i :: 0 <= i < |instanceReports| ==> calls[1].rows[i] == Row(instanceReports[i])
    ensures err == tableErr
    ensures tableErr.Some? ==> |calls| == 2
    ensures tableErr.None? ==> calls[2..] == Epilogue(instanceReports)
  {
    var rows, status, reportsWithSpikes := BuildRows(instanceReports);
    calls := [Header(info), ShowTable(Headers, rows)];
    if tableErr.Some? {
      return tableErr, calls;
    }
    var tip: seq<Call> := [];
    if status != "" {
      tip := [ShowMessage(Tip(status))];
    }
    var warnings := ShowWarnings(reportsWithSpikes);
    var epilogue := tip + warnings;
    assert epilogue == Epilogue(instanceReports);
    var table := calls;
    calls := table + epilogue;
    assert |table| == 2 && calls[2..] == epilogue;
    return None, calls;
  }

  /** Both cells are red iff the usage is above 1, yellow iff within (0.95, 1], and plain otherwise. */
  lemma RowColoring(report: InstanceReport)
    ensures |Row(report)| == 2
    ensures report.entitlementUsage > 1.0 <==>
      Row(report) == [Colorize(Cells(report)[0], Red), Colorize(Cells(report)[1], Red)]
    ensures 0.95 < report.entitlementUsage <= 1.0 <==>
      Row(report) == [Colorize(Cells(report)[0], Yellow), Colorize(Cells(report)[1], Yellow)]
    ensures report.entitlementUsage <= 0.95 <==> Row(report) == Cells(report)
  {
    var v := report.entitlementUsage;
    if v <= 0.95 {
      assert Row(report)[0] == Cells(report)[0];
    } else {
      assert Row(report)[0] != Cells(report)[0];
    }
  }

  /**
   * The tip follows the table iff some usage is above 0.95, and it says
   * "over" iff some usage is above 1 and "near" otherwise.
   */
  lemma TipMeaning(reports: seq<InstanceReport>)
    ensures StatusOf(Usages(reports)) != "" <==> exists i :: 0 <= i < |reports| && reports[i].entitlementUsage > 0.95
    ensures StatusOf(Usages(reports)) == "over" <==> exists i :: 0 <= i < |reports| && reports[i].entitlementUsage > 1.0
    ensures StatusOf(Usages(reports)) in {"", "over", "near"}
  {
    var ratios := Usages(reports);
    StatusMeaning(ratios);
    if StatusOf(ratios) != "" && StatusOf(ratios) != "over" {
      assert exists i :: 0 <= i < |ratios| && ratios[i] > 0.95;
    }
  }

  /**
   * The warnings are one per report with a recorded spike and a usage of at
   * most 1, in input order, and no others.
   */
  lemma WarningsInOrder(reports: seq<InstanceReport>) returns (idx: seq<nat>)
    ensures |Warnings(Filter(reports, ShowsSpike))| == |idx|
    ensures forall k :: 0 <= k < |idx| ==>
      && idx[k] < |reports| && ShowsSpike(reports[idx[k]])
      && Warnings(Filter(reports, ShowsSpike))[k] ==
           ShowMessage(SpikeWarning(reports[idx[k]].instanceID, reports[idx[k]].lastSpikeFrom, reports[idx[k]].lastSpikeTo))
    ensures forall k, l :: 0 <= k < l < |idx| ==> idx[k] < idx[l]
    ensures forall i :: 0 <= i < |reports| ==> (ShowsSpike(reports[i]) <==> i in idx)
  {
    idx := FilterIndices(reports, ShowsSpike);
  }
}

=== FILE: reporter.dfy ===
/**
 * reporter/reporter.go: one report per known instance, from the current,
 * average and last-spike fetchers, ordered by instance index. The three
 * fetchers' answers are inputs.
 */
module Reporter {
  import opened GoLib
  import opened Strconv
  import Metadata
  import opened FetcherData

  datatype HistoricalUsage = HistoricalUsage(value: real, lastSpikeFrom: Time, lastSpikeTo: Time)
  datatype CurrentUsage = CurrentUsage(value: real)
  datatype InstanceReport = InstanceReport(instanceID: int, historicalUsage: HistoricalUsage, currentUsage: CurrentUsage)

  /** `InstanceReport{}` */
  const ZeroReport: InstanceReport := InstanceReport(0, HistoricalUsage(0.0, ZeroTime, ZeroTime), CurrentUsage(0.0))

  /** `HasRecordedSpike`: the spike's end is not the zero time. */
  predicate HasRecordedSpike(r: InstanceReport): (b: bool)
    ensures b <==> r.historicalUsage.lastSpikeTo.unixNanos != ZeroTimeUnixSeconds * NanosPerSecond
    ensures After(r.historicalUsage.lastSpikeTo, ZeroTime) ==> b
  {
    !IsZero(r.historicalUsage.lastSpikeTo)
  }

  type PerInstance = map<int, seq<InstanceData>>

  /** `perInstance[id]`: nil, of length 0, when the id is absent. */
  function DataOf(perInstance: PerInstance, id: int): (d: seq<InstanceData>)
    ensures id !in perInstance ==> d == []
  {
    Lookup(perInstance, id, [])
  }

  /** Both usages needed for instance `id` are there. */
  predicate Covered(current: PerInstance, average: PerInstance, id: int) {
    |DataOf(current, id)| > 0 && |DataOf(average, id)| > 0
  }

  /** The error for an instance lacking data: current usage is checked first. */
  function MissingError(current: PerInstance, id: int): Error {
    if |DataOf(current, id)| == 0 then Error("no current usage for instance id " + Itoa(id))
    else Error("no average usage for instance id " + Itoa(id))
  }

  /** The report of a covered instance: the first current and average points, and the first spike if there is one. */
  function ReportFor(current: PerInstance, average: PerInstance, lastSpike: PerInstance, id: int): (r: InstanceReport)
    requires Covered(current, average, id)
    ensures r.instanceID == id
    ensures r.currentUsage.value == current[id][0].value
    ensures r.historicalUsage.value == average[id][0].value
    ensures |DataOf(lastSpike, id)| > 0 ==> && r.historicalUsage.lastSpikeFrom == lastSpike[id][0].from
                                            && r.historicalUsage.lastSpikeTo == lastSpike[id][0].to
    ensures |DataOf(lastSpike, id)| == 0 ==> r.historicalUsage.lastSpikeFrom == ZeroTime == r.historicalUsage.lastSpikeTo
  {
    var report := InstanceReport(id, HistoricalUsage(average[id][0].value, ZeroTime, ZeroTime), CurrentUsage(current[id][0].value));
    if |DataOf(lastSpike, id)| > 0 then
      report.(historicalUsage := report.historicalUsage.(lastSpikeFrom := lastSpike[id][0].from,
                                                         lastSpikeTo := lastSpike[id][0].to))
    else report
  }

  /** The instance ids the application info lists. */
  function InstanceIDs(instances: map<int, Metadata.CFAppInstance>): set<int> {
    set k | k in instances :: instances[k].instanceID
  }

  /** `sortByInstance`: element i is the report for index i, or the zero report when there is none. */
  function ByInstance(reports: map<int, InstanceReport>): (r: seq<InstanceReport>)
    ensures |r| == |reports|
    ensures forall i :: 0 <= i < |r| ==> r[i] == Lookup(reports, i, ZeroReport)
  {
    seq(|reports|, i => Lookup(reports, i, ZeroReport))
  }

  /** `sortByInstance`, the counting loop. */
  method SortByInstance(reports: map<int, InstanceReport>) returns (result: seq<InstanceReport>)
    ensures result == ByInstance(reports)
  {
    result := [];
    var i := 0;
    while i < |reports|
      invariant 0 <= i <= |reports|
      invariant result == ByInstance(reports)[..i]
    {
      result := result + [Lookup(reports, i, ZeroReport)];
      i := i + 1;
    }
  }

  /** The report of every listed instance, under its id. */
  function AllReports(instances: map<int, Metadata.CFAppInstance>, current: PerInstance, average: PerInstance, lastSpike: PerInstance)
    : map<int, InstanceReport>
    requires forall id :: id in InstanceIDs(instances) ==> Covered(current, average, id)
  {
    map id | id in InstanceIDs(instances) :: ReportFor(current, average, lastSpike, id)
  }

  /** The reports the loop collected are those of every listed instance. */
  lemma CollectedAll(
    instances: map<int, Metadata.CFAppInstance>, current: PerInstance, average: PerInstance, lastSpike: PerInstance,
    latestReports: map<int, InstanceReport>)
    requires forall k :: k in instances ==> Covered(current, average, instances[k].instanceID)
    requires forall id :: id in latestReports <==> exists k :: k in instances && instances[k].instanceID == id
    requires forall id :: id in latestReports ==> Covered(current, average, id) && latestReports[id] == ReportFor(current, average, lastSpike, id)
    ensures forall id :: id in InstanceIDs(instances) ==> Covered(current, average, id)
    ensures latestReports == AllReports(instances, current, average, lastSpike)
  {
    var expected := AllReports(instances, current, average, lastSpike);
    forall id
      ensures id in latestReports <==> id in expected
      ensures id in latestReports ==> latestReports[id] == expected[id]
    {
    }
  }

  /**
   * The loop of `CreateInstanceReports` over the listed instances, in any
   * order: the error for some instance lacking data, or the report of
   * every listed instance when all are covered.
   */
  method CollectReports(instances: map<int, Metadata.CFAppInstance>, current: PerInstance, average: PerInstance, lastSpike: PerInstance)
    returns (r: ErrorOr<map<int, InstanceReport>>)
    ensures (forall id :: id in InstanceIDs(instances) ==> Covered(current, average, id)) ==>
      r == Ok(AllReports(instances, current, average, lastSpike))
    ensures r.Ok? ==> forall id :: id in InstanceIDs(instances) ==> Covered(current, average, id)
    ensures r.Err? ==> exists id :: id in InstanceIDs(instances) && !Covered(current, average, id) && r.error == MissingError(current, id)
  {
    var latestReports: map<int, InstanceReport> := map[];
    var todo := instances.Keys;
    while todo != {}
      invariant todo <= instances.Keys
      invariant forall k :: k in instances && k !in todo ==> Covered(current, average, instances[k].instanceID)
      invariant forall id :: id in latestReports <==> exists k :: k in instances && k !in todo && instances[k].instanceID == id
      invariant forall id :: id in latestReports ==>
        Covered(current, average, id) && latestReports[id] == ReportFor(current, average, lastSpike, id)
      decreases todo
    {
      ghost var some := SomeMember(todo);
      var k :| k in todo;
      var instance := instances[k];
      assert instance.instanceID in InstanceIDs(instances);
      if |DataOf(current, instance.instanceID)| == 0 {
        return Err(Error("no current usage for instance id " + Itoa(instance.instanceID)));
      }
      var currentUsage := current[instance.instanceID][0];
      if |DataOf(average, instance.instanceID)| == 0 {
        assert !Covered(current, average, instance.instanceID);
        assert MissingError(current, instance.instanceID) == Error("no average usage for instance id " + Itoa(instance.instanceID));
        return Err(Error("no average usage for instance id " + Itoa(instance.instanceID)));
      }
      var averageUsage := average[instance.instanceID][0];
      var report := InstanceReport(instance.instanceID, HistoricalUsage(averageUsage.value, ZeroTime, ZeroTime), CurrentUsage(currentUsage.value));
      if |DataOf(lastSpike, instance.instanceID)| > 0 {
        var spike := lastSpike[instance.instanceID][0];
        report := report.(historicalUsage := report.historicalUsage.(lastSpikeFrom := spike.from, lastSpikeTo := spike.to));
      }
      latestReports := latestReports[instance.instanceID := report];
      todo := todo - {k};
    }
    CollectedAll(instances, current, average, lastSpike, latestReports);
    return Ok(latestReports);
  }

  /**
   * `Reporter.CreateInstanceReports`: the current, average and last-spike
   * errors in that order; then, when every instance is covered, its
   * reports by index; otherwise the error for some instance lacking data
   * (which one depends on Go's map iteration order).
   */
  method CreateInstanceReports(
    appInfo: Metadata.CFAppInfo,
    currentResult: ErrorOr<PerInstance>,
    averageResult: ErrorOr<PerInstance>,
    lastSpikeResult: ErrorOr<PerInstance>)
    returns (r: ErrorOr<seq<InstanceReport>>)
    ensures currentResult.Err? ==> r == Err(currentResult.error)
    ensures currentResult.Ok? && averageResult.Err? ==> r == Err(averageResult.error)
    ensures currentResult.Ok? && averageResult.Ok? && lastSpikeResult.Err? ==> r == Err(lastSpikeResult.error)
    ensures currentResult.Ok? && averageResult.Ok? && lastSpikeResult.Ok? ==>
      var current, average := currentResult.value, averageResult.value;
      && (r.Ok? <==> forall id :: id in InstanceIDs(appInfo.instances) ==> Covered(current, average, id))
      && (r.Ok? ==> r == Ok(ByInstance(AllReports(appInfo.instances, current, average, lastSpikeResult.value))))
      && (r.Err? ==> exists id :: id in InstanceIDs(appInfo.instances) && !Covered(current, average, id)
                                  && r.error == MissingError(current, id))
  {
    if currentResult.Err? {
      return Err(currentResult.error);
    }
    if averageResult.Err? {
      return Err(averageResult.error);
    }
    if lastSpikeResult.Err? {
      return Err(lastSpikeResult.error);
    }
    var latestReports := CollectReports(appInfo.instances, currentResult.value, averageResult.value, lastSpikeResult.value);
    if latestReports.Err? {
      return Err(latestReports.error);
    }
    var sorted := SortByInstance(latestReports.value);
    return Ok(sorted);
  }

  /**
   * When the instance indexes are exactly 0 … n-1, the result holds every
   * report once, in strictly ascending instance order.
   */
  lemma ByInstanceContiguous(reports: map<int, InstanceReport>)
    requires forall id :: id in reports <==> 0 <= id < |reports|
    requires forall id :: id in reports ==> reports[id].instanceID == id
    ensures var r := ByInstance(reports);
      && (forall i, j :: 0 <= i < j < |r| ==> r[i].instanceID < r[j].instanceID)
      && (forall id :: id in reports ==> reports[id] in r)
  {
    var r := ByInstance(reports);
    forall id | id in reports ensures reports[id] in r {
      assert r[id] == reports[id];
    }
  }

  /**
   * Indexes with a gap lose reports: for instances 0 and 2, the result is
   * the report of 0 followed by the zero report.
   */
  lemma ByInstanceWithGap(r0: InstanceReport, r2: InstanceReport)
    ensures ByInstance(map[0 := r0, 2 := r2]) == [r0, ZeroReport]
  {
    var m := map[0 := r0, 2 := r2];
    assert m.Keys == {0, 2};
    assert |m| == 2;
  }
}

=== FILE: results.dfy ===
/**
 * result/result.go: what a command ends with. A failure carries an error
 * message, and either kind may carry a warning; writing a result to the
 * CLI's UI shows the error, then the warning, each only when there is one.
 */
module Results {
  import opened GoLib
  import opened Display

  /** The warning is display text, since callers colour it; `Str("")` is Go's empty string. */
  datatype Result = Result(isFailure: bool, errorMessage: string, warningMessage: Text)

  const NoWarning: Text := Str("")

  /** A call on the CLI's UI. */
  datatype UiCall = Failed(message: string) | Warn(warning: Text)

  /** `Result.IsFailure` */
  predicate IsFailure(r: Result): (b: bool)
    ensures b <==> r.isFailure
  {
    r.isFailure
  }

  /** `Failure`: a failure with the given message and no warning. */
  function Failure(errorMessage: string): (r: Result)
    ensures IsFailure(r) && r.errorMessage == errorMessage && r.warningMessage == NoWarning
  {
    Result(true, errorMessage, NoWarning)
  }

  /** `FailureFromError`: a failure whose message is the error's text, with no warning. */
  function FailureFromError(err: Error): (r: Result)
    ensures IsFailure(r) && r.errorMessage == err.message && r.warningMessage == NoWarning
  {
    Result(true, err.message, NoWarning)
  }

  /** `Success`: not a failure, with neither message. */
  function Success(): (r: Result)
    ensures !IsFailure(r) && r.errorMessage == "" && r.warningMessage == NoWarning
  {
    Result(false, "", NoWarning)
  }

  /** `Result.WithWarning`: the same outcome and error message, and the given warning in place of any earlier one. */
  function WithWarning(r: Result, warning: Text): (w: Result)
    ensures IsFailure(w) == IsFailure(r) && w.errorMessage == r.errorMessage
    ensures w.warningMessage == warning
  {
    Result(r.isFailure, r.errorMessage, warning)
  }

  /** `Result.WriteTo`: the error when there is one, then the warning when there is one. */
  function WriteTo(r: Result): (calls: seq<UiCall>)
    ensures |calls| == (if r.errorMessage != "" then 1 else 0) + (if r.warningMessage != NoWarning then 1 else 0)
    ensures r.errorMessage != "" ==> calls[0] == Failed(r.errorMessage)
    ensures r.warningMessage != NoWarning ==> calls[|calls| - 1] == Warn(r.warningMessage)
  {
    (if r.errorMessage != "" then [Failed(r.errorMessage)] else [])
      + (if r.warningMessage != NoWarning then [Warn(r.warningMessage)] else [])
  }

  /** A success writes nothing; a warning is written after the error it accompanies. */
  lemma WriteToOrder(err: Error, warning: Text)
    ensures WriteTo(Success()) == []
    ensures err.message != "" ==> WriteTo(FailureFromError(err)) == [Failed(err.message)]
    ensures err.message != "" && warning != NoWarning ==>
      WriteTo(WithWarning(FailureFromError(err), warning)) == [Failed(err.message), Warn(warning)]
  {
  }

  /** The warning every runner adds when the CPU entitlement data could not be fetched, in bold. */
  const FeatureWarning: Text :=
    Colorize(Str("Your Cloud Foundry may not have enabled the CPU Entitlements feature. Please consult your operator."), Bold)
}

=== FILE: strconv.dfy ===
/**
 * The parts of Go's `strconv` that the plugin uses: `Atoi`, decimal
 * formatting (`%d`) and `ParseFloat`, together with the truncating
 * conversion `int64(f)` applied to parsed timestamps.
 */
module Strconv {
  import opened GoLib

  const MinInt64: int := -0x8000_0000_0000_0000
  const MaxInt64: int := 0x7fff_ffff_ffff_ffff

  predicate IsDigit(c: char) {
    '0' <= c <= '9'
  }

  /** Every character is a decimal digit (read from the back, as `DigitsValue` reads them). */
  predicate AllDigits(s: string) {
    s == [] || (AllDigits(s[..|s| - 1]) && IsDigit(s[|s| - 1]))
  }

  lemma {:induction false} AllDigitsAt(s: string, i: nat)
    requires AllDigits(s) && i < |s|
    ensures IsDigit(s[i])
  {
    if i < |s| - 1 {
      AllDigitsAt(s[..|s| - 1], i);
    }
  }

  /** The value of a run of decimal digits, most significant first. */
  function DigitsValue(s: string): (n: nat)
    requires AllDigits(s)
  {
    if s == [] then 0
    else DigitsValue(s[..|s| - 1]) * 10 + (s[|s| - 1] as int - '0' as int)
  }

  /** The optional sign of `Atoi`, and the digits behind it. */
  function SignSplit(s: string): (r: (bool, string))
    ensures |r.1| <= |s|
  {
    if |s| > 0 && (s[0] == '-' || s[0] == '+') then (s[0] == '-', s[1..]) else (false, s)
  }

  /**
   * `strconv.Atoi`: an optional `+` or `-`, then one or more decimal digits,
   * and a value that fits in 64 bits; anything else is an error (None).
   */
  function Atoi(s: string): (r: Option<int>)
    ensures r.Some? ==> MinInt64 <= r.value <= MaxInt64
    ensures r.Some? ==> |s| > 0 && (IsDigit(s[0]) || s[0] == '-' || s[0] == '+')
  {
    var (negative, digits) := SignSplit(s);
    if digits == [] || !AllDigits(digits) then None
    else
      AllDigitsAt(digits, 0);
      var n: int := DigitsValue(digits);
      var v := if negative then -n else n;
      if MinInt64 <= v <= MaxInt64 then Some(v) else None
  }

  /** Decimal digits of a natural number, without leading zeros. */
  function NatDigits(n: nat): (s: string)
    ensures |s| > 0 && AllDigits(s)
    decreases n
  {
    if n < 10 then
      var digit := [('0' as int + n) as char];
      assert digit[..0] == [] && AllDigits([]);
      digit
    else
      var digits := NatDigits(n / 10) + [('0' as int + n % 10) as char];
      assert digits[..|digits| - 1] == NatDigits(n / 10);
      digits
  }

  /** `fmt.Sprintf("%d", n)` */
  function Itoa(n: int): (s: string)
    ensures |s| > 0
  {
    if n < 0 then "-" + NatDigits(-n) else NatDigits(n)
  }

  lemma {:induction false} NatDigitsValue(n: nat)
    ensures DigitsValue(NatDigits(n)) == n
    decreases n
  {
    if n >= 10 {
      NatDigitsValue(n / 10);
      var s := NatDigits(n);
      assert s[..|s| - 1] == NatDigits(n / 10);
    }
  }

  /** Formatting with `%d` and parsing back with `Atoi` round-trip on 64-bit integers. */
  lemma AtoiItoa(n: int)
    requires MinInt64 <= n <= MaxInt64
    ensures Atoi(Itoa(n)) == Some(n)
  {
    if n < 0 {
      NatDigitsValue(-n);
      assert SignSplit(Itoa(n)) == (true, NatDigits(-n));
    } else {
      NatDigitsValue(n);
      AllDigitsAt(NatDigits(n), 0);
      assert SignSplit(Itoa(n)) == (false, NatDigits(n));
    }
  }

  function Pow10(n: nat): (p: nat)
    ensures p > 0
  {
    if n == 0 then 1 else 10 * Pow10(n - 1)
  }

  /** The value of `digits` read as the fraction `0.digits`. */
  function FractionValue(s: string): (f: real)
    requires AllDigits(s)
  {
    DigitsValue(s) as real / Pow10(|s|) as real
  }

  /** The first position of `c` in `s`, if any. */
  function IndexOfChar(s: string, c: char): (r: Option<nat>)
    ensures r.Some? ==> r.value < |s| && s[r.value] == c
  {
    if s == [] then None
    else if s[0] == c then Some(0)
    else match IndexOfChar(s[1..], c)
      case None => None
      case Some(i) => Some(i + 1)
  }

  /**
   * `strconv.ParseFloat(s, 64)` on plain decimal notation: an optional sign,
   * digits, and an optional fraction after one `.`, with at least one digit
   * in all.
   */
  function ParseFloat(s: string): (r: Option<real>)
    ensures r.Some? ==> s != [] && s != "-" && s != "+" && s != "."
    ensures r.Some? && r.value < 0.0 ==> s[0] == '-'
    ensures r.Some? && s[0] == '-' ==> r.value <= 0.0
  {
    var (negative, body) := SignSplit(s);
    var (whole, fraction) := match IndexOfChar(body, '.')
      case None => (body, "")
      case Some(i) => (body[..i], body[i + 1..]);
    if !AllDigits(whole) || !AllDigits(fraction) || whole + fraction == [] then None
    else
      var v := DigitsValue(whole) as real + FractionValue(fraction);
      Some(if negative then -v else v)
  }

  /** `int64(f)`: conversion towards zero. */
  function Trunc(f: real): (n: int)
    ensures 0.0 <= f ==> n as real <= f < n as real + 1.0
    ensures f < 0.0 ==> n as real - 1.0 < f <= n as real
  {
    if f >= 0.0 then f.Floor else -((-f).Floor)
  }

  /** Whole-number timestamps parse to themselves and survive truncation. */
  lemma ParseWholeSeconds(n: nat)
    ensures ParseFloat(NatDigits(n)) == Some(n as real)
    ensures Trunc(n as real) == n
  {
    var s := NatDigits(n);
    NatDigitsValue(n);
    AllDigitsAt(s, 0);
    assert SignSplit(s) == (false, s);
    if IndexOfChar(s, '.').Some? {
      AllDigitsAt(s, IndexOfChar(s, '.').value);
      assert false;
    }
    assert AllDigits([]) && FractionValue([]) == 0.0;
    assert ParseFloat(s) == Some(DigitsValue(s) as real + 0.0);
  }
}

=== FILE: strings.dfy ===
/** `strings.Split` on a one-character separator, and indexing its result. */
module Strings {
  import opened GoLib

  /** `strings.Split(s, string(sep))`: the pieces between separators, in order. */
  function Split(s: string, sep: char): (parts: seq<string>)
    ensures |parts| > 0
    ensures forall i :: 0 <= i < |parts| ==> sep !in parts[i]
  {
    if s == [] then [""]
    else
      var rest := Split(s[1..], sep);
      if s[0] == sep then [""] + rest
      else [[s[0]] + rest[0]] + rest[1..]
  }

  /** `strings.Join(parts, string(sep))` */
  function Join(parts: seq<string>, sep: char): string
    requires |parts| > 0
  {
    if |parts| == 1 then parts[0] else parts[0] + [sep] + Join(parts[1..], sep)
  }

  /** Splitting loses nothing: joining the pieces gives the string back. */
  lemma {:induction false} JoinSplit(s: string, sep: char)
    ensures Join(Split(s, sep), sep) == s
  {
    if s != [] {
      var rest := Split(s[1..], sep);
      JoinSplit(s[1..], sep);
      if s[0] == sep {
        assert Split(s, sep)[1..] == rest;
      } else {
        var parts := Split(s, sep);
        assert parts[1..] == rest[1..];
        if |rest| == 1 {
          assert Join(parts, sep) == [s[0]] + rest[0];
        } else {
          assert Join(parts, sep) == [s[0]] + rest[0] + [sep] + Join(rest[1..], sep);
        }
      }
    }
  }

  /** There is one more piece than separators: a second piece exists iff `sep` occurs. */
  lemma {:induction false} SplitHasSecond(s: string, sep: char)
    ensures |Split(s, sep)| >= 2 <==> sep in s
  {
    if s != [] {
      SplitHasSecond(s[1..], sep);
      assert s == [s[0]] + s[1..];
    }
  }

  /** `strings.Split(s, string(sep))[i]`; an index past the end panics, and only such an index. */
  function SplitIndex(s: string, sep: char, i: nat): (r: ErrorOr<string>)
    ensures r.Err? ==> r.error.Panic?
    ensures r.Ok? <==> i < |Split(s, sep)|
    ensures r.Ok? ==> r.value == Split(s, sep)[i] && sep !in r.value
  {
    var parts := Split(s, sep);
    if i < |parts| then Ok(parts[i]) else Err(Panic("runtime error: index out of range"))
  }
}

=== FILE: token.dfy ===
/**
 * token/token.go: a cache of the CLI's access token, refreshed when its
 * expiry has passed. The expiry is the `exp` claim of the token's payload:
 * the second "."-separated segment, in unpadded base64url (section 5 of
 * RFC 4648, as section 2 of RFC 7515 uses it). The clock, the token source
 * and the JSON decoder are inputs.
 */
module Token {
  import opened GoLib
  import Strings
  import Base64

  /**
   * `json.Unmarshal` of the payload into `{exp int64}`: the decoder's error,
   * or the `exp` claim when the payload has one.
   */
  type ClaimsDecoder = seq<Base64.Byte> -> ErrorOr<Option<int>>

  /**
   * `extractExpirationTimeFromToken`: a panic when the token has no ".";
   * the base64 error or the JSON error, each with its prefix; otherwise the
   * `exp` claim in seconds since the epoch, or the epoch itself without one.
   */
  function ExtractExpirationTime(token: string, decodeClaims: ClaimsDecoder): (r: ErrorOr<Time>)
    ensures r.Err? && r.error.Panic? <==> '.' !in token
    ensures r.Err? && !r.error.Panic? ==>
      r.error.Error? &&
      (|| r.error.message == "failed to decode token from base64: " + Base64.CorruptInput
       || (exists m :: r.error.message == "invalid token: " + m))
    /* the second segment decides: the base64 error, the decoder's own error, or its `exp` */
    ensures |Strings.Split(token, '.')| >= 2 ==>
      match Base64.DecodeString(Strings.Split(token, '.')[1])
      case None => r == Err(Error("failed to decode token from base64: " + Base64.CorruptInput))
      case Some(payload) =>
        match decodeClaims(payload)
        case Err(e) => r == Err(Error("invalid token: " + e.message))
        case Ok(exp) => r == Ok(Unix(if exp.Some? then exp.value else 0))
  {
    Strings.SplitHasSecond(token, '.');
    match Strings.SplitIndex(token, '.', 1)
    case Err(e) => Err(e)
    case Ok(encodedMetadata) =>
      match Base64.DecodeString(encodedMetadata)
      case None => Err(Error("failed to decode token from base64: " + Base64.CorruptInput))
      case Some(decodedMetadata) =>
        match decodeClaims(decodedMetadata)
        case Err(e) => Err(Error("invalid token: " + e.message))
        case Ok(exp) => Ok(Unix(if exp.Some? then exp.value else 0))
  }

  /** Splitting at the first "." of a string whose head has none gives the head, then the rest's pieces. */
  lemma {:induction false} SplitAfterHead(head: string, rest: string)
    requires '.' !in head
    ensures Strings.Split(head + "." + rest, '.') == [head] + Strings.Split(rest, '.')
  {
    if head == [] {
      assert head + "." + rest == "." + rest;
    } else {
      SplitAfterHead(head[1..], rest);
      var s := head + "." + rest;
      assert s[0] == head[0] && s[1..] == head[1..] + "." + rest;
      assert [head[0]] + head[1..] == head;
    }
  }

  /** The base64url alphabet has no ".". */
  lemma EncodedHasNoDot(b: seq<Base64.Byte>)
    ensures '.' !in Base64.EncodeToString(b)
  {
    var s := Base64.EncodeToString(b);
    forall i | 0 <= i < |s| ensures s[i] != '.' {
      assert s[i] == Base64.AlphabetChar(Base64.BytesToSextets(b)[i]);
    }
  }

  /**
   * A token built as header "." base64url(payload) "." signature expires at
   * the payload's `exp` claim, or at the epoch when it has none.
   */
  lemma ExpirationOfWellFormedToken(header: string, payload: seq<Base64.Byte>, signature: string, decodeClaims: ClaimsDecoder)
    requires '.' !in header
    requires decodeClaims(payload).Ok?
    ensures var exp := decodeClaims(payload).value;
      ExtractExpirationTime(header + "." + Base64.EncodeToString(payload) + "." + signature, decodeClaims)
        == Ok(Unix(if exp.Some? then exp.value else 0))
  {
    var encoded := Base64.EncodeToString(payload);
    var token := header + "." + encoded + "." + signature;
    assert token == header + "." + (encoded + "." + signature);
    SplitAfterHead(header, encoded + "." + signature);
    EncodedHasNoDot(payload);
    SplitAfterHead(encoded, signature);
    Base64.DecodeEncode(payload);
  }

  /**
   * A token built as header "." base64url(payload) "." signature whose
   * claims do not decode gives the decoder's own message after "invalid token: ".
   */
  lemma ClaimsErrorOfWellFormedToken(header: string, payload: seq<Base64.Byte>, signature: string, decodeClaims: ClaimsDecoder)
    requires '.' !in header
    requires decodeClaims(payload).Err?
    ensures ExtractExpirationTime(header + "." + Base64.EncodeToString(payload) + "." + signature, decodeClaims)
      == Err(Error("invalid token: " + decodeClaims(payload).error.message))
  {
    var encoded := Base64.EncodeToString(payload);
    var token := header + "." + encoded + "." + signature;
    assert token == header + "." + (encoded + "." + signature);
    SplitAfterHead(header, encoded + "." + signature);
    EncodedHasNoDot(payload);
    SplitAfterHead(encoded, signature);
    Base64.DecodeEncode(payload);
  }

  /** A payload that is not unpadded base64url gives the base64 error, whatever the claims. */
  lemma PaddedPayloadRejected(header: string, payload: string, signature: string, decodeClaims: ClaimsDecoder)
    requires '.' !in header && '.' !in payload && '=' in payload
    ensures ExtractExpirationTime(header + "." + payload + "." + signature, decodeClaims)
      == Err(Error("failed to decode token from base64: " + Base64.CorruptInput))
  {
    var token := header + "." + payload + "." + signature;
    assert token == header + "." + (payload + "." + signature);
    SplitAfterHead(header, payload + "." + signature);
    SplitAfterHead(payload, signature);
    Base64.PaddingRejected(payload);
  }

  /** `Getter`: the last token fetched and the time it expires. */
  class Getter {
    var currentToken: string
    var tokenExpirationTime: Time

    /** `NewGetter`: no token yet, and an expiry of the construction time, so the first call refreshes. */
    constructor(now: Time)
      ensures currentToken == "" && tokenExpirationTime == now
    {
      currentToken := "";
      tokenExpirationTime := now;
    }

    /** `tokenExpired`: the clock is strictly after the stored expiry. */
    predicate TokenExpired(now: Time): (b: bool)
      reads this
      ensures b <==> now.unixNanos > tokenExpirationTime.unixNanos
      /* once expired, the token stays expired at every later clock reading */
      ensures b ==> forall later: Time :: !After(now, later) ==> After(later, tokenExpirationTime)
    {
      After(now, tokenExpirationTime)
    }

    /**
     * `refreshToken`: on a source error, "" with that error and nothing
     * changed; otherwise the token is cached and its expiry stored (the zero
     * time on an error), and the token is returned unless there was an error.
     */
    method RefreshToken(fetched: ErrorOr<string>, decodeClaims: ClaimsDecoder) returns (r: ErrorOr<string>)
      modifies this
      ensures fetched.Err? ==> r == Err(fetched.error) && unchanged(this)
      ensures fetched.Ok? ==> currentToken == fetched.value
      ensures fetched.Ok? ==> match ExtractExpirationTime(fetched.value, decodeClaims)
        case Ok(t) => tokenExpirationTime == t && r == Ok(fetched.value)
        case Err(e) => r == Err(e) && tokenExpirationTime == (if e.Panic? then old(tokenExpirationTime) else ZeroTime)
    {
      if fetched.Err? {
        return Err(fetched.error);
      }
      var token := fetched.value;
      currentToken := token;
      var expiry := ExtractExpirationTime(token, decodeClaims);
      if expiry.Err? {
        if !expiry.error.Panic? {
          tokenExpirationTime := ZeroTime;
        }
        return Err(expiry.error);
      }
      tokenExpirationTime := expiry.value;
      return Ok(token);
    }

    /**
     * `Token`: the cached token while the clock has not passed the expiry;
     * otherwise a refresh, which is the only time the source is consulted.
     */
    method Token(now: Time, fetched: ErrorOr<string>, decodeClaims: ClaimsDecoder) returns (r: ErrorOr<string>, refreshed: bool)
      modifies this
      ensures refreshed <==> old(TokenExpired(now))
      ensures !refreshed ==> r == Ok(old(currentToken)) && unchanged(this)
      ensures refreshed && fetched.Err? ==> r == Err(fetched.error) && unchanged(this)
      ensures refreshed && fetched.Ok? ==> currentToken == fetched.value
      ensures refreshed && fetched.Ok? ==> match ExtractExpirationTime(fetched.value, decodeClaims)
        case Ok(t) => tokenExpirationTime == t && r == Ok(fetched.value)
        case Err(e) => r == Err(e) && tokenExpirationTime == (if e.Panic? then old(tokenExpirationTime) else ZeroTime)
      /* after an unreadable expiry, any later call past the zero time refreshes again */
      ensures refreshed && r.Err? && !r.error.Panic? && fetched.Ok? ==>
        forall later: Time :: After(later, ZeroTime) ==> TokenExpired(later)
    {
      if TokenExpired(now) {
        r := RefreshToken(fetched, decodeClaims);
        return r, true;
      }
      return Ok(currentToken), false;
    }
  }
}

=== FILE: usage_metric.dfy ===
/**
 * usagemetric/usagemetric.go: a usage record decoded from a gauge, keeping
 * the instance id as the string the envelope carries.
 */
module UsageMetric {
  import opened GoLib

  datatype UsageMetric = UsageMetric(
    instanceId: string,
    absoluteUsage: real,
    absoluteEntitlement: real,
    containerAge: real)

  const ZeroUsageMetric: UsageMetric := UsageMetric("", 0.0, 0.0, 0.0)

  /** The gauge keys a usage record needs; a missing key is a nil `*GaugeValue`. */
  predicate HasUsageKeys(metric: map<string, real>) {
    "absolute_usage" in metric && "absolute_entitlement" in metric && "container_age" in metric
  }

  /**
   * `FromGaugeMetric`: the zero record and false when a key is missing;
   * otherwise the id verbatim and the three gauge values.
   */
  function FromGaugeMetric(instanceId: string, metric: map<string, real>): (r: (UsageMetric, bool))
    ensures r.1 <==> HasUsageKeys(metric)
    ensures !r.1 ==> r.0 == ZeroUsageMetric
    ensures r.1 ==> && r.0.instanceId == instanceId
                    && r.0.absoluteUsage == metric["absolute_usage"]
                    && r.0.absoluteEntitlement == metric["absolute_entitlement"]
                    && r.0.containerAge == metric["container_age"]
  {
    if "absolute_usage" !in metric then (ZeroUsageMetric, false)
    else if "absolute_entitlement" !in metric then (ZeroUsageMetric, false)
    else if "container_age" !in metric then (ZeroUsageMetric, false)
    else (UsageMetric(instanceId, metric["absolute_usage"], metric["absolute_entitlement"], metric["container_age"]), true)
  }

  /** The gauge an emitter would send for `m`. */
  function GaugeOf(m: UsageMetric): map<string, real> {
    map["absolute_usage" := m.absoluteUsage,
        "absolute_entitlement" := m.absoluteEntitlement,
        "container_age" := m.containerAge]
  }

  /** Decoding the gauge of a record gives the record back. */
  lemma FromGaugeOf(m: UsageMetric)
    ensures FromGaugeMetric(m.instanceId, GaugeOf(m)) == (m, true)
  {
    assert HasUsageKeys(GaugeOf(m));
  }

  /** Extra gauge entries do not change the decoded record. */
  lemma ExtraKeysIgnored(instanceId: string, metric: map<string, real>, key: string, value: real)
    requires key != "absolute_usage" && key != "absolute_entitlement" && key != "container_age"
    ensures FromGaugeMetric(instanceId, metric[key := value]) == FromGaugeMetric(instanceId, metric)
  {
    if HasUsageKeys(metric) {
      assert metric[key := value]["absolute_usage"] == metric["absolute_usage"];
    }
  }

  /** `CPUUsage`: usage over entitlement. */
  function CPUUsage(m: UsageMetric): (ratio: real)
    ensures m.absoluteEntitlement != 0.0 ==> ratio * m.absoluteEntitlement == m.absoluteUsage
    ensures m.absoluteEntitlement > 0.0 ==> (ratio > 1.0 <==> m.absoluteUsage > m.absoluteEntitlement)
  {
    FloatDiv(m.absoluteUsage, m.absoluteEntitlement)
  }
}
